=== FILE: README.md ===
# AIgram core, modelled in Dafny

AIgram is a browser chat client in which every chat is a conversation with an
AI persona. This project models its core as pure functions over immutable
data, and proves what the code promises about them.

- **Entities and stores.** `BaseStore` is a JavaScript `Map` of entities in
  insertion order (`OrderedMap`). It creates entities with an id and
  timestamps, updates them by a shallow merge, and deletes them.
  `ChatEntity` and `MessageEntity` are the validated records, with their
  validation rules and state changes. Message status is PENDING, SENT,
  DELIVERED or FAILED.
- **Repositories.** `ChatRepository` refuses an empty or duplicate chat
  name, lists chats by last activity when their time texts parse, and
  searches them. `MessageRepository`
  lists a chat's messages oldest first, creates user and AI messages,
  changes their status, deletes a chat's messages and counts them. Both
  publish to the application event bus, which is modelled as an appended
  event log (`Events`).
- **Providers.** `AIProvider` holds the shared provider logic:
  - API-key and message validation;
  - the retry loop: three attempts, exponential backoff with jitter, and
    a fixed list of message fragments that mark a failure as retryable.

  `OpenAIProvider` wraps client-library errors into error codes and puts
  the persona's system prompt in front of the conversation.
- **Service facade.** `ChatService` drives the repositories and the
  provider. `sendMessage` stores the user message, asks the provider with
  the chat's history, and then either stores the answer and marks the
  user message DELIVERED, or marks it FAILED.
- **Hooks and cache.** `UseChat` models the send-message hook on the
  TanStack Query cache (`QueryCache`): an optimistic entry, a rollback on
  error, and invalidation on success.
- **First version of the app.** This code is still in the repository:
  `LegacyChats` and `LegacyMessages` (the `chatsStore` and
  `messagesStore` singletons), `OpenAIService`, the old hook
  (`UseChatLegacy`) and the `ChatList` sidebar.
- **Themes.** `Themes` is the registry. `ThemeStorage` persists the
  chosen mode in local, session or in-memory storage. `ThemeStore` is the
  theme store with its toggle cycle and the system colour-scheme
  preference.

Supporting modules:
- `Text` models the JavaScript string operations used: `trim`,
  `toLowerCase`, `includes`, `substring` and number-to-string. Lengths
  and cuts count UTF-16 code units, as `length` and `substring` do: a
  character outside the Basic Multilingual Plane counts two.
- `Sorting` models the stable `Array.prototype.sort` with a comparator.
- `Seqs` models `filter`, counts and sums.
- `Wrappers` holds `Option` and `Result`; a thrown error is an `Err`.
- `Errors` holds the error texts and codes.

The model takes as parameters everything that the code reads from outside
itself:
- the clock, as milliseconds and as the locale time text;
- random id suffixes;
- `Math.random()` jitter;
- the remote completion endpoint, as a function from the attempt number and
  the request to a reply;
- the `Date` parser;
- whether each browser storage is available;
- the colour-scheme preference.

## Model

| member | source | states |
|---|---|---|
| OrderedMap.Empty | src/shared/core/BaseStore.ts:4 | a new `Map` holds no key and lists nothing |
| OrderedMap.Get | src/shared/core/BaseStore.ts:10-12 | `get` finds a value exactly for a stored key, and it is the stored one |
| OrderedMap.Set | src/shared/core/BaseStore.ts:16 | `set` stores the value; a new key goes to the end of the key order, an existing key keeps its position |
| OrderedMap.Delete | src/shared/core/BaseStore.ts:40 | `delete` forgets the key and its position and keeps every other entry and their order |
| OrderedMap.Values | src/shared/core/BaseStore.ts:7 | `Array.from(values())` lists the value of every key in key-insertion order |
| OrderedMap.ValuesAreStored | src/shared/core/BaseStore.ts:6-8 | a value is listed exactly when some key maps to it |
| OrderedMap.SetValues | src/shared/core/BaseStore.ts:14-19 | setting a new key appends its value to the listing; re-setting keeps the length; the value set is always listed |
| OrderedMap.SizeIsKeyCount | src/shared/core/BaseStore.ts:6-8 | the listing has exactly one entry per key |
| BaseStore.Empty | src/shared/core/BaseStore.ts:4 | a new store lists nothing and every (no) entity is under its own id |
| BaseStore.GetAll | src/shared/core/BaseStore.ts:6-8 | `getAll` has one entry per stored id, the i-th being the entity of the i-th inserted id |
| BaseStore.StoredIsListed | src/shared/core/BaseStore.ts:6-8 | everything `getAll` lists is stored, and every stored entity is listed |
| BaseStore.GetById | src/shared/core/BaseStore.ts:10-12 | `getById` finds an entity exactly for a stored id, and it is the stored one |
| BaseStore.Create | src/shared/core/BaseStore.ts:14-19 | a failed `buildEntity` changes nothing and calls no hook; otherwise the entity is stored under its id, `onEntityCreated` runs once with it and it is returned |
| BaseStore.Update | src/shared/core/BaseStore.ts:21-34 | an absent id returns undefined with no change and no hook; otherwise the merged entity with the new `updatedAt` replaces the old one in place and is passed to `onEntityUpdated` |
| BaseStore.Delete | src/shared/core/BaseStore.ts:36-43 | an absent id returns false with no change; otherwise the entity is removed, `onEntityDeleted` gets it and the result is true |
| BaseStore.CreateThenGet | src/shared/core/BaseStore.ts:6-19 | after `create`, `getById` returns the entity; a new id makes `getAll` the old listing plus the entity, a reused id keeps the length |
| BaseStore.DeleteFrame | src/shared/core/BaseStore.ts:36-43 | `delete` leaves every other id's entity alone, leaves the deleted id absent, and shrinks `getAll` by one exactly when it returned true |
| ChatEntity.New | src/entities/Chat/model/Chat.entity.ts:12-20 | the constructor's defaults: an empty id is replaced by a fresh one and an empty timestamp by the current time text (`||`); a missing `createdAt` or `updatedAt` is the clock reading; a missing `isOnline` becomes true but a given false is kept (`??`); name and last message are taken as given |
| ChatEntity.RoundTrip | src/entities/Chat/model/Chat.entity.ts:62-72 | `new ChatEntity(chat.toJSON())` is the same chat when its id and timestamp are non-empty |
| ChatEntity.UpdateLastMessage | src/entities/Chat/model/Chat.entity.ts:23-27 | the chat gets the message, the current time text and a new `updatedAt`; identity, name and online flag are kept |
| ChatEntity.SetOnlineStatus | src/entities/Chat/model/Chat.entity.ts:29-32 | only the online flag and `updatedAt` change; the id, `createdAt`, name, last message and time text are kept |
| ChatEntity.LastMessagePreview | src/entities/Chat/model/Chat.entity.ts:38-42 | no (or an empty) last message gives `* Empty chat *`; one of at most `maxLength` UTF-16 code units is shown whole; a longer one is cut after `maxLength` code units and followed by `...` |
| ChatEntity.DefaultPreviewIsShort | src/entities/Chat/model/Chat.entity.ts:38-42 | with the default `maxLength` of 30 a preview is at most 33 code units long |
| ChatEntity.HasMessages | src/entities/Chat/model/Chat.entity.ts:44-46 | `hasMessages()` holds exactly when the last message has a non-zero length, and without one every preview is the placeholder |
| ChatEntity.HasMessagesAfterUpdate | src/entities/Chat/model/Chat.entity.ts:23-46 | after `updateLastMessage(m)`, `hasMessages()` holds exactly when `m` is non-empty, and a preview long enough for `m` shows `m` |
| ChatEntity.IsValidName | src/entities/Chat/model/Chat.entity.ts:49-51 | a name is valid exactly when it is not blank and its trimmed form is at most 100 code units long |
| ChatEntity.UpdateName | src/entities/Chat/model/Chat.entity.ts:49-59 | a name that is blank or whose trimmed form is over 100 UTF-16 code units throws `Invalid chat name`; otherwise the trimmed name is stored, is itself a valid name, `updatedAt` is the clock, and the id, `createdAt`, last message, time text and online flag are kept |
| ChatEntity.AstralNameTooLong | src/entities/Chat/model/Chat.entity.ts:49-51 | a name of more than fifty characters outside the Basic Multilingual Plane is rejected, though it has at most 100 characters: `length` counts two per character |
| ChatEntity.EmojiNameTooLong | src/entities/Chat/model/Chat.entity.ts:49-51 | sixty emoji make a name `updateName` rejects |
| ChatEntity.IsValidChatData | src/entities/Chat/model/Chat.entity.ts:89-93 | chat data is valid exactly when it has a name with a non-whitespace character |
| MessageEntity.New | src/entities/Message/model/Message.entity.ts:14-23 | the constructor's defaults: an empty id is replaced by a fresh one and an empty timestamp by the current time text; a missing `createdAt` or `updatedAt` is the clock reading; a missing status is SENT for outgoing and DELIVERED for incoming messages; text, chat and direction are taken as given |
| MessageEntity.RoundTrip | src/entities/Message/model/Message.entity.ts:79-90 | `new MessageEntity(message.toJSON())` is the same message when its id and timestamp are non-empty |
| MessageEntity.UpdateStatus | src/entities/Message/model/Message.entity.ts:26-29 | only the status and `updatedAt` change; the id, `createdAt`, text, chat, direction and time text are kept |
| MessageEntity.MarkAsFailed | src/entities/Message/model/Message.entity.ts:39-41 | the message becomes failed, and neither pending nor delivered; `updatedAt` is the clock and every other field is kept |
| MessageEntity.MarkAsDelivered | src/entities/Message/model/Message.entity.ts:43-45 | the message becomes delivered, and neither pending nor failed; `updatedAt` is the clock and every other field is kept |
| MessageEntity.NoTransitionRestriction | src/entities/Message/model/Message.entity.ts:26-45 | status changes are unrestricted: failed can become delivered, delivered can go back to pending |
| MessageEntity.StatusPredicatesPartition | src/entities/Message/model/Message.entity.ts:47-57 | `isPending`, `isFailed` and `isDelivered` (which also covers SENT) hold for exactly one of them on every message |
| MessageEntity.IsDelivered | src/entities/Message/model/Message.entity.ts:55-57 | `isDelivered()` holds exactly for the statuses that are neither PENDING nor FAILED, so also for SENT |
| MessageEntity.UpdateText | src/entities/Message/model/Message.entity.ts:31-37 | blank text or text over 4000 UTF-16 code units throws `Invalid message text`; otherwise the trimmed text, non-empty and at most 4000 code units long, is stored, `updatedAt` is the clock, and the id, `createdAt`, status, chat, direction and time text are kept |
| MessageEntity.IsValidText | src/entities/Message/model/Message.entity.ts:74-76 | text is valid exactly when it is not blank and at most 4000 code units long |
| MessageEntity.DisplayText | src/entities/Message/model/Message.entity.ts:59-63 | a missing or zero `maxLength`, or a text of at most `maxLength` code units, shows the whole text; otherwise the text cut after `maxLength` code units and `...` |
| MessageEntity.CreateUserMessage | src/entities/Message/model/Message.entity.ts:102-108 | a user message is outgoing and PENDING with the given text and chat |
| MessageEntity.CreateAIMessage | src/entities/Message/model/Message.entity.ts:110-116 | an AI message is incoming and DELIVERED with the given text and chat |
| MessageEntity.CreationAllowsLongText | src/entities/Message/model/Message.entity.ts:74-76 | text over 4000 code units fails `isValidText` and `updateText`, yet passes `isValidMessageData` when not blank |
| MessageEntity.IsValidMessageData | src/entities/Message/model/Message.entity.ts:119-125 | message data is valid exactly when text, direction and chat are given and the text is not blank; there is no length bound |
| ChatRepository.Publish | src/entities/Chat/model/ChatRepository.ts:95-105 | creation publishes `chat:created` with the chat, update publishes `chat:updated` with it, deletion publishes nothing, and nothing else is published |
| ChatRepository.PublishAppend | src/entities/Chat/model/ChatRepository.ts:95-105 | the events of two runs of hooks are those of the first followed by those of the second, so the events follow the order of the hooks |
| ChatRepository.BuildEntity | src/entities/Chat/model/ChatRepository.ts:8-13 | invalid chat data throws `Invalid chat data provided`; valid data gives a chat with that name and a non-empty id and timestamp |
| ChatRepository.Create | src/entities/Chat/model/ChatRepository.ts:8-13 | invalid data changes nothing; otherwise the chat is stored under its id and `chat:created` is published with it; validity of the store is kept |
| ChatRepository.Delete | src/shared/core/BaseStore.ts:36-43 | the result is true exactly for a stored id, the id is gone afterwards, and no event is published |
| ChatRepository.FindByName | src/entities/Chat/model/ChatRepository.ts:16-21 | exactly the stored chats whose lower-cased name includes the lower-cased query, in store order |
| ChatRepository.FindByOwnName | src/entities/Chat/model/ChatRepository.ts:16-21 | a stored chat is found by its own name |
| ChatRepository.UpdateLastMessage | src/entities/Chat/model/ChatRepository.ts:23-33 | an unknown id throws `Chat with ID … not found`; otherwise only that chat changes, getting the message and current time, in place, and `chat:updated` is published |
| ChatRepository.CreateNewChat | src/entities/Chat/model/ChatRepository.ts:35-47 | a blank name throws `Chat name cannot be empty`, a name included in a stored name (ignoring case) throws `A chat with this name already exists`, and otherwise a chat with the trimmed name is created and `chat:created` published |
| ChatRepository.NameTaken | src/entities/Chat/model/ChatRepository.ts:40-44 | a name clashes exactly when some stored chat's lower-cased name includes the trimmed, lower-cased name |
| ChatRepository.CreateNewChatRefusesRepeat | src/entities/Chat/model/ChatRepository.ts:35-47 | creating a chat and then asking again with the same name is refused as a duplicate |
| ChatRepository.PartOfStoredNameIsTaken | src/entities/Chat/model/ChatRepository.ts:40-44 | any name contained in a stored name, ignoring case, counts as a duplicate |
| ChatRepository.GetAllSorted | src/entities/Chat/model/ChatRepository.ts:50-61 | `getAllSorted` is a permutation of `getAll` |
| ChatRepository.ActivityOrder | src/entities/Chat/model/ChatRepository.ts:51-60 | the comparator is antisymmetric, and for chats whose timestamps parse it is the difference of their recent-first keys |
| ChatRepository.ActivityOrderOrders | src/entities/Chat/model/ChatRepository.ts:51-60 | on stored chats whose timestamps all parse, the comparator orders by the parsed time, newest first |
| ChatRepository.GetAllSortedRecentFirst | src/entities/Chat/model/ChatRepository.ts:50-61 | when every timestamp parses, the listing runs from the newest time down, and chats with equal times keep their store order |
| ChatRepository.UnparsedListingKeepsStoreOrder | src/entities/Chat/model/ChatRepository.ts:50-61 | when no timestamp parses, as with 12-hour texts such as `02:05 PM` whose minutes are `NaN`, the listing is the store order |
| ChatRepository.SortedListsStored | src/entities/Chat/model/ChatRepository.ts:50-61 | every stored chat appears in `getAllSorted` |
| ChatRepository.Search | src/entities/Chat/model/ChatRepository.ts:64-76 | a blank query gives `getAllSorted()`; otherwise an order-preserving selection of it holding exactly the chats whose name or last message includes the trimmed, lower-cased query |
| ChatRepository.SearchFindsOwnName | src/entities/Chat/model/ChatRepository.ts:64-76 | searching for a stored chat's name finds that chat |
| ChatRepository.GetStats | src/entities/Chat/model/ChatRepository.ts:79-92 | the total is the number of chats, the count is the number with a last message, and the average is their ratio when the count is positive and 0 otherwise, so it lies in [0, 1] |
| MessageRepository.BuildEntity | src/entities/Message/model/MessageRepository.ts:9-14 | invalid message data throws `Invalid message data provided`; valid data gives a message with that text and a non-empty id and timestamp |
| MessageRepository.Create | src/entities/Message/model/MessageRepository.ts:9-14 | invalid data changes nothing; otherwise the message is stored under its id with no event, validity is kept, and a new id is listed last |
| MessageRepository.OfChat | src/entities/Message/model/MessageRepository.ts:17-18 | the filter keeps exactly the listed messages of the chat |
| MessageRepository.GetByChatId | src/entities/Message/model/MessageRepository.ts:16-20 | the chat's messages rearranged (same multiset) and ordered by creation time, oldest first |
| MessageRepository.ListsTheChat | src/entities/Message/model/MessageRepository.ts:16-20 | a message is in the chat's listing exactly when it is stored and belongs to the chat |
| MessageRepository.ListingSize | src/entities/Message/model/MessageRepository.ts:16-20 | the listing has as many messages as the store has for the chat |
| MessageRepository.GetByChatIdStable | src/entities/Message/model/MessageRepository.ts:19 | messages created at the same instant keep their store order (the sort is stable) |
| MessageRepository.AppendJoinsChat | src/entities/Message/model/MessageRepository.ts:16-20 | storing one more message of the chat under a new id inserts it into the chat's listing after every message not created later |
| MessageRepository.UpdateStatus | src/entities/Message/model/MessageRepository.ts:22-32 | an unknown id throws `Message with ID … not found`; otherwise only that message changes, getting the status and the current time, in place, with no event |
| MessageRepository.CreateUserMessage | src/entities/Message/model/MessageRepository.ts:34-40 | blank text throws `Invalid message data provided` with nothing changed; otherwise a pending outgoing message is stored under the fresh id and `message:sent` is published with it |
| MessageRepository.CreateAIMessage | src/entities/Message/model/MessageRepository.ts:42-48 | blank text throws with nothing changed; otherwise a delivered incoming message is stored and `message:received` is published with it |
| MessageRepository.MarkMessageAsFailed | src/entities/Message/model/MessageRepository.ts:50-60 | never throws: an unknown id changes nothing; otherwise only that message changes, to FAILED with `updatedAt` the current time, the key order is kept, and `message:failed` is published only when an error is given |
| MessageRepository.IdsOfMembers | src/entities/Message/model/MessageRepository.ts:66-70 | the ids the loop deletes are exactly the ids of the listed messages |
| MessageRepository.DeleteChatMessages | src/entities/Message/model/MessageRepository.ts:62-73 | afterwards the store holds exactly the other chats' messages in their previous order, and the returned count is the number of messages removed |
| MessageRepository.DeleteEach | src/entities/Message/model/MessageRepository.ts:66-70 | after deleting each listed message in turn, every listed id is gone and every other entry stays |
| MessageRepository.DeleteEachCounts | src/entities/Message/model/MessageRepository.ts:65-72 | the count of successful deletions plus what remains equals the size of the store before |
| MessageRepository.RemovedAreTheChat | src/entities/Message/model/MessageRepository.ts:62-70 | the ids removed are exactly the keys of the chat's messages |
| MessageRepository.GetChatStats | src/entities/Message/model/MessageRepository.ts:75-92 | the total is the size of the chat's listing, user plus AI messages make the total, and the failed ones are counted among them |
| MessageRepository.DeleteChatMessagesEmpties | src/entities/Message/model/MessageRepository.ts:62-92 | after `deleteChatMessages(chatId)` the chat lists no messages and its statistics are all zero |
| AIProvider.NewProvider | src/shared/services/AIProvider.abstract.ts:4-11 | a new provider has no API key, so it is not configured, and keeps its model |
| AIProvider.IsConfigured | src/shared/services/AIProvider.abstract.ts:22-24 | `isConfigured()` holds exactly when an API key of non-zero length is set |
| AIProvider.SetApiKey | src/shared/services/AIProvider.abstract.ts:17-20 | a blank key throws `Invalid API key` (INVALID_API_KEY) and changes nothing; otherwise the key is stored as given and the provider is configured |
| AIProvider.ValidateMessages | src/shared/services/AIProvider.abstract.ts:62-72 | accepted exactly when the list is non-empty and every content is non-empty; the errors are INVALID_MESSAGES for an empty list and INVALID_MESSAGE_FORMAT otherwise |
| AIProvider.RetryDelay | src/shared/services/AIProvider.abstract.ts:92-97 | the wait before the next attempt is at most 30 seconds and at most 1.1 times the base `1000 * 2^(attempt-1)`, and at least the base while the base is under the cap |
| AIProvider.RetryableIgnoresCase | src/shared/services/AIProvider.abstract.ts:74-90 | whether a failure is retried depends only on the lower-cased message, so `Request TIMEOUT` is retried like `request timeout` |
| AIProvider.Pow2Add | src/shared/services/AIProvider.abstract.ts:92-97 | `Math.pow(2, a + b)` is `Math.pow(2, a) * Math.pow(2, b)`, so each attempt doubles the base delay |
| AIProvider.Backoff | src/shared/services/AIProvider.abstract.ts:94-96 | `min(base + jitter, 30000)` lies between the base and 1.1 times the base, capped at 30000 |
| AIProvider.RetryDelayGrows | src/shared/services/AIProvider.abstract.ts:92-97 | whatever the jitter, the wait never shrinks from one attempt to the next |
| AIProvider.GiveUp | src/shared/services/AIProvider.abstract.ts:48-52 | the final error is MAX_RETRIES_EXCEEDED, says `Failed after 3 attempts: ` and the last message, and carries the last error |
| AIProvider.RetryFrom | src/shared/services/AIProvider.abstract.ts:34-46 | the loop calls `chat` at most three times, waits once between consecutive calls, retries only after retryable failures, returns the first success, and otherwise gives up on the last failure |
| AIProvider.ChatWithRetry | src/shared/services/AIProvider.abstract.ts:27-53 | without a key it throws CONFIGURATION_ERROR before any call; otherwise one to three calls, whose last decides the result |
| AIProvider.FirstSuccessReturns | src/shared/services/AIProvider.abstract.ts:34-36 | a first call that succeeds is the answer, with no wait |
| AIProvider.NonRetryableStops | src/shared/services/AIProvider.abstract.ts:37-42 | a failure that is not retryable is given up on after one call |
| AIProvider.PersistentFailureBacksOff | src/shared/services/AIProvider.abstract.ts:34-52 | when every call fails retryably there are three calls, with waits of 1–1.1 s and 2–2.2 s |
| OpenAIProvider.Create | src/shared/services/OpenAIProvider.ts:8-10 | a new provider has the given model, or `gpt-3.5-turbo`, and neither a key nor a client |
| OpenAIProvider.SetApiKey | src/shared/services/OpenAIProvider.ts:12-15 | a blank key throws INVALID_API_KEY; otherwise the key is stored and the client exists |
| OpenAIProvider.ConsistentByConstruction | src/shared/services/OpenAIProvider.ts:12-15 | a client only ever exists together with a key |
| OpenAIProvider.MapErrorCode | src/shared/services/OpenAIProvider.ts:81-110 | a non-zero HTTP status decides first (401, 429, 5xx, else API_ERROR), then a non-empty API code (quota, model, else API_ERROR), else UNKNOWN_ERROR |
| OpenAIProvider.Wrap | src/shared/services/OpenAIProvider.ts:39-49 | an `AIProviderError` passes unchanged; anything else is wrapped with its message or `Unknown OpenAI error`, the mapped code and itself as the original |
| OpenAIProvider.RequestFor | src/shared/services/OpenAIProvider.ts:25-30 | the request carries the messages, the provider's model, 1000 tokens and temperature 0.7 |
| OpenAIProvider.Chat | src/shared/services/OpenAIProvider.ts:17-50 | invalid messages and a missing client fail before any request; a non-empty content is the answer, a missing or empty one is EMPTY_RESPONSE, a thrown error is wrapped |
| OpenAIProvider.SystemPrompt | src/shared/services/OpenAIProvider.ts:52-54 | the system prompt is non-empty and includes the chat's name |
| OpenAIProvider.WithContext | src/shared/services/OpenAIProvider.ts:57-62 | the system message comes first, then the given messages unchanged |
| OpenAIProvider.WithContextValidation | src/shared/services/OpenAIProvider.ts:56-64 | with the system prompt in front, validation passes exactly when every given message has content, so an empty list becomes valid |
| OpenAIProvider.ChatWithContext | src/shared/services/OpenAIProvider.ts:56-64 | without a key no call is made; otherwise the retry loop over `chat` with the system prompt first, whose last call decides the result |
| OpenAIProvider.InvalidMessagesNeverSent | src/shared/services/OpenAIProvider.ts:17-18 | a message with empty content makes every attempt fail validation, whatever the endpoint would say |
| ChatService.New | src/shared/services/ChatService.ts:11-13 | a new service has empty, valid stores and has published nothing |
| ChatService.CreateChat | src/shared/services/ChatService.ts:16-23 | fails exactly when the repository refuses, with `Failed to create chat: ` before its message; otherwise the repository's new store and events are taken over |
| ChatService.SetApiKey | src/shared/services/ChatService.ts:104-110 | a blank key is refused; otherwise the provider is configured and the stores are unchanged |
| ChatService.AsChatMessage | src/shared/services/ChatService.ts:66-69 | the context entry has the message's text, with role `user` exactly for outgoing messages |
| ChatService.AsChatMessages | src/shared/services/ChatService.ts:64-69 | the mapping keeps length and order |
| ChatService.Context | src/shared/services/ChatService.ts:63-75 | the context is the chat's messages other than the new one, mapped, followed by the new text as a user message |
| ChatService.Deliver | src/shared/services/ChatService.ts:85-94 | a blank answer fails before anything changes; a usable answer for a stored chat and message yields the AI message, which is stored |
| ChatService.DeliverStores | src/shared/services/ChatService.ts:85-94 | the three steps all happen: the AI message is stored, the chat shows the answer, the user message is DELIVERED, and `message:received` then `chat:updated` are published |
| ChatService.Fail | src/shared/services/ChatService.ts:96-100 | the user message becomes FAILED, `message:failed` is published with the error, the chats are untouched, and the thrown error carries `Failed to get AI response: ` and the message |
| ChatService.Respond | src/shared/services/ChatService.ts:77-100 | success returns the user message; every failure is rethrown with the `Failed to get AI response: ` prefix; the user message stays stored |
| ChatService.SendMessage | src/shared/services/ChatService.ts:49-101 | an unknown chat throws `Chat not found` and a blank text is refused, both before any change; past those the user message stays stored and success returns it |
| ChatService.QuestionIsHistory | src/shared/services/ChatService.ts:59-75 | with a fresh user-message id the provider is asked about exactly the chat's earlier messages, oldest first, then the new text |
| ChatService.SendMessageSteps | src/shared/services/ChatService.ts:53-100 | past the refusals, `sendMessage` stores the user message, publishes `message:sent`, and then responds to the provider's answer |
| ChatService.SendMessageDelivers | src/shared/services/ChatService.ts:49-95 | a usable answer: both messages are returned, the AI message is stored, the user message is DELIVERED, the chat shows the answer, and `message:sent`, `message:received`, `chat:updated` are published in that order |
| ChatService.RespondDelivers | src/shared/services/ChatService.ts:85-94 | responding to a usable answer takes every step of the delivery |
| ChatService.SendMessageMarksFailure | src/shared/services/ChatService.ts:59-100 | no answer or a blank one: the user message stays stored but FAILED, the chats are untouched, `message:sent` then `message:failed` are published, and the error carries the underlying message |
| ChatService.RespondFails | src/shared/services/ChatService.ts:96-100 | responding without a usable answer marks the user message failed and publishes the error |
| ChatService.GetChats | src/shared/services/ChatService.ts:25-27 | the chats listed are the stored ones, each once |
| ChatService.Ask | src/shared/services/ChatService.ts:77-82 | the OpenAI provider answers through `chatWithContext`, so without a key it throws CONFIGURATION_ERROR and an answer is a non-empty reply to the context behind the system prompt for the chat's name; any other provider is asked once with the context as it is |
| ChatService.DeleteChat | src/shared/services/ChatService.ts:37-42 | the chat's messages are removed even when the chat is absent, the chat is removed, the remaining chats and messages keep their order, the result says whether it existed, and nothing is published |
| ChatService.GetChatStatistics | src/shared/services/ChatService.ts:117-137 | an unknown chat throws `Chat not found`; otherwise the chat and the repository statistics of its messages: the count listed, the outgoing ones, the rest as AI messages, and the failed ones |
| ChatService.GetOverallStatistics | src/shared/services/ChatService.ts:139-154 | the chat total, whether the provider is configured, and the messages summed chat by chat |
| ChatService.SumOverChats | src/shared/services/ChatService.ts:145-147 | summing per-chat counts over chats with distinct ids counts each message of those chats once |
| ChatService.OverallCountsEachMessageOnce | src/shared/services/ChatService.ts:139-154 | the message total never exceeds the stored messages, and equals their number when every message belongs to a stored chat |
| ChatService.TotalIsCount | src/shared/services/ChatService.ts:145-147 | the chat-by-chat sum is the number of stored messages that belong to some stored chat |
| LegacyChats.Empty | src/entities/Chat/model/chats.store.ts:10 | the store starts with no chats, each chat trivially under its own id |
| LegacyChats.GetChats | src/entities/Chat/model/chats.store.ts:12-17 | the listing holds every stored chat exactly once |
| LegacyChats.ByTimestamp | src/entities/Chat/model/chats.store.ts:13-16 | the comparator is antisymmetric, is 0 when a chat has no timestamp that parses, and otherwise is the difference of the dates, later first |
| LegacyChats.GetChat | src/entities/Chat/model/chats.store.ts:19-21 | a chat is found exactly when its id is stored, and it is the stored one |
| LegacyChats.CreateNewChat | src/entities/Chat/model/chats.store.ts:23-33 | the chat gets the clock's milliseconds as id, the name as given, online, the time text and no last message; it is stored under its id, appended unless that id is taken, and every chat stays under its own id |
| LegacyChats.UpdateLastMessage | src/entities/Chat/model/chats.store.ts:35-42 | an unknown id changes nothing; otherwise only that chat's last message and time text change and the order stays |
| LegacyChats.CreateThenGet | src/entities/Chat/model/chats.store.ts:23-33 | a created chat can be fetched and is listed; with a fresh id the listing gains exactly that chat |
| LegacyChats.DistinctClocksDistinctIds | src/entities/Chat/model/chats.store.ts:25 | chats created at different milliseconds get different ids |
| LegacyChats.UpdateTouchesOneChat | src/entities/Chat/model/chats.store.ts:35-42 | the set of chats stays; every other chat is unchanged; the updated one keeps id, name and online flag and shows the message with a time text |
| LegacyChats.UndatedListingKeepsInsertionOrder | src/entities/Chat/model/chats.store.ts:12-17 | when no timestamp parses as a date the comparator is always 0 and the listing is the insertion order |
| LegacyChats.DatedListingNewestFirst | src/entities/Chat/model/chats.store.ts:12-17 | when every timestamp parses, the listing runs from the latest date to the earliest |
| LegacyMessages.GetMessages | src/entities/Message/model/messages.store.ts:24-26 | the chat's stored list, or empty for a chat never written to |
| LegacyMessages.AsChatMessage | src/entities/Message/model/messages.store.ts:52-55 | the entry keeps the text, with role `user` exactly for outgoing messages and `assistant` otherwise |
| LegacyMessages.History | src/entities/Message/model/messages.store.ts:48-58 | the system prompt naming the chat, every stored message in order, then the new text from the user |
| LegacyMessages.Respond | src/entities/Message/model/messages.store.ts:60-88 | the user message is kept either way; a failure is rethrown unchanged with nothing else changed; an answer is appended as the reply, becomes the chat's last message, and `chatUpdate` is dispatched |
| LegacyMessages.SendMessage | src/entities/Message/model/messages.store.ts:32-89 | an unknown chat returns quietly with nothing changed and nothing asked; a known chat is answered from its history |
| LegacyMessages.SendMessageOutcome | src/entities/Message/model/messages.store.ts:32-89 | for a known chat the history sent, the list growing by the user message (and the reply exactly on an answer), the chat list updated and the event dispatched only on an answer, the error rethrown as it came |
| LegacyMessages.SetApiKey | src/entities/Message/model/messages.store.ts:20-22 | a non-empty key becomes the client's key; an empty one changes nothing |
| LegacyMessages.LastMessageAgrees | src/entities/Message/model/messages.store.ts:77-80 | after a successful send the chat's last message is the text of the last stored message, which is the reply |
| LegacyMessages.NoClientKeepsQuestion | src/entities/Message/model/messages.store.ts:60-88 | without a client the user message is still stored, the chat list is untouched and the error asks for a key |
| LegacyMessages.OtherChatsUntouched | src/entities/Message/model/messages.store.ts:60-77 | sending never changes another chat's messages |
| LegacyMessages.ReplyIdDiffers | src/entities/Message/model/messages.store.ts:38-69 | with a clock that does not run backwards the reply's id (clock plus one) differs from the user message's id |
| LegacyMessages.UserMessage | src/entities/Message/model/messages.store.ts:37-43 | the user message is outgoing, enters the history as the user's text, and takes its id and time text from the clock reading before asking |
| LegacyMessages.ReplyMessage | src/entities/Message/model/messages.store.ts:67-73 | the reply is incoming, enters the history as the assistant's text, and its id is the later clock reading plus one millisecond |
| OpenAIService.Initial | src/shared/api/openai.service.ts:5 | there is no client at first |
| OpenAIService.SetApiKey | src/shared/api/openai.service.ts:35-42 | an empty key is ignored; any other key replaces the client |
| OpenAIService.Chat | src/shared/api/openai.service.ts:17-33 | refused without a client; fails exactly when the request fails, always with `Failed to get chat response`; an empty or missing answer becomes `No response generated`; an answer is never empty |
| OpenAIService.KeyReachesEndpoint | src/shared/api/openai.service.ts:17-42 | after setting a non-empty key, `chat` fails exactly when the request with that key fails; an empty key leaves a missing client missing |
| QueryCache.Get | src/shared/hooks/useChat.ts:39 | a snapshot exists exactly when the chat's list is cached, and it is that list |
| QueryCache.Put | src/shared/hooks/useChat.ts:58 | the chat's list becomes the data; every other chat's list and the invalidation log stay |
| QueryCache.Invalidate | src/shared/hooks/useChat.ts:63-64 | the cached lists stay and the key is logged as invalidated, after the earlier ones |
| QueryCache.OnMutate | src/shared/hooks/useChat.ts:34-54 | the snapshot is the list cached before; the optimistic message is appended to it, or to an empty list when nothing was cached; other chats and the log stay |
| QueryCache.Rollback | src/shared/hooks/useChat.ts:55-60 | a snapshot is put back, also an empty one; without a snapshot the cache is unchanged; other chats and the log stay |
| QueryCache.InvalidateBoth | src/shared/hooks/useChat.ts:61-65 | the lists stay and the chat's messages then the chat list are logged as invalidated |
| QueryCache.RollbackUndoesMutate | src/shared/hooks/useChat.ts:34-60 | rolling back right after the optimistic update restores the cache exactly when a list was cached; otherwise the optimistic message is left alone in the chat's list |
| UseChat.TempMessage | src/shared/hooks/useChat.refactored.ts:24-33 | the optimistic message has a `temp-` id from the clock, both times from one reading, the text as outgoing, and status PENDING |
| UseChat.OnMutate | src/shared/hooks/useChat.refactored.ts:16-38 | the snapshot is the previous cached list and the optimistic message is appended to it (or to nothing); nothing is invalidated |
| UseChat.Settle | src/shared/hooks/useChat.refactored.ts:39-49 | success invalidates the chat's messages and the chat list and changes no list; failure invalidates nothing and puts a snapshot back, or leaves the cache as it is without one |
| UseChat.Send | src/shared/hooks/useChat.refactored.ts:13-15 | the mutation is the service's `sendMessage`: the service and the outcome are exactly that call's |
| UseChat.SendSettles | src/shared/hooks/useChat.refactored.ts:13-49 | after success the optimistic message is still shown and both keys are invalidated; after failure a cached list is restored exactly, and an uncached chat keeps the PENDING message alone with nothing invalidated |
| UseChat.UnknownChatRollsBack | src/shared/hooks/useChat.refactored.ts:13-49 | an unknown chat fails with `Chat not found` leaving the service unchanged; nothing is invalidated and a cached list is restored |
| UseChatLegacy.Finish | src/shared/hooks/useChat.ts:30-32 | the mutation rejects exactly when the store threw, with that error; otherwise it resolves with the chat's stored list |
| UseChatLegacy.MutationFn | src/shared/hooks/useChat.ts:15-33 | for an unknown chat the hook's own copy of the user message is still stored and returned, nothing is asked and the chats are untouched |
| UseChatLegacy.DuplicatesUserMessage | src/shared/hooks/useChat.ts:15-33 | for a known chat the user's text is stored twice in a row (the hook's copy, then the store's) and the client's history ends with that text from the user twice |
| UseChatLegacy.MutationFnOnce | src/shared/hooks/useChat.ts:15-33 | without the hook's own write an unknown chat leaves the messages unchanged and nothing is asked |
| UseChatLegacy.StoresUserMessageOnce | src/shared/hooks/useChat.ts:15-33 | without the hook's own write the history is the chat's messages plus the text once, and the list grows by the user message once, then the reply on success |
| UseChatLegacy.TempMessage | src/shared/hooks/useChat.ts:42-48 | the optimistic message has a `temp-` id from the clock and is the text as outgoing in that chat |
| UseChatLegacy.OnMutate | src/shared/hooks/useChat.ts:34-54 | the snapshot is the previous cached list and the optimistic message is appended to it (or to nothing) |
| UseChatLegacy.Settle | src/shared/hooks/useChat.ts:55-65 | whatever the outcome both keys are invalidated; success changes no list; failure with a snapshot restores it; other chats stay |
| UseChatLegacy.SettledCycleRefetches | src/shared/hooks/useChat.ts:34-65 | a full cycle always invalidates the chat's messages and the chat list, and a failure with a cached list restores every list |
| Themes.ParseMode | src/shared/types/theme.interfaces.ts:1-5 | a string read as a mode is exactly that mode's enum value |
| Themes.ModeTextRoundTrip | src/shared/config/themes.ts:139-141 | each mode's value reads back as that mode, and a string reads as a mode exactly when `isValidThemeMode` accepts it |
| Themes.IsValidThemeMode | src/shared/config/themes.ts:139-141 | a string is a valid mode exactly when it is `light`, `dark` or `system` |
| Themes.CreateTheme | src/shared/config/themes.ts:106-118 | LIGHT and DARK give the theme of that name; SYSTEM gives the dark or light theme named `System (Dark)` or `System (Light)` as the preference says; the result's mode is never SYSTEM and its colours match its mode |
| Themes.SystemTheme | src/shared/config/themes.ts:120-129 | a concrete theme that is dark exactly when the preference is dark |
| Themes.CreateThemeFromText | src/shared/config/themes.ts:106-118 | any other string than the three values throws `Unknown theme mode: ` followed by it; a value gives that mode's theme |
| Themes.GetAllThemes | src/shared/config/themes.ts:131-137 | three concrete themes: Light, Dark, then the system theme |
| Themes.SystemMatchesPreferred | src/shared/config/themes.ts:120-129 | the SYSTEM theme has the mode and colours of the preferred theme under another name |
| ThemeStorage.BestProvider | src/shared/services/ThemeStorageService.ts:125-138 | local storage when it takes the probe write, else session storage when it does, else memory |
| ThemeStorage.New | src/shared/services/ThemeStorageService.ts:88-150 | the provider is the best available one; a browser store keeps what it held, less the probe key `__storage_test__`, and the in-memory store starts empty |
| ThemeStorage.GetItem | src/shared/services/ThemeStorageService.ts:67-73 | a missing key gives `null`; the browser stores return what is stored; the memory store gives `null` also for a stored empty string |
| ThemeStorage.SetItem | src/shared/services/ThemeStorageService.ts:22-28 | after `setItem(key, value)` reading the key gives the value, except that the in-memory store reads an empty value as `null`, and every other key reads as before |
| ThemeStorage.RemoveItem | src/shared/services/ThemeStorageService.ts:30-36 | after `removeItem(key)` reading the key gives `null`, and every other key reads as before |
| ThemeStorage.SaveTheme | src/shared/services/ThemeStorageService.ts:93-99 | the mode's value is stored under `aigram_theme_mode`, every other key is unchanged, and the provider stays |
| ThemeStorage.LoadTheme | src/shared/services/ThemeStorageService.ts:101-114 | a mode is loaded exactly when the key holds a valid mode value, and it is that value's mode |
| ThemeStorage.ClearTheme | src/shared/services/ThemeStorageService.ts:116-122 | the theme key is gone and every other key stays |
| ThemeStorage.SaveThenLoad | src/shared/services/ThemeStorageService.ts:93-122 | loading after a save returns the mode saved, on every provider, and nothing after a clear |
| ThemeStorage.SavedThemeSurvivesRestart | src/shared/services/ThemeStorageService.ts:88-122 | a mode saved in local or session storage is loaded by the next service built over that store, and the in-memory store forgets it |
| ThemeStore.Initial | src/shared/stores/useThemeStore.ts:23-27 | the store starts consistent, in LIGHT mode, not initialised |
| ThemeStore.SetTheme | src/shared/stores/useThemeStore.ts:30-45 | the mode's theme becomes current, `isSystemTheme` says SYSTEM, the mode is saved, and the preference and initialised flag stay |
| ThemeStore.Next | src/shared/stores/useThemeStore.ts:51-63 | toggling always moves to another mode |
| ThemeStore.Toggle | src/shared/stores/useThemeStore.ts:47-66 | the next mode in LIGHT, DARK, SYSTEM order is set and saved |
| ThemeStore.IsDarkMode | src/shared/stores/useThemeStore.ts:72-76 | dark mode holds exactly when the theme is not LIGHT and, if it is SYSTEM, the system prefers dark |
| ThemeStore.IsLightMode | src/shared/stores/useThemeStore.ts:78-80 | light mode holds exactly when the theme is LIGHT, or SYSTEM without a dark preference |
| ThemeStore.Initialize | src/shared/stores/useThemeStore.ts:83-99 | a second call changes nothing; the first takes the saved mode, or SYSTEM when none is saved, with its theme and the preference read now, and leaves the storage alone |
| ThemeStore.UpdateSystemPreference | src/shared/stores/useThemeStore.ts:119-130 | the preference is recorded; a SYSTEM choice takes the theme of the preference read now, any other keeps its theme; mode and storage stay |
| ThemeStore.OperationsKeepConsistent | src/shared/stores/useThemeStore.ts:30-130 | every operation keeps the current theme concrete and `isSystemTheme` in step with the mode |
| ThemeStore.DarkModeIsThemeMode | src/shared/stores/useThemeStore.ts:68-80 | in a consistent store `isDarkMode` is exactly a dark current theme, i.e. dark colours; its SYSTEM branch is never taken |
| ThemeStore.SystemFollowsPreference | src/shared/stores/useThemeStore.ts:119-130 | with SYSTEM chosen, dark mode is exactly the reported preference |
| ThemeStore.ToggleCycles | src/shared/stores/useThemeStore.ts:47-66 | three toggles return to the starting mode and theme |
| ThemeStore.InitializeOnce | src/shared/stores/useThemeStore.ts:83-84 | initialising twice is initialising once |
| ThemeStore.ChoiceSurvivesReload | src/shared/stores/useThemeStore.ts:30-41 | a new store initialised over the storage a choice was saved to starts in that mode |
| ThemeStore.FirstRunFollowsSystem | src/shared/stores/useThemeStore.ts:86-99 | with nothing saved the first initialisation chooses SYSTEM and is dark exactly when the preference is |
| ChatList.TruncateMessage | src/widgets/ChatList/ui/ChatList.tsx:12-18 | a text of at most 30 UTF-16 code units is shown whole; a longer one is cut after 30 code units and followed by `...`, 33 code units in all |
| ChatList.TruncateIdempotent | src/widgets/ChatList/ui/ChatList.tsx:14-18 | shortening a shortened text changes nothing, also when the cut split a character outside the Basic Multilingual Plane |
| ChatList.AstralMessageIsCut | src/widgets/ChatList/ui/ChatList.tsx:14-18 | twenty emoji are forty code units, so their preview keeps fifteen of them and adds `...` |
| ChatList.Preview | src/widgets/ChatList/ui/ChatList.tsx:39-41 | the preview is never empty; it is the shortened last message when the chat has one, and `* Empty chat *`, which is never cut, otherwise |
| ChatList.Avatar | src/widgets/ChatList/ui/ChatList.tsx:27-29 | an avatar letter exists exactly when the name is not empty; it is the upper-cased first character, or the first half of a surrogate pair when the name starts outside the Basic Multilingual Plane |
| ChatList.Filtered | src/widgets/ChatList/ui/ChatList.tsx:83-86 | the filtered list keeps the listing's order and holds exactly the chats whose lower-cased name or non-empty last message includes the lower-cased query |
| ChatList.MatchesIgnoresCase | src/widgets/ChatList/ui/ChatList.tsx:83-86 | the search ignores the letter case of the query, and a query that begins a name in any case finds the chat |
| ChatList.EmptyQueryListsAll | src/widgets/ChatList/ui/ChatList.tsx:83-86 | an empty query lists every chat, in order |
| ChatList.LongerQueryListsFewer | src/widgets/ChatList/ui/ChatList.tsx:83-86 | lengthening the query never brings back a hidden chat, and never lists more |
| ChatList.Refresh | src/widgets/ChatList/ui/ChatList.tsx:55-61 | the list is re-read as `getChats()`, the store's sorted listing, holding every stored chat once; the query and the form stay |
| ChatList.RefreshOrder | src/widgets/ChatList/ui/ChatList.tsx:55-61 | after a refresh the list shows the latest date first when every time text parses, and insertion order when none does |
| ChatList.HandleCreateChat | src/widgets/ChatList/ui/ChatList.tsx:63-76 | the first click only opens the form; a blank name does nothing; otherwise the chat is created under the trimmed name, the list is re-read, the form is closed and emptied, and the app goes to `/chat/` plus the new id |
| ChatList.CancelNewChat | src/widgets/ChatList/ui/ChatList.tsx:78-81 | the form is closed and emptied; the list and query stay |
| ChatList.CreatedChatIsListed | src/widgets/ChatList/ui/ChatList.tsx:63-76 | a chat made from the list is listed at once under the trimmed, non-empty name, the route goes to it, and its avatar letter exists |
| ChatList.EditQuery | src/widgets/ChatList/ui/ChatList.tsx:90-99 | as written, the query can be edited only while the filtered list is non-empty |
| ChatList.SearchShown | src/widgets/ChatList/ui/ChatList.tsx:90-99 | as written, the search box is rendered exactly when some chat matches the query |
| ChatList.UnmatchedQueryIsStuck | src/widgets/ChatList/ui/ChatList.tsx:83-99 | one chat `Alice` and the query `Alicex`: nothing is listed, the search box is gone, and no edit changes the query until some chat matches it |
| ChatList.EditQueryFixed | src/widgets/ChatList/ui/ChatList.tsx:90-99 | corrected: the query can be edited whenever there is a chat |
| ChatList.ClearingRestoresList | src/widgets/ChatList/ui/ChatList.tsx:83-99 | with the corrected box, clearing the query lists every chat again and the box stays |
| Text.Trim | src/entities/Chat/model/ChatRepository.ts:36-46 | `trim()` removes a blank head and a blank tail and keeps the piece between them, which neither starts nor ends with whitespace and is empty exactly when the text is all whitespace |
| Text.TrimIdempotent | src/entities/Chat/model/Chat.entity.ts:57 | trimming a trimmed name changes nothing |
| Text.TrimOccurs | src/entities/Chat/model/ChatRepository.ts:41 | the original text includes its trimmed form |
| Text.Lower | src/entities/Chat/model/ChatRepository.ts:69-73 | `toLowerCase()` keeps the length and leaves no upper-case ASCII letter |
| Text.LowerIdempotent | src/entities/Chat/model/ChatRepository.ts:17-19 | lower-casing twice is lower-casing once |
| Text.LowerKeepsBlank | src/entities/Chat/model/ChatRepository.ts:65-69 | lower-casing keeps a text all-whitespace exactly when it was |
| Text.ContainsIffOccurs | src/shared/services/AIProvider.abstract.ts:88-89 | `includes` holds exactly when the fragment occurs at some position |
| Text.ContainsPrefixOf | src/widgets/ChatList/ui/ChatList.tsx:83-86 | a text that includes a fragment includes every prefix of it |
| Text.IntText | src/entities/Chat/model/chats.store.ts:25 | `Date.now().toString()` is non-empty digits, with a leading minus exactly for a negative number |
| Text.NatTextValue | src/entities/Chat/model/chats.store.ts:25 | reading the digits back gives the number |
| Text.IntTextInjective | src/entities/Message/model/messages.store.ts:38 | different clock readings give different id texts |
| Text.Clip | src/widgets/ChatList/ui/ChatList.tsx:17 | `substring(0, n)` has exactly `n` code units clamped into `0..length`, is the whole text when `n` reaches its length, and is a prefix except that a split pair leaves its first half, shown as U+FFFD |
| Text.Utf16Length | src/widgets/ChatList/ui/ChatList.tsx:16 | `length` counts one code unit per character in the Basic Multilingual Plane and two per character outside it |
| Text.Utf16LengthAppend | src/widgets/ChatList/ui/ChatList.tsx:17 | the length of a concatenation is the sum of the lengths |
| Text.ClipWhole | src/widgets/ChatList/ui/ChatList.tsx:14-18 | cutting `a + b` after the length of `a` gives `a` |
| Text.TrimShortens | src/entities/Chat/model/Chat.entity.ts:49-51 | trimming never lengthens a text, in code units |
| Sorting.SortPermutes | src/entities/Chat/model/ChatRepository.ts:51 | sorting keeps every element as often as it occurs |
| Sorting.SortSorted | src/entities/Message/model/MessageRepository.ts:19 | with a comparator that orders by a numeric key, the result is ascending by that key |
| Sorting.SortStable | src/entities/Message/model/MessageRepository.ts:19 | elements with equal keys keep their input order |
| Sorting.SortKeepsOrder | src/entities/Chat/model/chats.store.ts:13-16 | when the comparator never puts a later element first, the order is kept |
| Sorting.SortSnoc | src/entities/Message/model/MessageRepository.ts:19 | sorting a list with one more element at the end inserts that element into the sorted list |
| Seqs.Filter | src/entities/Chat/model/ChatRepository.ts:71-75 | the result keeps the input's order and holds exactly the elements satisfying the predicate |
| Seqs.CountComplement | src/entities/Message/model/MessageRepository.ts:82-83 | the elements satisfying one predicate and those satisfying the other add up to all, when the predicates are complementary |

Behaviours of the code a reader may not expect:
- `createNewChat` refuses a name when an existing chat's lower-cased name
  includes the lower-cased trimmed name. This is a case-insensitive
  substring test, not exact equality.
- `chatWithRetry` wraps every failure, retryable or not, as
  `MAX_RETRIES_EXCEEDED` with the text `Failed after 3 attempts: `.
- `updateMessageStatus` allows any status change. Nothing keeps the
  status from going back from DELIVERED or FAILED.
- The first version's `getChats` sorts by `new Date(timeText)`. On the
  `HH:MM` text a browser gives `NaN`, so the comparator returns 0 and the
  list keeps insertion order (`LegacyChats.UndatedListingKeepsInsertionOrder`).
- `getAllSorted` of `ChatRepository` compares `parseTimestamp(t).getTime()`.
  A 12-hour time text such as `02:05 PM` has the minutes `Number("05 PM")`,
  which is `NaN`, so every comparison is 0 and the listing keeps store order
  (`ChatRepository.UnparsedListingKeepsStoreOrder`). The recent-first
  lemmas hold when every timestamp parses.

## Left out

- Floating-point time and dates: clock readings are integer milliseconds
  together with the locale time text the code stores. `Date` parsing and
  `toLocaleTimeString` formatting are parameters.
- Each operation takes one clock reading. Where the code calls `new Date()`
  several times within one step, the model uses that single reading.
- Text.Lower, ChatList.UpperChar, ChatList.Avatar: `toLowerCase` and
  `toUpperCase` are modelled on ASCII letters only. Full Unicode case
  mapping is not modelled.
- Asynchrony: `await` points and interleavings of concurrent sends are not
  modelled. Every operation runs to completion before the next one starts.
- The retry loop's `setTimeout` wait is not modelled. The model records the
  length of each wait.
- `TimeoutMs`: the 30-second request timeout is declared in the code but
  never applied, so the model only carries the constant.
- Constructing the OpenAI client (`initializeClient`) cannot fail in the
  model. The client library is not part of this model, and its replies are
  a parameter.
- `AIProviderFactory` and `switchAIProvider`: choosing or replacing the
  provider means setting the `provider` field of `ChatService.Service`. No
  further logic is involved.
- `getChat`, `searchChats` and `getChatMessages` of `ChatService`: each
  passes straight through to `ChatRepository.GetById`, `ChatRepository.Search`
  or `MessageRepository.GetByChatId`, whose contracts state the behaviour.
- The `on*` event subscriptions and `removeEventListeners` of
  `ChatService` are not modelled. Publishing is modelled as appending to
  the event log; the listeners are outside the core.
- `console` logging is not modelled.
- TanStack Query internals are not modelled: `cancelQueries`, refetching
  after an invalidation, and the mutation's `isPending` / `error` flags.
- The `chatUpdate` window event is a flag on the result of
  `LegacyMessages.SendMessage`. Re-reading the chat list in response is
  `ChatList.Refresh`.
- React rendering and routing are reduced to the component's state and
  the route it navigates to. Everything else is left out: markup, CSS
  classes and the settings dialog.
- Theme colours: a theme's palette is only LIGHT or DARK, not the
  individual colour values. `_applyThemeToDOM`, which writes them to the
  page, is not modelled.
- The `matchMedia` listener that `_initializeTheme` registers is not
  modelled. Its callback is `ThemeStore.UpdateSystemPreference`.
- Storage write and read failures are not modelled. The browser stores
  catch and log them, and the model treats every write as successful.
  Whether a store accepts the probe write is a parameter of
  `ThemeStorage.BestProvider`.
- `defaultThemes` is not modelled. It is `Themes.CreateTheme` applied to
  each mode, once, at module load.
- `getDisplayName` and `getFormattedTimestamp` of the entities are not
  modelled. They are presentation helpers that no core operation uses.
- Text.Clip: a cut through a surrogate pair leaves its first half, which a
  Dafny string cannot hold. The model puts U+FFFD, one code unit, in its
  place, which is what a browser shows for it; lengths stay exact.
- JavaScript numbers are floating point. `AIProvider.Backoff`,
  `AIProvider.RetryDelay` and the `ChatRepository.GetStats` average are
  modelled with exact reals, without rounding.
- Themes.ModeText: its contract lists the three enum strings directly. The
  property worth stating about it is `Themes.ModeTextRoundTrip`.

## Findings

| source | as written | input that shows it | evidently intended | confidence | as-written member | corrected member |
|---|---|---|---|---|---|---|
| src/shared/hooks/useChat.ts:25-30 | `mutationFn` appends its own user message to `messagesStore`, then `messagesStore.sendMessage` stores a second one and sends a history that already contains the first | any known chat and any text: the chat's list gains the text twice and the request ends with that user text twice | the user message is stored once, by the store, and sent once | not executed | UseChatLegacy.DuplicatesUserMessage | UseChatLegacy.StoresUserMessageOnce |
| src/widgets/ChatList/ui/ChatList.tsx:90-99 | the search box is rendered only while `filteredChats` is non-empty | one chat named `Alice` and the query `Alicex`: nothing matches, the box disappears, and the query cannot be edited until some chat matches it (a chat made with the "+" button, which stays rendered, or a `chatUpdate` bringing a matching last message) | the box stays while there are chats, so a query can be cleared | not executed | ChatList.UnmatchedQueryIsStuck | ChatList.ClearingRestoresList |

=== FILE: ai_provider.dfy ===
/** `AIProvider`: the behaviour every completion provider shares: API key
    handling, message validation, the retry loop with exponential backoff and
    the classification of retryable failures. The concrete provider's `chat`
    is a parameter: `call(n)` is what the `n`-th attempt returns. */
module AIProvider {
  import opened Wrappers
  import opened Errors
  import opened Text

  const MaxRetries: nat := 3
  const TimeoutMs: nat := 30000
  const MaxDelayMs: real := 30000.0

  /** `IChatMessage.role`. */
  datatype Role = User | Assistant | System

  /** `IChatMessage`. */
  datatype ChatMessage = ChatMessage(role: Role, content: string)

  /** The provider's own state: the API key (`null` until set) and the model. */
  datatype Config = Config(apiKey: Option<string>, model: string)

  /** A `Math.random()` reading. */
  type UnitInterval = r: real | 0.0 <= r < 1.0 witness 0.0

  function NewProvider(model: string): (c: Config)
    ensures !IsConfigured(c) && c.model == model
  {
    Config(None, model)
  }

  /** `isConfigured()`: `!!this.apiKey`. */
  function IsConfigured(c: Config): (b: bool)
    ensures b <==> c.apiKey.Some? && Utf16Length(c.apiKey.value) > 0
  {
    c.apiKey.Some? && c.apiKey.value != ""
  }

  /** `validateApiKey(apiKey)` followed by storing the key as given (untrimmed). */
  function SetApiKey(c: Config, apiKey: string): (r: Result<Config, Failure>)
    ensures r.Err? <==> IsBlank(apiKey)
    ensures r.Err? ==> r.error == Provider(InvalidApiKeyText, InvalidApiKey, None)
    ensures r.Ok? ==> r.value.apiKey == Some(apiKey) && r.value.model == c.model && IsConfigured(r.value)
  {
    if IsBlank(apiKey) then Err(Provider(InvalidApiKeyText, InvalidApiKey, None))
    else Ok(c.(apiKey := Some(apiKey)))
  }

  /** `validateMessages(messages)`: the list must be non-empty and every message
      must have a non-empty content (every role is a non-empty string). The first
      offending message decides; whitespace-only content passes. */
  function ValidateMessages(messages: seq<ChatMessage>): (r: Option<Failure>)
    ensures r.None? <==> |messages| > 0 && forall i :: 0 <= i < |messages| ==> messages[i].content != ""
    ensures |messages| == 0 ==> r == Some(Provider(EmptyMessages, InvalidMessages, None))
    ensures |messages| > 0 && r.Some? ==> r == Some(Provider(BadMessageFormat, InvalidMessageFormat, None))
  {
    if |messages| == 0 then Some(Provider(EmptyMessages, InvalidMessages, None))
    else if exists i :: 0 <= i < |messages| && messages[i].content == "" then
      Some(Provider(BadMessageFormat, InvalidMessageFormat, None))
    else None
  }

  /** The message fragments that mark a failure as worth retrying. */
  const RetryablePatterns: seq<string> :=
    ["timeout", "network", "rate limit", "server error", "429", "500", "502", "503", "504"]

  /** `isRetryableError(error)`: the lower-cased message includes one of the patterns. */
  predicate IsRetryable(e: Failure) {
    exists i :: 0 <= i < |RetryablePatterns| && Contains(Lower(e.message), RetryablePatterns[i])
  }

  /** Whether a failure is retried does not depend on the letter case of its
      message: "Request TIMEOUT" is retried like "request timeout". */
  lemma RetryableIgnoresCase(e: Failure)
    ensures IsRetryable(e) <==> IsRetryable(Plain(Lower(e.message)))
    ensures IsRetryable(Plain("Request TIMEOUT"))
  {
    LowerIdempotent(e.message);
    var low := Lower("Request TIMEOUT");
    assert low == "request timeout";
    assert OccursAt(low, RetryablePatterns[0], 8);
    OccursImpliesContains(low, RetryablePatterns[0], 8);
  }

  /** `Math.pow(2, n)`. */
  function Pow2(n: nat): nat {
    if n == 0 then 1 else 2 * Pow2(n - 1)
  }

  /** `Math.pow(2, a + b) == Math.pow(2, a) * Math.pow(2, b)`: in particular each
      further attempt doubles the base delay. */
  lemma {:induction false} Pow2Add(a: nat, b: nat)
    ensures Pow2(a + b) == Pow2(a) * Pow2(b)
    decreases a
  {
    if a > 0 {
      Pow2Add(a - 1, b);
    }
  }

  /** `getRetryDelay(attempt)`: `1000 * 2^(attempt - 1)` plus up to a tenth of that
      as jitter, capped at 30 seconds. */
  function RetryDelay(attempt: nat, random: UnitInterval): (r: real)
    requires attempt >= 1
    ensures r <= MaxDelayMs
    ensures var base := 1000.0 * Pow2(attempt - 1) as real;
      && r <= base * 1.1
      && (base <= MaxDelayMs ==> base <= r)
      && (base >= MaxDelayMs ==> r == MaxDelayMs)
  {
    Backoff(1000.0 * Pow2(attempt - 1) as real, random)
  }

  /** `Math.min(base + random * 0.1 * base, 30000)`. */
  function Backoff(base: real, random: UnitInterval): (r: real)
    requires base >= 0.0
    ensures r <= MaxDelayMs && r <= base * 1.1
    ensures base <= MaxDelayMs ==> base <= r
    ensures base >= MaxDelayMs ==> r == MaxDelayMs
  {
    var jit := random * 0.1 * base;
    JitterBound(random, base);
    var d := base + jit;
    if d < MaxDelayMs then d else MaxDelayMs
  }

  /** The jitter is between nothing and a tenth of the base delay. */
  lemma JitterBound(random: UnitInterval, base: real)
    requires base >= 0.0
    ensures 0.0 <= random * 0.1 * base <= 0.1 * base
  {
    var t := 0.1 * base;
    assert random * 0.1 * base == random * t;
    assert random * t <= t;
  }

  /** Waits never shrink from one attempt to the next, whatever the jitter: the base
      doubles, which outweighs any jitter on the previous wait. */
  lemma RetryDelayGrows(attempt: nat, r1: UnitInterval, r2: UnitInterval)
    requires attempt >= 1
    ensures RetryDelay(attempt, r1) <= RetryDelay(attempt + 1, r2)
  {
    var b := 1000.0 * Pow2(attempt - 1) as real;
    Pow2Add(attempt - 1, 1);
    assert 1000.0 * Pow2(attempt) as real == 2.0 * b;
  }

  /** What the retry loop produced: the outcome, how many times `chat` was called,
      and the waits between the calls, in order. */
  datatype Attempts = Attempts(result: Result<string, Failure>, calls: nat, waits: seq<real>)

  /** The error `chatWithRetry` throws once it gives up on `last`. The message
      always says three attempts, also when the loop stopped earlier. */
  function GiveUp(last: Failure): (e: Failure)
    ensures e.Provider? && e.code == MaxRetriesExceeded && e.original == Some(last)
    ensures e.message == GaveUpPrefix + last.message
  {
    Provider(GaveUpPrefix + last.message, MaxRetriesExceeded, Some(last))
  }

  /** The retry loop from attempt `attempt` on: a success is returned at once; a
      failure ends the loop on the last attempt or when it is not retryable, and
      otherwise the loop waits and tries again. */
  function RetryFrom(call: nat -> Result<string, Failure>, jitter: nat -> UnitInterval, attempt: nat): (r: Attempts)
    requires 1 <= attempt <= MaxRetries
    decreases MaxRetries - attempt
    ensures attempt <= r.calls <= MaxRetries
    ensures |r.waits| == r.calls - attempt
    ensures forall i :: 0 <= i < |r.waits| ==> r.waits[i] == RetryDelay(attempt + i, jitter(attempt + i))
    ensures forall n :: attempt <= n < r.calls ==> call(n).Err? && IsRetryable(call(n).error)
    ensures r.result.Ok? <==> call(r.calls).Ok?
    ensures r.result.Ok? ==> r.result.value == call(r.calls).value
    ensures r.result.Err? ==>
      && (r.calls == MaxRetries || !IsRetryable(call(r.calls).error))
      && r.result.error == GiveUp(call(r.calls).error)
  {
    match call(attempt)
    case Ok(v) => Attempts(Ok(v), attempt, [])
    case Err(e) =>
      if attempt == MaxRetries || !IsRetryable(e) then Attempts(Err(GiveUp(e)), attempt, [])
      else
        var rest := RetryFrom(call, jitter, attempt + 1);
        Attempts(rest.result, rest.calls, [RetryDelay(attempt, jitter(attempt))] + rest.waits)
  }

  /** `chatWithRetry(messages)`: refused without an API key, before any call;
      otherwise the retry loop from the first attempt. */
  function ChatWithRetry(c: Config, call: nat -> Result<string, Failure>, jitter: nat -> UnitInterval): (r: Attempts)
    ensures !IsConfigured(c) ==> r == Attempts(Err(Provider(ApiKeyMissing, ConfigurationError, None)), 0, [])
    ensures IsConfigured(c) ==> 1 <= r.calls <= MaxRetries && |r.waits| == r.calls - 1
    ensures IsConfigured(c) && r.result.Ok? ==> call(r.calls) == Ok(r.result.value)
    ensures IsConfigured(c) && r.result.Err? ==> call(r.calls).Err? && r.result.error == GiveUp(call(r.calls).error)
  {
    if !IsConfigured(c) then Attempts(Err(Provider(ApiKeyMissing, ConfigurationError, None)), 0, [])
    else RetryFrom(call, jitter, 1)
  }

  /** A first attempt that succeeds is the answer, with no wait. */
  lemma FirstSuccessReturns(c: Config, call: nat -> Result<string, Failure>, jitter: nat -> UnitInterval)
    requires IsConfigured(c) && call(1).Ok?
    ensures ChatWithRetry(c, call, jitter) == Attempts(call(1), 1, [])
  {
  }

  /** A failure that is not retryable is given up on after one call. */
  lemma NonRetryableStops(c: Config, call: nat -> Result<string, Failure>, jitter: nat -> UnitInterval)
    requires IsConfigured(c) && call(1).Err? && !IsRetryable(call(1).error)
    ensures ChatWithRetry(c, call, jitter) == Attempts(Err(GiveUp(call(1).error)), 1, [])
  {
  }

  /** When every attempt fails in a retryable way, `chat` is called three times,
      with a wait of 1 to 1.1 seconds and then one of 2 to 2.2 seconds between. */
  lemma {:induction false} PersistentFailureBacksOff(c: Config, call: nat -> Result<string, Failure>, jitter: nat -> UnitInterval)
    requires IsConfigured(c)
    requires forall n :: 1 <= n <= MaxRetries ==> call(n).Err? && IsRetryable(call(n).error)
    ensures var r := ChatWithRetry(c, call, jitter);
      && r.calls == 3 && r.result == Err(GiveUp(call(3).error))
      && |r.waits| == 2
      && 1000.0 <= r.waits[0] <= 1100.0
      && 2000.0 <= r.waits[1] <= 2200.0
  {
    assert Pow2(1) == 2;
  }
}

=== FILE: base_store.dfy ===
/** `BaseStore<T>`: a keyed entity collection on top of a JavaScript `Map`, whose
    `create`, `update` and `delete` call an overridable hook after each change. */
module BaseStore {
  import opened Wrappers
  import OrderedMap
  import opened Errors

  /** Milliseconds, as returned by `Date.getTime()`. */
  type Time = int

  /** The text `toLocaleTimeString` yields for the current time ("14:05"); never empty. */
  type TimeText = s: string | s != "" witness "00:00"

  /** An identifier produced by an id generator (`chat_<ms>_<random>`, ...); never empty. */
  type FreshId = s: string | s != "" witness "id"

  /** One reading of the clock: `new Date()` and its locale time text. */
  datatype Clock = Clock(now: Time, text: TimeText)

  /** `IEntity` with the entity-specific fields in `body`. */
  datatype Entity<D> = Entity(id: string, createdAt: Time, updatedAt: Time, body: D)

  type Store<D> = OrderedMap.OMap<Entity<D>>

  /** A call of one of the `onEntity*` hooks, with its argument. */
  datatype Hook<D> = OnCreated(entity: Entity<D>) | OnUpdated(entity: Entity<D>) | OnDeleted(entity: Entity<D>)

  /** The store after an operation, the hooks it called in order, and its return value. */
  datatype Step<D, R> = Step(store: Store<D>, hooks: seq<Hook<D>>, value: R)

  /** Every entity is stored under its own id. */
  ghost predicate Keyed<D>(s: Store<D>) {
    forall k :: k in s.items ==> s.items[k].id == k
  }

  function Empty<D>(): (s: Store<D>)
    ensures |GetAll(s)| == 0 && Keyed(s)
  {
    OrderedMap.Empty()
  }

  /** `getAll()`: every stored entity, once, in insertion order of its key. */
  function GetAll<D>(s: Store<D>): (r: seq<Entity<D>>)
    ensures |r| == |s.keys| == |s.items|
    ensures forall i :: 0 <= i < |r| ==> r[i] == s.items[s.keys[i]]
  {
    OrderedMap.SizeIsKeyCount(s);
    OrderedMap.Values(s)
  }

  /** `getAll()` lists exactly the stored values. */
  lemma StoredIsListed<D>(s: Store<D>)
    ensures forall i :: 0 <= i < |GetAll(s)| ==> GetAll(s)[i] in s.items.Values
    ensures forall k :: k in s.items ==> s.items[k] in GetAll(s)
  {
    forall i | 0 <= i < |GetAll(s)| ensures GetAll(s)[i] in s.items.Values {
      assert s.keys[i] in s.items;
    }
    forall k | k in s.items ensures s.items[k] in GetAll(s) {
      var i :| 0 <= i < |s.keys| && s.keys[i] == k;
      assert GetAll(s)[i] == s.items[k];
    }
  }

  /** `getById(id)`. */
  function GetById<D>(s: Store<D>, id: string): (r: Option<Entity<D>>)
    ensures r.Some? <==> id in s.items
    ensures r.Some? ==> r.value == s.items[id]
  {
    OrderedMap.Get(s, id)
  }

  /** `create(data)`, given the outcome of the subclass's `buildEntity(data)`: a
      failed build changes nothing and calls no hook; a built entity is stored
      under its own id and passed to `onEntityCreated` once. */
  function Create<D>(s: Store<D>, built: Result<Entity<D>, Failure>): (r: Result<Step<D, Entity<D>>, Failure>)
    ensures built.Err? <==> r.Err?
    ensures r.Err? ==> r.error == built.error
    ensures r.Ok? ==> r.value.value == built.value && r.value.hooks == [OnCreated(built.value)]
    ensures r.Ok? ==> r.value.store.items == s.items[built.value.id := built.value]
    ensures r.Ok? && Keyed(s) ==> Keyed(r.value.store)
  {
    match built
    case Err(e) => Err(e)
    case Ok(e) => Ok(Step(OrderedMap.Set(s, e.id, e), [OnCreated(e)], e))
  }

  /** `update(id, data)`. `merge` is the spread `{...existing, ...data}`; the result
      then has `updatedAt` overwritten with the clock. An absent id returns
      `undefined`, changes nothing and calls no hook. */
  function Update<D>(s: Store<D>, id: string, merge: Entity<D> -> Entity<D>, now: Time): (r: Step<D, Option<Entity<D>>>)
    ensures id !in s.items ==> r == Step(s, [], None)
    ensures id in s.items ==>
      var u := merge(s.items[id]).(updatedAt := now);
      && r.value == Some(u)
      && r.store.items == s.items[id := u]
      && r.store.keys == s.keys
      && r.hooks == [OnUpdated(u)]
  {
    if id !in s.items then Step(s, [], None)
    else
      var updated := merge(s.items[id]).(updatedAt := now);
      Step(OrderedMap.Set(s, id, updated), [OnUpdated(updated)], Some(updated))
  }

  /** `delete(id)`: `false` and no change when absent; otherwise exactly that key is
      removed, `onEntityDeleted` gets the removed entity, and the result is `true`. */
  function Delete<D>(s: Store<D>, id: string): (r: Step<D, bool>)
    ensures r.value <==> id in s.items
    ensures !r.value ==> r == Step(s, [], false)
    ensures r.value ==> r.store.items == s.items - {id} && r.hooks == [OnDeleted(s.items[id])]
    ensures r.store.keys == OrderedMap.Without(s.keys, id)
    ensures Keyed(s) ==> Keyed(r.store)
  {
    if id !in s.items then Step(s, [], false)
    else Step(OrderedMap.Delete(s, id), [OnDeleted(s.items[id])], true)
  }

  /** After a successful `create`, `getById` finds the entity under its id and
      `getAll` lists it last, when the id was new, or in the old id's place. */
  lemma CreateThenGet<D>(s: Store<D>, e: Entity<D>)
    ensures var s' := Create(s, Ok(e)).value.store;
      && GetById(s', e.id) == Some(e)
      && (e.id !in s.items ==> GetAll(s') == GetAll(s) + [e])
      && (e.id in s.items ==> |GetAll(s')| == |GetAll(s)|)
  {
    OrderedMap.SetValues(s, e.id, e);
  }

  /** `delete` leaves every other entry alone and the store one smaller. */
  lemma DeleteFrame<D>(s: Store<D>, id: string, other: string)
    requires other != id
    ensures var r := Delete(s, id);
      && GetById(r.store, other) == GetById(s, other)
      && GetById(r.store, id).None?
      && |GetAll(r.store)| == |GetAll(s)| - (if r.value then 1 else 0)
  {
    var r := Delete(s, id);
    if r.value {
      assert r.store.items.Keys == s.items.Keys - {id};
    }
  }
}

=== FILE: chat_entity.dfy ===
/** `ChatEntity`: construction with defaults, last-message bookkeeping, preview
    text, name validation and the plain `IChat` record. */
module ChatEntity {
  import opened Wrappers
  import opened Errors
  import opened Text
  import opened BaseStore

  /** The `IChat` fields beyond `IEntity`. */
  datatype ChatData = ChatData(name: string, lastMessage: Option<string>, timestamp: Option<string>, isOnline: bool)

  /** An `IChat` record, which is also what `toJSON()` returns. */
  type Chat = Entity<ChatData>

  /** `Partial<IChat>`: what the constructor and `buildEntity` receive. */
  datatype ChatInput = ChatInput(
    id: Option<string>,
    createdAt: Option<Time>,
    updatedAt: Option<Time>,
    name: Option<string>,
    lastMessage: Option<string>,
    timestamp: Option<string>,
    isOnline: Option<bool>)

  /** JavaScript truthiness of an optional string: present and non-empty. */
  predicate Truthy(s: Option<string>) {
    s.Some? && s.value != ""
  }

  /** `s || fallback` for an optional string. */
  function OrElse(s: Option<string>, fallback: string): (r: string)
    ensures Truthy(s) ==> r == s.value
    ensures !Truthy(s) ==> r == fallback
  {
    if Truthy(s) then s.value else fallback
  }

  /** `new ChatEntity(data)`. `||` replaces an empty id or timestamp, while `??`
      replaces only a missing `isOnline`, so a supplied `false` is kept. */
  function New(data: ChatInput, freshId: FreshId, clock: Clock): (c: Chat)
    requires data.name.Some?
    ensures c.id != "" && Truthy(c.body.timestamp)
    ensures Truthy(data.id) ==> c.id == data.id.value
    ensures !Truthy(data.id) ==> c.id == freshId
    ensures data.createdAt.Some? ==> c.createdAt == data.createdAt.value
    ensures data.createdAt.None? ==> c.createdAt == clock.now
    ensures data.updatedAt.Some? ==> c.updatedAt == data.updatedAt.value
    ensures data.updatedAt.None? ==> c.updatedAt == clock.now
    ensures Truthy(data.timestamp) ==> c.body.timestamp == data.timestamp
    ensures !Truthy(data.timestamp) ==> c.body.timestamp == Some(clock.text)
    ensures data.isOnline.Some? ==> c.body.isOnline == data.isOnline.value
    ensures data.isOnline.None? ==> c.body.isOnline
    ensures c.body.name == data.name.value && c.body.lastMessage == data.lastMessage
  {
    Entity(
      OrElse(data.id, freshId),
      data.createdAt.GetOr(clock.now),
      data.updatedAt.GetOr(clock.now),
      ChatData(data.name.value, data.lastMessage, Some(OrElse(data.timestamp, clock.text)), data.isOnline.GetOr(true)))
  }

  /** The record viewed as constructor input (`new ChatEntity(chat)`). */
  function AsInput(c: Chat): ChatInput {
    ChatInput(Some(c.id), Some(c.createdAt), Some(c.updatedAt), Some(c.body.name),
              c.body.lastMessage, c.body.timestamp, Some(c.body.isOnline))
  }

  /** `toJSON()` followed by `new ChatEntity(...)` gives the same chat back when the
      id and the timestamp are non-empty; the id generator and clock go unused. */
  lemma RoundTrip(c: Chat, freshId: FreshId, clock: Clock)
    requires c.id != "" && Truthy(c.body.timestamp)
    ensures New(AsInput(c), freshId, clock) == c
  {
  }

  /** `updateLastMessage(message)`. */
  function UpdateLastMessage(c: Chat, message: string, clock: Clock): (r: Chat)
    ensures r.body.lastMessage == Some(message)
    ensures r.body.timestamp == Some(clock.text) && r.updatedAt == clock.now
    ensures r.id == c.id && r.createdAt == c.createdAt
    ensures r.body.name == c.body.name && r.body.isOnline == c.body.isOnline
  {
    c.(updatedAt := clock.now, body := c.body.(lastMessage := Some(message), timestamp := Some(clock.text)))
  }

  /** `setOnlineStatus(isOnline)`. */
  function SetOnlineStatus(c: Chat, isOnline: bool, clock: Clock): (r: Chat)
    ensures r.body.isOnline == isOnline && r.updatedAt == clock.now
    ensures r.id == c.id && r.createdAt == c.createdAt
    ensures r.body.name == c.body.name && r.body.lastMessage == c.body.lastMessage && r.body.timestamp == c.body.timestamp
  {
    c.(updatedAt := clock.now, body := c.body.(isOnline := isOnline))
  }

  const EmptyChatPreview: string := "* Empty chat *"
  const MaxNameLength: nat := 100

  /** The `maxLength` of `getLastMessagePreview()` when none is given. */
  const DefaultPreviewLength: nat := 30

  /** `getLastMessagePreview(maxLength)`. Lengths are `length`s, counted in UTF-16
      code units. */
  function LastMessagePreview(c: Chat, maxLength: int): (r: string)
    ensures !Truthy(c.body.lastMessage) ==> r == EmptyChatPreview
    ensures Truthy(c.body.lastMessage) && Utf16Length(c.body.lastMessage.value) <= maxLength ==> r == c.body.lastMessage.value
    ensures Truthy(c.body.lastMessage) && Utf16Length(c.body.lastMessage.value) > maxLength ==>
      && Utf16Length(r) == (if maxLength < 0 then 0 else maxLength) + |Ellipsis|
      && |Ellipsis| <= |r|
      && UnitPrefix(r[..|r| - |Ellipsis|], c.body.lastMessage.value)
      && r[|r| - |Ellipsis|..] == Ellipsis
  {
    if !Truthy(c.body.lastMessage) then EmptyChatPreview
    else
      var m := c.body.lastMessage.value;
      if Utf16Length(m) <= maxLength then m
      else
        var cut := Clip(m, maxLength);
        Utf16LengthAppend(cut, Ellipsis);
        assert (cut + Ellipsis)[..|cut|] == cut;
        cut + Ellipsis
  }

  /** With the default length a preview is at most 33 code units long: the
      placeholder, a short message, or 30 units and `...`. */
  lemma DefaultPreviewIsShort(c: Chat)
    ensures Utf16Length(LastMessagePreview(c, DefaultPreviewLength)) <= DefaultPreviewLength + |Ellipsis|
  {
  }

  /** `hasMessages()`: `!!this.lastMessage`, a last message of non-zero length;
      without one the preview is the placeholder. */
  function HasMessages(c: Chat): (b: bool)
    ensures b <==> c.body.lastMessage.Some? && Utf16Length(c.body.lastMessage.value) > 0
    ensures !b ==> forall n :: LastMessagePreview(c, n) == EmptyChatPreview
  {
    Truthy(c.body.lastMessage)
  }

  /** After `updateLastMessage(m)` the chat has messages exactly when `m` is non-empty,
      and then a preview long enough for `m` shows `m` itself. */
  lemma HasMessagesAfterUpdate(c: Chat, m: string, clock: Clock, maxLength: int)
    ensures HasMessages(UpdateLastMessage(c, m, clock)) <==> m != ""
    ensures m == "" ==> LastMessagePreview(UpdateLastMessage(c, m, clock), maxLength) == EmptyChatPreview
    ensures m != "" && Utf16Length(m) <= maxLength ==> LastMessagePreview(UpdateLastMessage(c, m, clock), maxLength) == m
  {
  }

  /** `isValidName(name)`: the trimmed name is 1 to 100 code units long, so it is
      not blank. */
  function IsValidName(name: string): (b: bool)
    ensures b <==> !IsBlank(name) && Utf16Length(Trim(name)) <= MaxNameLength
  {
    0 < Utf16Length(Trim(name)) <= MaxNameLength
  }

  /** `updateName(newName)`: rejects an invalid name, otherwise stores it trimmed. */
  function UpdateName(c: Chat, newName: string, clock: Clock): (r: Result<Chat, Failure>)
    ensures r.Err? <==> IsBlank(newName) || Utf16Length(Trim(newName)) > MaxNameLength
    ensures r.Err? ==> r.error == Plain(InvalidChatName)
    ensures r.Ok? ==> r.value.body.name == Trim(newName) && r.value.updatedAt == clock.now
    ensures r.Ok? ==> r.value.id == c.id && r.value.createdAt == c.createdAt
    ensures r.Ok? ==> r.value.body.lastMessage == c.body.lastMessage && r.value.body.timestamp == c.body.timestamp
    ensures r.Ok? ==> r.value.body.isOnline == c.body.isOnline
    ensures r.Ok? ==> IsValidName(r.value.body.name)
  {
    if !IsValidName(newName) then Err(Plain(InvalidChatName))
    else
      TrimIdempotent(newName);
      Ok(c.(updatedAt := clock.now, body := c.body.(name := Trim(newName))))
  }

  /** A name made only of characters outside the Basic Multilingual Plane counts
      two code units per character: with more than fifty of them `updateName`
      rejects it, though it has at most 100 characters. */
  lemma AstralNameTooLong(c: Chat, name: string, clock: Clock)
    requires forall i :: 0 <= i < |name| ==> Units(name[i]) == 2
    requires |name| > MaxNameLength / 2
    ensures UpdateName(c, name, clock).Err?
  {
    assert Units(name[0]) == 2 && Units(name[|name| - 1]) == 2;
    TrimKeepsUnpadded(name);
    Utf16LengthAstral(name);
    assert Utf16Length(Trim(name)) > MaxNameLength;
    assert !IsValidName(name);
  }

  /** Sixty emoji make such a name. */
  lemma EmojiNameTooLong(c: Chat, clock: Clock)
    ensures UpdateName(c, seq(60, _ => '\U{1F600}'), clock).Err?
  {
    AstralNameTooLong(c, seq(60, _ => '\U{1F600}'), clock);
  }

  /** `ChatEntity.isValidChatData(data)`: a string name that is not blank. */
  function IsValidChatData(data: ChatInput): (b: bool)
    ensures b <==> data.name.Some? && !IsBlank(data.name.value)
  {
    data.name.Some? && Utf16Length(Trim(data.name.value)) > 0
  }

}

=== FILE: chat_list.dfy ===
/** `ChatList`, the sidebar of the first version of the app: the chat list read
    from the chat store, a case-insensitive search over names and last
    messages, shortened previews, and the two-click "new chat" button. */
module ChatList {
  import opened Wrappers
  import opened Text
  import opened Seqs
  import opened BaseStore
  import OrderedMap
  import LC = LegacyChats

  const MaxMessageLength: nat := 30
  const EmptyChatText: string := "* Empty chat *"

  /** `truncateMessage(message)`: at most 30 UTF-16 code units are kept, and an
      ellipsis marks a cut. */
  function TruncateMessage(message: string): (r: string)
    ensures Utf16Length(r) <= MaxMessageLength + |Ellipsis|
    ensures Utf16Length(message) <= MaxMessageLength ==> r == message
    ensures Utf16Length(message) > MaxMessageLength ==>
      && Utf16Length(r) == MaxMessageLength + |Ellipsis|
      && UnitPrefix(r[..|r| - |Ellipsis|], message)
      && r[|r| - |Ellipsis|..] == Ellipsis
  {
    if message == "" then ""
    else if Utf16Length(message) <= MaxMessageLength then message
    else
      var cut := Clip(message, MaxMessageLength);
      Utf16LengthAppend(cut, Ellipsis);
      assert (cut + Ellipsis)[..|cut|] == cut;
      cut + Ellipsis
  }

  /** Shortening a shortened text changes nothing: a cut text is 33 code units
      long and is cut again at the same place. */
  lemma TruncateIdempotent(message: string)
    ensures TruncateMessage(TruncateMessage(message)) == TruncateMessage(message)
  {
    var r := TruncateMessage(message);
    if Utf16Length(message) > MaxMessageLength {
      var cut := r[..|r| - |Ellipsis|];
      assert r == cut + Ellipsis;
      Utf16LengthAppend(cut, Ellipsis);
      ClipWhole(cut, Ellipsis);
    }
  }

  /** Twenty emoji are forty code units: `length` counts each twice, so their
      preview is cut after the fifteenth. */
  lemma AstralMessageIsCut()
    ensures TruncateMessage(seq(20, _ => '\U{1F600}')) == seq(15, _ => '\U{1F600}') + Ellipsis
  {
    var m := seq(20, _ => '\U{1F600}');
    var kept := seq(15, _ => '\U{1F600}');
    assert m == kept + seq(5, _ => '\U{1F600}');
    Utf16LengthAstral(m);
    Utf16LengthAstral(kept);
    ClipWhole(kept, seq(5, _ => '\U{1F600}'));
  }

  /** The preview line of a chat: its last message, or a placeholder for a chat
      without one, shortened. */
  function Preview(c: LC.Chat): (r: string)
    ensures r != ""
    ensures LC.Truthy(c.lastMessage) ==> r == TruncateMessage(c.lastMessage.value)
    ensures !LC.Truthy(c.lastMessage) ==> r == EmptyChatText
  {
    TruncateMessage(if LC.Truthy(c.lastMessage) then c.lastMessage.value else EmptyChatText)
  }

  /** `c.toUpperCase()` on the ASCII range. */
  function UpperChar(c: char): char {
    if 'a' <= c <= 'z' then (c as int - 32) as char else c
  }

  /** The avatar letter, `name[0].toUpperCase()`: `None` where that throws, on an
      empty name. `name[0]` is a code unit, so a name that starts outside the
      Basic Multilingual Plane shows the lone first half of its pair. */
  function Avatar(name: string): (r: Option<char>)
    ensures r.Some? <==> name != ""
    ensures name != "" && Units(name[0]) == 1 ==> r == Some(UpperChar(name[0]))
    ensures name != "" && Units(name[0]) == 2 ==> r == Some(LoneHalf)
  {
    if name == "" then None
    else if Units(name[0]) == 2 then Some(LoneHalf)
    else Some(UpperChar(name[0]))
  }

  /** The search condition of `filteredChats`: the lower-cased query occurs in the
      lower-cased name, or in a non-empty last message. */
  function Matches(query: string): LC.Chat -> bool {
    (c: LC.Chat) =>
      Contains(Lower(c.name), Lower(query))
      || (LC.Truthy(c.lastMessage) && Contains(Lower(c.lastMessage.value), Lower(query)))
  }

  /** The search ignores the letter case of the query, and a query that begins
      the name, in any case, finds the chat. */
  lemma MatchesIgnoresCase(query: string, c: LC.Chat)
    ensures Matches(query)(c) <==> Matches(Lower(query))(c)
    ensures Lower(query) <= Lower(c.name) ==> Matches(query)(c)
  {
    LowerIdempotent(query);
  }

  /** `filteredChats`. */
  function Filtered(chats: seq<LC.Chat>, query: string): (r: seq<LC.Chat>)
    ensures IsSubseq(r, chats)
    ensures forall c :: c in r <==> c in chats && Matches(query)(c)
  {
    Filter(chats, Matches(query))
  }

  /** An empty query lists every chat, in order. */
  lemma EmptyQueryListsAll(chats: seq<LC.Chat>)
    ensures Filtered(chats, "") == chats
  {
    forall c | c in chats ensures Matches("")(c) {
      assert Lower("") == "";
      ContainsTrivial(Lower(c.name));
    }
    FilterKeepsAll(chats, Matches(""));
  }

  /** Typing more of a query never brings back a chat the shorter query hid. */
  lemma LongerQueryListsFewer(chats: seq<LC.Chat>, query: string, more: string)
    ensures forall c :: c in chats && Matches(query + more)(c) ==> Matches(query)(c)
    ensures |Filtered(chats, query + more)| <= |Filtered(chats, query)|
  {
    LowerAppend(query, more);
    forall c | c in chats && Matches(query + more)(c) ensures Matches(query)(c) {
      if Contains(Lower(c.name), Lower(query) + Lower(more)) {
        ContainsPrefixOf(Lower(c.name), Lower(query), Lower(more));
      } else {
        ContainsPrefixOf(Lower(c.lastMessage.value), Lower(query), Lower(more));
      }
    }
    CountMonotonic(chats, Matches(query + more), Matches(query));
  }

  /** The new-chat part of the component state. */
  datatype Form = Form(isCreatingChat: bool, newChatName: string)

  /** The component state: the chats last read from the store, the query, the form. */
  datatype View = View(chats: seq<LC.Chat>, searchQuery: string, form: Form)

  /** The state after mounting, or after a `chatUpdate` window event: the store's
      listing is read again; nothing else changes. */
  function Refresh(v: View, store: LC.Store, parse: LC.ParseDate): (r: View)
    ensures r.chats == LC.GetChats(store, parse)
    ensures multiset(r.chats) == multiset(OrderedMap.Values(store))
    ensures r.searchQuery == v.searchQuery && r.form == v.form
  {
    v.(chats := LC.GetChats(store, parse))
  }

  /** The list shown after a refresh is the store's sorted listing: latest date
      first when every chat's time text parses, insertion order when none does. */
  lemma RefreshOrder(v: View, store: LC.Store, parse: LC.ParseDate)
    ensures (forall k :: k in store.items ==> LC.Dated(parse, store.items[k])) ==>
      var r := Refresh(v, store, parse).chats;
      forall i, j :: 0 <= i < j < |r| ==> LC.DateOf(parse, r[i]) >= LC.DateOf(parse, r[j])
    ensures (forall k :: k in store.items ==> !LC.Dated(parse, store.items[k])) ==>
      Refresh(v, store, parse).chats == OrderedMap.Values(store)
  {
    if forall k :: k in store.items ==> LC.Dated(parse, store.items[k]) {
      LC.DatedListingNewestFirst(store, parse);
    }
    if forall k :: k in store.items ==> !LC.Dated(parse, store.items[k]) {
      LC.UndatedListingKeepsInsertionOrder(store, parse);
    }
  }

  /** What a click on the new-chat button leaves: the state, the store, and the
      route navigated to, if any. */
  datatype Clicked = Clicked(view: View, store: LC.Store, navigateTo: Option<string>)

  /** `handleCreateChat()`: the first click only opens the form; a later click with
      a blank name does nothing; otherwise a chat with the trimmed name is
      created, the list is read again, the form is closed and emptied, and the
      app navigates to the new chat. */
  function HandleCreateChat(v: View, store: LC.Store, clock: Clock, parse: LC.ParseDate): (r: Clicked)
    ensures !v.form.isCreatingChat ==>
      r == Clicked(v.(form := v.form.(isCreatingChat := true)), store, None)
    ensures v.form.isCreatingChat && IsBlank(v.form.newChatName) ==> r == Clicked(v, store, None)
    ensures v.form.isCreatingChat && !IsBlank(v.form.newChatName) ==>
      var created := LC.CreateNewChat(store, Trim(v.form.newChatName), clock);
      && r.store == created.store
      && r.view == View(LC.GetChats(created.store, parse), v.searchQuery, Form(false, ""))
      && r.navigateTo == Some("/chat/" + created.chat.id)
  {
    if !v.form.isCreatingChat then Clicked(v.(form := v.form.(isCreatingChat := true)), store, None)
    else if Trim(v.form.newChatName) != "" then
      var created := LC.CreateNewChat(store, Trim(v.form.newChatName), clock);
      Clicked(View(LC.GetChats(created.store, parse), v.searchQuery, Form(false, "")), created.store,
              Some("/chat/" + created.chat.id))
    else Clicked(v, store, None)
  }

  /** `handleCancelNewChat()`. */
  function CancelNewChat(v: View): (r: View)
    ensures r.form == Form(false, "") && r.chats == v.chats && r.searchQuery == v.searchQuery
  {
    v.(form := Form(false, ""))
  }

  /** A chat made from the list is listed right away, under a name that is trimmed
      and not empty, so its avatar letter exists. */
  lemma CreatedChatIsListed(v: View, store: LC.Store, clock: Clock, parse: LC.ParseDate)
    requires v.form.isCreatingChat && !IsBlank(v.form.newChatName)
    ensures var r := HandleCreateChat(v, store, clock, parse);
      exists c :: c in r.view.chats && c.name == Trim(v.form.newChatName) && r.navigateTo == Some("/chat/" + c.id)
        && Trim(c.name) == c.name && Avatar(c.name).Some?
  {
    var created := LC.CreateNewChat(store, Trim(v.form.newChatName), clock);
    LC.CreateThenGet(store, Trim(v.form.newChatName), clock, parse);
    TrimIdempotent(v.form.newChatName);
    assert created.chat in HandleCreateChat(v, store, clock, parse).view.chats;
  }

  /** Whether the search box is rendered, as written: only while the filtered
      list is non-empty. */
  function SearchShown(v: View): (b: bool)
    ensures b <==> exists c :: c in v.chats && Matches(v.searchQuery)(c)
  {
    |Filtered(v.chats, v.searchQuery)| > 0
  }

  /** Typing in the search box, which is possible only while it is rendered. */
  function EditQuery(v: View, query: string): (r: View)
    ensures SearchShown(v) ==> r == v.(searchQuery := query)
    ensures !SearchShown(v) ==> r == v
  {
    if SearchShown(v) then v.(searchQuery := query) else v
  }

  /** A query that matches nothing hides the box it was typed into: with one chat
      named "Alice", typing "Alicex" leaves an empty list, and the query cannot
      be edited until some chat matches it, such as a chat made with the "+"
      button under a name that includes the query, or a `chatUpdate` that brings
      a matching last message. */
  lemma UnmatchedQueryIsStuck(v: View, query: string)
    requires v.chats == [LC.Chat("1", "Alice", None, Some("10:00"), true)] && v.searchQuery == "Alicex"
    ensures Filtered(v.chats, v.searchQuery) == [] && !SearchShown(v)
    ensures EditQuery(v, query) == v
  {
    var c := v.chats[0];
    assert Lower("Alicex") == "alicex";
    assert Lower(c.name) == "alice";
    assert !Contains("alice", "alicex");
    assert !Matches("Alicex")(c);
    assert Filter(v.chats, Matches("Alicex")) == Filter(v.chats[1..], Matches("Alicex"));
  }

  /** The search box rendered whenever there is a chat to search. */
  predicate SearchShownFixed(v: View) {
    |v.chats| > 0
  }

  function EditQueryFixed(v: View, query: string): (r: View)
    ensures SearchShownFixed(v) ==> r == v.(searchQuery := query)
    ensures !SearchShownFixed(v) ==> r == v
  {
    if SearchShownFixed(v) then v.(searchQuery := query) else v
  }

  /** With the box shown whenever there is a chat, any query can be cleared, and
      clearing it lists every chat again. */
  lemma ClearingRestoresList(v: View)
    requires |v.chats| > 0
    ensures var r := EditQueryFixed(v, "");
      r.searchQuery == "" && Filtered(r.chats, r.searchQuery) == v.chats && SearchShownFixed(r)
  {
    EmptyQueryListsAll(v.chats);
  }
}

=== FILE: chat_repository.dfy ===
/** `ChatRepository`: the chat store with validation on creation, name lookup,
    last-message bookkeeping, ordering by activity, search and statistics. Its
    create and update hooks publish `chat:created` and `chat:updated`. */
module ChatRepository {
  import opened Wrappers
  import opened Errors
  import opened Text
  import opened Seqs
  import Sorting
  import OrderedMap
  import opened BaseStore
  import opened ChatEntity
  import opened Events

  type Repo = Store<ChatData>

  /** What a state-changing call produces: the new store, the events published
      in order, and the return value. */
  datatype Change<R> = Change(repo: Repo, events: seq<Event>, value: R)

  /** Every chat is stored under its own id and was built by `ChatEntity`, so its
      id and its timestamp are non-empty. */
  ghost predicate Valid(s: Repo) {
    && Keyed(s)
    && forall k :: k in s.items ==> s.items[k].id != "" && Truthy(s.items[k].body.timestamp)
  }

  /** The overridden hooks: creation and update publish an event, deletion does not. */
  function Publish(hooks: seq<Hook<ChatData>>): (r: seq<Event>)
    ensures |r| <= |hooks|
    ensures forall c :: ChatCreated(c) in r <==> OnCreated(c) in hooks
    ensures forall c :: ChatUpdated(c) in r <==> OnUpdated(c) in hooks
    ensures forall e :: e in r ==> e.ChatCreated? || e.ChatUpdated?
    ensures (forall i :: 0 <= i < |hooks| ==> !hooks[i].OnDeleted?) ==> |r| == |hooks|
  {
    if |hooks| == 0 then []
    else
      var e := match hooks[0]
        case OnCreated(c) => [ChatCreated(c)]
        case OnUpdated(c) => [ChatUpdated(c)]
        case OnDeleted(_) => [];
      e + Publish(hooks[1..])
  }

  /** Publishing the hooks of two steps publishes the events of the first, then
      those of the second. */
  lemma {:induction false} PublishAppend(a: seq<Hook<ChatData>>, b: seq<Hook<ChatData>>)
    ensures Publish(a + b) == Publish(a) + Publish(b)
    decreases |a|
  {
    if |a| == 0 {
      assert a + b == b;
    } else {
      assert (a + b)[0] == a[0];
      assert (a + b)[1..] == a[1..] + b;
      PublishAppend(a[1..], b);
    }
  }

  /** `buildEntity(data)`. */
  function BuildEntity(data: ChatInput, freshId: FreshId, clock: Clock): (r: Result<Chat, Failure>)
    ensures r.Err? <==> !IsValidChatData(data)
    ensures r.Err? ==> r.error == Plain(InvalidChatData)
    ensures r.Ok? ==> r.value.body.name == data.name.value && r.value.id != "" && Truthy(r.value.body.timestamp)
  {
    if !IsValidChatData(data) then Err(Plain(InvalidChatData))
    else Ok(New(data, freshId, clock))
  }

  /** The inherited `create(data)` with this repository's `buildEntity` and hook. */
  function Create(s: Repo, data: ChatInput, freshId: FreshId, clock: Clock): (r: Result<Change<Chat>, Failure>)
    ensures r.Err? <==> !IsValidChatData(data)
    ensures r.Err? ==> r.error == Plain(InvalidChatData)
    ensures r.Ok? ==> && r.value.repo.items == s.items[r.value.value.id := r.value.value]
                      && r.value.events == [ChatCreated(r.value.value)]
                      && r.value.value.body.name == data.name.value
    ensures r.Ok? && Valid(s) ==> Valid(r.value.repo)
  {
    var built := BuildEntity(data, freshId, clock);
    match BaseStore.Create(s, built)
    case Err(e) => Err(e)
    case Ok(step) => Ok(Change(step.store, Publish(step.hooks), step.value))
  }

  /** The inherited `delete(id)`: no event is published. */
  function Delete(s: Repo, id: string): (r: Change<bool>)
    ensures r.value <==> id in s.items
    ensures r.repo.items == s.items - {id} && r.events == []
    ensures r.repo.keys == OrderedMap.Without(s.keys, id)
    ensures Valid(s) ==> Valid(r.repo)
  {
    var step := BaseStore.Delete(s, id);
    Change(step.store, Publish(step.hooks), step.value)
  }

  /** `name.toLowerCase().includes(query)` for a lower-cased query. */
  predicate NameMatches(c: Chat, q: string) {
    Contains(Lower(c.body.name), q)
  }

  /** `findByName(name)`: the chats whose name includes `name`, ignoring case, in
      store order. */
  function FindByName(s: Repo, name: string): (r: seq<Chat>)
    ensures forall i :: 0 <= i < |r| ==> r[i] in GetAll(s) && NameMatches(r[i], Lower(name))
    ensures forall i :: 0 <= i < |GetAll(s)| && NameMatches(GetAll(s)[i], Lower(name)) ==> GetAll(s)[i] in r
    ensures IsSubseq(r, GetAll(s))
  {
    var q := Lower(name);
    Filter(GetAll(s), c => NameMatches(c, q))
  }

  /** A stored chat is found by its own name. */
  lemma FindByOwnName(s: Repo, id: string)
    requires id in s.items
    ensures s.items[id] in FindByName(s, s.items[id].body.name)
  {
    var c := s.items[id];
    ContainsTrivial(Lower(c.body.name));
    var i :| 0 <= i < |s.keys| && s.keys[i] == id;
    assert GetAll(s)[i] == c;
  }

  /** `updateLastMessage(chatId, message)`: the stored chat is rebuilt through
      `ChatEntity`, given the message and the current time, and written back. */
  function UpdateLastMessage(s: Repo, chatId: string, message: string, freshId: FreshId, clock: Clock): (r: Result<Change<()>, Failure>)
    ensures r.Err? <==> chatId !in s.items
    ensures r.Err? ==> r.error == Plain("Chat with ID " + chatId + " not found")
    ensures r.Ok? ==> r.value.repo.keys == s.keys && r.value.repo.items.Keys == s.items.Keys
    ensures r.Ok? && Valid(s) ==>
      var u := s.items[chatId].(updatedAt := clock.now,
                                body := s.items[chatId].body.(lastMessage := Some(message), timestamp := Some(clock.text)));
      && r.value.repo.items == s.items[chatId := u]
      && r.value.events == [ChatUpdated(u)]
      && Valid(r.value.repo)
  {
    if chatId !in s.items then Err(Plain("Chat with ID " + chatId + " not found"))
    else
      var chat := s.items[chatId];
      var entity := ChatEntity.UpdateLastMessage(New(AsInput(chat), freshId, clock), message, clock);
      var step := BaseStore.Update(s, chatId, _ => entity, clock.now);
      assert Valid(s) ==> New(AsInput(chat), freshId, clock) == chat by {
        if Valid(s) { RoundTrip(chat, freshId, clock); }
      }
      Ok(Change(step.store, Publish(step.hooks), ()))
  }

  /** Whether `createNewChat(name)` finds a clash: some stored name includes the
      trimmed name, ignoring case. */
  function NameTaken(s: Repo, name: string): (b: bool)
    ensures b <==> exists id :: id in s.items && Contains(Lower(s.items[id].body.name), Lower(Trim(name)))
  {
    StoredIsListed(s);
    exists i :: 0 <= i < |GetAll(s)| && NameMatches(GetAll(s)[i], Lower(Trim(name)))
  }

  /** `createNewChat(name)`: a blank name and a name that clashes with a stored one
      are refused; otherwise a chat with the trimmed name is created. */
  function CreateNewChat(s: Repo, name: string, freshId: FreshId, clock: Clock): (r: Result<Change<Chat>, Failure>)
    ensures r.Err? <==> IsBlank(name) || NameTaken(s, name)
    ensures IsBlank(name) ==> r == Err(Plain(EmptyChatName))
    ensures !IsBlank(name) && NameTaken(s, name) ==> r == Err(Plain(DuplicateChatName))
    ensures r.Ok? ==>
      var c := r.value.value;
      && c.id == freshId && c.body.name == Trim(name) && IsValidChatData(AsInput(c))
      && c.body.lastMessage.None? && c.body.timestamp == Some(clock.text) && c.body.isOnline
      && r.value.repo.items == s.items[freshId := c]
      && r.value.events == [ChatCreated(c)]
    ensures r.Ok? && Valid(s) ==> Valid(r.value.repo)
  {
    if IsBlank(name) then Err(Plain(EmptyChatName))
    else
      var t := Trim(name);
      var existing := FindByName(s, t);
      if |existing| > 0 then
        assert NameTaken(s, name) by {
          var j :| 0 <= j < |GetAll(s)| && GetAll(s)[j] == existing[0];
        }
        Err(Plain(DuplicateChatName))
      else
        TrimIdempotent(name);
        Create(s, ChatInput(None, None, None, Some(t), None, None, None), freshId, clock)
  }

  /** Once `createNewChat(name)` has succeeded, asking again with the same name
      is refused as a duplicate. */
  lemma {:induction false} CreateNewChatRefusesRepeat(s: Repo, name: string, id1: FreshId, c1: Clock, id2: FreshId, c2: Clock)
    requires CreateNewChat(s, name, id1, c1).Ok?
    ensures CreateNewChat(CreateNewChat(s, name, id1, c1).value.repo, name, id2, c2)
         == Err(Plain(DuplicateChatName))
  {
    var s' := CreateNewChat(s, name, id1, c1).value.repo;
    var c := CreateNewChat(s, name, id1, c1).value.value;
    assert s'.items[c.id] == c;
    var i :| 0 <= i < |s'.keys| && s'.keys[i] == c.id;
    assert GetAll(s')[i] == c;
    ContainsTrivial(Lower(Trim(name)));
    assert NameMatches(c, Lower(Trim(name)));
  }

  /** The clash test is a case-insensitive substring test: a name that is part of
      a stored name is refused even though no stored name equals it. */
  lemma PartOfStoredNameIsTaken(s: Repo, id: string, name: string, freshId: FreshId, clock: Clock)
    requires id in s.items
    requires !IsBlank(name) && Contains(Lower(s.items[id].body.name), Lower(Trim(name)))
    ensures CreateNewChat(s, name, freshId, clock) == Err(Plain(DuplicateChatName))
  {
    var i :| 0 <= i < |s.keys| && s.keys[i] == id;
    assert GetAll(s)[i] == s.items[id];
  }

  /** `parseTimestamp(t).getTime()`: the time of day `t` names, today. `None`
      stands for `NaN`, which is what a 12-hour text such as "02:05 PM" gives,
      since its minutes `Number("05 PM")` are not a number. */
  type ParseTime = string -> Option<int>

  /** The comparator of `getAllSorted()`: when both chats have a timestamp, the
      later parsed time first, and 0 when either does not parse (a `NaN`
      difference counts as 0, as the ECMAScript `SortCompare` prescribes);
      otherwise the later creation time first. */
  function ActivityOrder(rank: ParseTime): (r: (Chat, Chat) -> int)
    ensures Sorting.Antisymmetric(r)
    ensures forall a, b :: Timed(rank, a) && Timed(rank, b) ==> r(a, b) == RecentFirst(rank)(a) - RecentFirst(rank)(b)
  {
    (a: Chat, b: Chat) =>
      if Truthy(a.body.timestamp) && Truthy(b.body.timestamp) then
        if rank(a.body.timestamp.value).None? || rank(b.body.timestamp.value).None? then 0
        else rank(b.body.timestamp.value).value - rank(a.body.timestamp.value).value
      else b.createdAt - a.createdAt
  }

  /** The sort key under which `ActivityOrder` is ascending for chats whose
      timestamps parse. */
  function RecentFirst(rank: ParseTime): Chat -> int {
    (c: Chat) =>
      if Truthy(c.body.timestamp) && rank(c.body.timestamp.value).Some?
      then -rank(c.body.timestamp.value).value
      else -c.createdAt
  }

  /** The chat has a timestamp and it parses. */
  predicate Timed(rank: ParseTime, c: Chat) {
    Truthy(c.body.timestamp) && rank(c.body.timestamp.value).Some?
  }

  /** Every stored chat's timestamp parses. */
  ghost predicate AllParse(s: Repo, rank: ParseTime) {
    forall k :: k in s.items && s.items[k].body.timestamp.Some? ==> rank(s.items[k].body.timestamp.value).Some?
  }

  /** No stored chat's timestamp parses, as in a 12-hour locale. */
  ghost predicate NoneParse(s: Repo, rank: ParseTime) {
    forall k :: k in s.items && s.items[k].body.timestamp.Some? ==> rank(s.items[k].body.timestamp.value).None?
  }

  /** `getAllSorted()`: every stored chat once, reordered. */
  function GetAllSorted(s: Repo, rank: ParseTime): (r: seq<Chat>)
    ensures multiset(r) == multiset(GetAll(s)) && |r| == |s.items|
  {
    Sorting.SortPermutes(GetAll(s), ActivityOrder(rank));
    Sorting.Sort(GetAll(s), ActivityOrder(rank))
  }

  /** In a valid store every chat has a timestamp, so when they all parse the
      comparator orders the chats by their parsed time. */
  lemma ActivityOrderOrders(s: Repo, rank: ParseTime)
    requires Valid(s) && AllParse(s, rank)
    ensures Sorting.OrdersBy(ActivityOrder(rank), RecentFirst(rank), GetAll(s))
  {
    var xs := GetAll(s);
    forall i | 0 <= i < |xs|
      ensures Truthy(xs[i].body.timestamp) && rank(xs[i].body.timestamp.value).Some?
    {
      assert s.keys[i] in s.items;
    }
  }

  /** When the timestamps parse, `getAllSorted()` lists the most recent activity
      first, and chats whose timestamps parse to the same time stay in store order. */
  lemma GetAllSortedRecentFirst(s: Repo, rank: ParseTime, k: int)
    requires Valid(s) && AllParse(s, rank)
    ensures Sorting.SortedBy(GetAllSorted(s, rank), RecentFirst(rank))
    ensures Sorting.Ties(GetAllSorted(s, rank), RecentFirst(rank), k) == Sorting.Ties(GetAll(s), RecentFirst(rank), k)
  {
    ActivityOrderOrders(s, rank);
    Sorting.SortSorted(GetAll(s), ActivityOrder(rank), RecentFirst(rank));
    Sorting.SortStable(GetAll(s), ActivityOrder(rank), RecentFirst(rank), k);
  }

  /** When no timestamp parses, every comparison is 0 and `getAllSorted()` is the
      store order: the listing does not follow activity at all. */
  lemma UnparsedListingKeepsStoreOrder(s: Repo, rank: ParseTime)
    requires Valid(s) && NoneParse(s, rank)
    ensures GetAllSorted(s, rank) == GetAll(s)
  {
    var xs := GetAll(s);
    forall a, b | a in xs && b in xs
      ensures ActivityOrder(rank)(a, b) <= 0
    {
      var i :| 0 <= i < |xs| && xs[i] == a;
      var j :| 0 <= j < |xs| && xs[j] == b;
      assert s.keys[i] in s.items && s.keys[j] in s.items;
    }
    Sorting.SortKeepsOrder(xs, ActivityOrder(rank));
  }

  /** `getAllSorted()` lists every stored chat. */
  lemma SortedListsStored(s: Repo, rank: ParseTime)
    ensures forall c :: c in s.items.Values ==> c in GetAllSorted(s, rank)
  {
    StoredIsListed(s);
    forall c | c in s.items.Values ensures c in GetAllSorted(s, rank) {
      var k :| k in s.items && s.items[k] == c;
      assert c in multiset(GetAll(s));
    }
  }

  /** The `search` filter for a lower-cased, trimmed query. */
  predicate SearchMatches(c: Chat, q: string) {
    Contains(Lower(c.body.name), q) || (c.body.lastMessage.Some? && Contains(Lower(c.body.lastMessage.value), q))
  }

  /** `search(query)`: a blank query gives every chat; otherwise the chats whose
      name or last message includes the query, ignoring case; in both cases in
      `getAllSorted()` order. */
  function Search(s: Repo, query: string, rank: ParseTime): (r: seq<Chat>)
    ensures IsBlank(query) ==> r == GetAllSorted(s, rank)
    ensures !IsBlank(query) ==>
      var q := Trim(Lower(query));
      && IsSubseq(r, GetAllSorted(s, rank))
      && (forall i :: 0 <= i < |r| ==> SearchMatches(r[i], q))
      && (forall c :: c in s.items.Values && SearchMatches(c, q) ==> c in r)
  {
    var sorted := GetAllSorted(s, rank);
    if IsBlank(query) then sorted
    else
      var q := Trim(Lower(query));
      var r := Filter(sorted, c => SearchMatches(c, q));
      SortedListsStored(s, rank);
      forall c | c in s.items.Values && SearchMatches(c, q) ensures c in r {
        FilterHas(sorted, c => SearchMatches(c, q), c);
      }
      r
  }

  /** Searching for a stored chat's own name finds it. */
  lemma SearchFindsOwnName(s: Repo, id: string, rank: ParseTime)
    requires id in s.items
    ensures s.items[id] in Search(s, s.items[id].body.name, rank)
  {
    var c := s.items[id];
    var n := c.body.name;
    if !IsBlank(n) {
      TrimOccurs(Lower(n));
      assert SearchMatches(c, Trim(Lower(n)));
    } else {
      assert c in multiset(GetAll(s)) by {
        var i :| 0 <= i < |s.keys| && s.keys[i] == id;
        assert GetAll(s)[i] == c;
      }
    }
  }

  /** The result of `getStats()`. */
  datatype Stats = Stats(totalChats: nat, chatsWithMessages: nat, averageMessagesPerChat: real)

  /** `getStats()`: `averageMessagesPerChat` is the share of chats that have a
      last message, so it lies between 0 and 1. */
  function GetStats(s: Repo): (r: Stats)
    ensures r.totalChats == |s.items| && r.chatsWithMessages <= r.totalChats
    ensures r.chatsWithMessages == Count(GetAll(s), HasMessages)
    ensures r.chatsWithMessages > 0 ==> r.averageMessagesPerChat == r.chatsWithMessages as real / r.totalChats as real
    ensures 0.0 <= r.averageMessagesPerChat <= 1.0
    ensures r.averageMessagesPerChat == 0.0 <==> r.chatsWithMessages == 0
    ensures r.averageMessagesPerChat == 1.0 <==> r.chatsWithMessages == r.totalChats > 0
  {
    var chats := GetAll(s);
    var n := Count(chats, HasMessages);
    if n == 0 then Stats(|chats|, 0, 0.0)
    else
      ShareBounds(n, |chats|);
      Stats(|chats|, n, n as real / |chats| as real)
  }

  /** A share `n / t` of a positive total lies in `(0, 1]` and is 1 only for `n == t`. */
  lemma ShareBounds(n: nat, t: nat)
    requires 0 < n <= t
    ensures 0.0 < n as real / t as real <= 1.0
    ensures n as real / t as real == 1.0 <==> n == t
  {
    var q := n as real / t as real;
    assert q * t as real == n as real;
  }
}

=== FILE: chat_service.dfy ===
/** `ChatService`: the application facade over the two repositories and the
    completion provider. Its state is both stores, the provider and the event
    log; the singleton repositories and the global event bus become fields. */
module ChatService {
  import opened Wrappers
  import opened Errors
  import opened Text
  import opened Seqs
  import Sorting
  import OrderedMap
  import opened BaseStore
  import opened ChatEntity
  import opened MessageEntity
  import opened Events
  import CR = ChatRepository
  import MR = MessageRepository
  import opened AIProvider
  import OP = OpenAIProvider

  /** The provider behind `IAIProvider`. An `OpenAIProvider` answers through
      `chatWithContext` (system prompt and retries); any other provider's `chat`
      is called once with the conversation. The remote behaviour is a parameter
      of each. */
  datatype Backend =
    | OpenAI(state: OP.State, send: (nat, OP.Request) -> OP.Reply, jitter: nat -> UnitInterval)
    | Other(config: Config, chat: seq<ChatMessage> -> Result<string, Failure>)

  datatype Service = Service(chats: CR.Repo, messages: MR.Repo, provider: Backend, events: seq<Event>)

  /** A state change that may fail; a failure can come after changes were made. */
  datatype Outcome<R> = Outcome(svc: Service, result: Result<R, Failure>)

  /** The two ids and two clock readings one `sendMessage` uses: the user message
      is made before the provider is asked, the AI message after it answered. */
  datatype SendEnv = SendEnv(userId: FreshId, aiId: FreshId, sentAt: Clock, repliedAt: Clock)

  /** What `sendMessage` returns. */
  datatype Exchange = Exchange(userMessage: Message, aiMessage: Message)

  ghost predicate Valid(svc: Service) {
    CR.Valid(svc.chats) && MR.Valid(svc.messages)
  }

  /** `new ChatService(aiProvider?)`: empty stores. */
  function New(provider: Backend): (svc: Service)
    ensures Valid(svc) && svc.chats.items == map[] && svc.messages.items == map[] && svc.events == []
  {
    Service(BaseStore.Empty(), BaseStore.Empty(), provider, [])
  }

  /** `createChat(name)`: the repository's refusal comes back with a prefix. */
  function CreateChat(svc: Service, name: string, freshId: FreshId, clock: Clock): (r: Result<Service, Failure>)
    ensures r.Err? <==> CR.CreateNewChat(svc.chats, name, freshId, clock).Err?
    ensures r.Err? ==> r.error == Plain(CreateChatFailed + CR.CreateNewChat(svc.chats, name, freshId, clock).error.message)
    ensures r.Ok? ==>
      var c := CR.CreateNewChat(svc.chats, name, freshId, clock).value;
      && r.value.chats == c.repo && r.value.messages == svc.messages
      && r.value.events == svc.events + c.events
    ensures r.Ok? && Valid(svc) ==> Valid(r.value)
  {
    match CR.CreateNewChat(svc.chats, name, freshId, clock)
    case Err(e) => Err(Plain(CreateChatFailed + e.message))
    case Ok(c) => Ok(svc.(chats := c.repo, events := svc.events + c.events))
  }

  /** `isAIConfigured()`. */
  predicate IsAIConfigured(svc: Service) {
    match svc.provider
    case OpenAI(st, _, _) => IsConfigured(st.config)
    case Other(c, _) => IsConfigured(c)
  }

  /** `setApiKey(apiKey)`, passed on to the provider. */
  function SetApiKey(svc: Service, apiKey: string): (r: Result<Service, Failure>)
    ensures r.Err? <==> IsBlank(apiKey)
    ensures r.Ok? ==> IsAIConfigured(r.value) && r.value.chats == svc.chats && r.value.messages == svc.messages
  {
    match svc.provider
    case OpenAI(st, send, jitter) =>
      (match OP.SetApiKey(st, apiKey)
       case Err(e) => Err(e)
       case Ok(st') => Ok(svc.(provider := OpenAI(st', send, jitter))))
    case Other(c, chat) =>
      (match AIProvider.SetApiKey(c, apiKey)
       case Err(e) => Err(e)
       case Ok(c') => Ok(svc.(provider := Other(c', chat))))
  }

  /** One stored message as conversation context. */
  function AsChatMessage(m: Message): (c: ChatMessage)
    ensures c.content == m.body.text
    ensures c.role == User <==> m.body.isOutgoing
  {
    ChatMessage(if m.body.isOutgoing then User else Assistant, m.body.text)
  }

  /** `.map(msg => ({role, content}))`. */
  function AsChatMessages(ms: seq<Message>): (r: seq<ChatMessage>)
    ensures |r| == |ms|
    ensures forall i :: 0 <= i < |ms| ==> r[i] == AsChatMessage(ms[i])
  {
    if |ms| == 0 then [] else [AsChatMessage(ms[0])] + AsChatMessages(ms[1..])
  }

  /** The messages sent to the provider: the chat's messages other than the new
      one, in order, then the new text as a user message. */
  function Context(chatMessages: seq<Message>, newId: string, text: string): (r: seq<ChatMessage>)
    ensures |r| >= 1 && r[|r| - 1] == ChatMessage(User, text)
    ensures r[..|r| - 1] == AsChatMessages(Filter(chatMessages, (m: Message) => m.id != newId))
  {
    AsChatMessages(Filter(chatMessages, (m: Message) => m.id != newId)) + [ChatMessage(User, text)]
  }

  /** The provider's answer to the conversation: the OpenAI provider answers
      through `chatWithContext`, with its system prompt for the chat's name and
      its retries; any other provider is asked once with the context as it is. */
  function Ask(p: Backend, context: seq<ChatMessage>, chatName: string): (r: Result<string, Failure>)
    ensures p.Other? ==> r == p.chat(context)
    ensures p.OpenAI? && !IsConfigured(p.state.config) ==> r == Err(Provider(ApiKeyMissing, ConfigurationError, None))
    ensures p.OpenAI? && r.Ok? ==>
      && r.value != ""
      && exists n :: 1 <= n <= MaxRetries && OP.Chat(p.state, OP.WithContext(context, chatName), p.send, n) == Ok(r.value)
  {
    match p
    case OpenAI(st, send, jitter) => OP.ChatWithContext(st, context, chatName, send, jitter).result
    case Other(_, chat) => chat(context)
  }

  /** The `try` block after the answer arrived: store the AI message, update the
      chat's last message, mark the user message delivered. Each step can throw,
      leaving the earlier steps done. */
  function Deliver(s: Service, chatId: string, userId: string, answer: string, env: SendEnv): (r: Outcome<Message>)
    ensures IsBlank(answer) ==> r == Outcome(s, Err(Plain(InvalidMessageData)))
    ensures !IsBlank(answer) && chatId in s.chats.items && userId in s.messages.items && userId != env.aiId ==>
      var ai := MessageEntity.CreateAIMessage(answer, chatId, env.aiId, env.repliedAt);
      r.result == Ok(ai) && env.aiId in r.svc.messages.items
  {
    match MR.CreateAIMessage(s.messages, answer, chatId, env.aiId, env.repliedAt)
    case Err(e) => Outcome(s, Err(e))
    case Ok(created) =>
      var s1 := s.(messages := created.repo, events := s.events + created.events);
      match CR.UpdateLastMessage(s1.chats, chatId, answer, env.aiId, env.repliedAt)
      case Err(e) => Outcome(s1, Err(e))
      case Ok(updated) =>
        var s2 := s1.(chats := updated.repo, events := s1.events + updated.events);
        match MR.UpdateStatus(s2.messages, userId, Delivered, env.aiId, env.repliedAt)
        case Err(e) => Outcome(s2, Err(e))
        case Ok(st) => Outcome(s2.(messages := st.repo), Ok(created.value))
  }

  /** In a valid state, a usable answer for a stored chat and user message takes all
      three steps: the AI message is stored, the chat records the answer, and the
      user message becomes DELIVERED. */
  lemma DeliverStores(s: Service, chatId: string, userId: string, answer: string, env: SendEnv)
    requires !IsBlank(answer) && Valid(s) && chatId in s.chats.items && userId in s.messages.items && userId != env.aiId
    ensures var r := Deliver(s, chatId, userId, answer, env);
      var ai := MessageEntity.CreateAIMessage(answer, chatId, env.aiId, env.repliedAt);
      var m := s.messages.items[userId];
      var chat := s.chats.items[chatId];
      var chat' := chat.(updatedAt := env.repliedAt.now,
                         body := chat.body.(lastMessage := Some(answer), timestamp := Some(env.repliedAt.text)));
      && r.svc.messages.items
         == s.messages.items[userId := m.(updatedAt := env.repliedAt.now, body := m.body.(status := Delivered))][env.aiId := ai]
      && r.svc.chats.items == s.chats.items[chatId := chat']
      && r.svc.events == s.events + [MessageReceived(ai), ChatUpdated(chat')]
      && Valid(r.svc)
  {
    var created := MR.CreateAIMessage(s.messages, answer, chatId, env.aiId, env.repliedAt).value;
    var ai := created.value;
    var s1 := s.(messages := created.repo, events := s.events + created.events);
    var updated := CR.UpdateLastMessage(s1.chats, chatId, answer, env.aiId, env.repliedAt).value;
    var s2 := s1.(chats := updated.repo, events := s1.events + updated.events);
    assert s2.messages.items[userId] == s.messages.items[userId];
    var st := MR.UpdateStatus(s2.messages, userId, Delivered, env.aiId, env.repliedAt).value;
    assert Deliver(s, chatId, userId, answer, env) == Outcome(s2.(messages := st.repo), Ok(ai));
    var m := s.messages.items[userId];
    var m' := m.(updatedAt := env.repliedAt.now, body := m.body.(status := Delivered));
    Swap(s.messages.items, env.aiId, ai, userId, m');
    Then(s.events, MessageReceived(ai), updated.events[0]);
  }

  /** The `catch` block: mark the user message failed, publishing the error, and
      throw a new error carrying its message. */
  function Fail(s: Service, userId: string, e: Failure, env: SendEnv): (r: Outcome<Exchange>)
    ensures r.result == Err(Plain(AIResponseFailed + e.message))
    ensures r.svc.chats == s.chats
    ensures userId in s.messages.items ==> r.svc.events == s.events + [MessageFailed(userId, e)]
    ensures userId in s.messages.items && Valid(s) ==>
      var m := s.messages.items[userId];
      && r.svc.messages.items == s.messages.items[userId := m.(updatedAt := env.repliedAt.now, body := m.body.(status := Failed))]
      && Valid(r.svc)
  {
    var m := MR.MarkMessageAsFailed(s.messages, userId, Some(e), env.aiId, env.repliedAt);
    Outcome(s.(messages := m.repo, events := s.events + m.events), Err(Plain(AIResponseFailed + e.message)))
  }

  /** The state right after the user message was stored. */
  function AfterUserMessage(svc: Service, chatId: string, text: string, env: SendEnv): Service
    requires !IsBlank(text)
  {
    var created := MR.CreateUserMessage(svc.messages, text, chatId, env.userId, env.sentAt).value;
    svc.(messages := created.repo, events := svc.events + created.events)
  }

  /** What the provider is asked during `sendMessage(chatId, text)`. */
  function Question(svc: Service, chatId: string, text: string, env: SendEnv): seq<ChatMessage>
    requires !IsBlank(text)
  {
    Context(MR.GetByChatId(AfterUserMessage(svc, chatId, text, env).messages, chatId), env.userId, text)
  }

  /** The rest of `sendMessage` once the user message `u` is stored in `s` and the
      provider has answered (or thrown). */
  function Respond(s: Service, chatId: string, u: Message, answer: Result<string, Failure>, env: SendEnv): (r: Outcome<Exchange>)
    ensures r.result.Ok? ==> r.result.value.userMessage == u && answer.Ok?
    ensures r.result.Err? ==> exists e: Failure :: r.result.error == Plain(AIResponseFailed + e.message)
    ensures u.id in s.messages.items ==> u.id in r.svc.messages.items
  {
    var delivered := match answer
      case Err(e) => Outcome(s, Err(e))
      case Ok(text) => Deliver(s, chatId, u.id, text, env);
    match delivered.result
    case Ok(ai) => Outcome(delivered.svc, Ok(Exchange(u, ai)))
    case Err(e) =>
      var f := Fail(delivered.svc, u.id, e, env);
      assert f.result.error == Plain(AIResponseFailed + e.message);
      f
  }

  /** `sendMessage(chatId, text)`. An unknown chat and a blank text are refused
      before anything changes; after that the user message stays stored, and a
      failure to get or store an answer marks it failed. */
  function SendMessage(svc: Service, chatId: string, text: string, env: SendEnv): (r: Outcome<Exchange>)
    ensures chatId !in svc.chats.items ==> r == Outcome(svc, Err(Plain(ChatNotFound)))
    ensures chatId in svc.chats.items && IsBlank(text) ==> r == Outcome(svc, Err(Plain(InvalidMessageData)))
    ensures chatId in svc.chats.items && !IsBlank(text) ==>
      && env.userId in r.svc.messages.items
      && (r.result.Ok? ==> r.result.value.userMessage == MessageEntity.CreateUserMessage(text, chatId, env.userId, env.sentAt))
      && (r.result.Err? ==> exists e: Failure :: r.result.error == Plain(AIResponseFailed + e.message))
  {
    if chatId !in svc.chats.items then Outcome(svc, Err(Plain(ChatNotFound)))
    else
      var chat := svc.chats.items[chatId];
      match MR.CreateUserMessage(svc.messages, text, chatId, env.userId, env.sentAt)
      case Err(e) => Outcome(svc, Err(e))
      case Ok(created) =>
        var u := created.value;
        var s1 := svc.(messages := created.repo, events := svc.events + created.events);
        var context := Context(MR.GetByChatId(s1.messages, chatId), u.id, text);
        Respond(s1, chatId, u, Ask(svc.provider, context, chat.body.name), env)
  }

  /** With a fresh id for the user message, the provider is asked about exactly
      the chat's earlier messages, oldest first, followed by the new text. */
  lemma QuestionIsHistory(svc: Service, chatId: string, text: string, env: SendEnv)
    requires Valid(svc) && !IsBlank(text) && env.userId !in svc.messages.items
    ensures Question(svc, chatId, text, env)
         == AsChatMessages(MR.GetByChatId(svc.messages, chatId)) + [ChatMessage(User, text)]
  {
    var u := MessageEntity.CreateUserMessage(text, chatId, env.userId, env.sentAt);
    var s1 := AfterUserMessage(svc, chatId, text, env);
    var before := MR.GetByChatId(svc.messages, chatId);
    MR.ListsTheChat(svc.messages, chatId);
    MR.AppendJoinsChat(svc.messages, s1.messages, u, chatId);
    var p := (m: Message) => m.id != env.userId;
    Sorting.FilterInsert(before, u, MR.ByCreation, p);
    forall i | 0 <= i < |before| ensures p(before[i]) {
      var m := before[i];
      assert m in before;
      var k :| k in svc.messages.items && svc.messages.items[k] == m;
    }
    FilterKeepsAll(before, p);
  }

  /** The provider's answer during `sendMessage(chatId, text)`. */
  function Answer(svc: Service, chatId: string, text: string, env: SendEnv): Result<string, Failure>
    requires chatId in svc.chats.items && !IsBlank(text)
  {
    Ask(svc.provider, Question(svc, chatId, text, env), svc.chats.items[chatId].body.name)
  }

  /** Past the two refusals, `sendMessage` stores the user message and responds to
      the provider's answer to `Question`. */
  lemma SendMessageSteps(svc: Service, chatId: string, text: string, env: SendEnv)
    requires chatId in svc.chats.items && !IsBlank(text)
    ensures SendMessage(svc, chatId, text, env)
         == Respond(AfterUserMessage(svc, chatId, text, env), chatId,
                    MessageEntity.CreateUserMessage(text, chatId, env.userId, env.sentAt), Answer(svc, chatId, text, env), env)
    ensures var u := MessageEntity.CreateUserMessage(text, chatId, env.userId, env.sentAt);
      var s1 := AfterUserMessage(svc, chatId, text, env);
      && s1.messages.items == svc.messages.items[env.userId := u] && s1.chats == svc.chats
      && s1.events == svc.events + [MessageSent(u)]
      && (Valid(svc) ==> Valid(s1))
  {
  }

  /** A usable answer: both messages are returned, the AI message is stored, the
      user message is stored as DELIVERED, the chat shows the answer as its last
      message, and `message:sent`, `message:received` and `chat:updated` are
      published in that order. */
  lemma SendMessageDelivers(svc: Service, chatId: string, text: string, env: SendEnv)
    requires Valid(svc) && chatId in svc.chats.items && !IsBlank(text) && env.userId != env.aiId
    requires Answer(svc, chatId, text, env).Ok? && !IsBlank(Answer(svc, chatId, text, env).value)
    ensures
      var answer := Answer(svc, chatId, text, env).value;
      var u := MessageEntity.CreateUserMessage(text, chatId, env.userId, env.sentAt);
      var ai := MessageEntity.CreateAIMessage(answer, chatId, env.aiId, env.repliedAt);
      var chat := svc.chats.items[chatId];
      var chat' := chat.(updatedAt := env.repliedAt.now,
                         body := chat.body.(lastMessage := Some(answer), timestamp := Some(env.repliedAt.text)));
      var r := SendMessage(svc, chatId, text, env);
      && r.result == Ok(Exchange(u, ai))
      && r.svc.messages.items
         == svc.messages.items[env.userId := u.(updatedAt := env.repliedAt.now, body := u.body.(status := Delivered))][env.aiId := ai]
      && r.svc.chats.items == svc.chats.items[chatId := chat']
      && r.svc.events == svc.events + [MessageSent(u), MessageReceived(ai), ChatUpdated(chat')]
      && Valid(r.svc)
  {
    var answer := Answer(svc, chatId, text, env).value;
    var u := MessageEntity.CreateUserMessage(text, chatId, env.userId, env.sentAt);
    var ai := MessageEntity.CreateAIMessage(answer, chatId, env.aiId, env.repliedAt);
    var chat := svc.chats.items[chatId];
    var s1 := AfterUserMessage(svc, chatId, text, env);
    SendMessageSteps(svc, chatId, text, env);
    RespondDelivers(s1, chatId, u, answer, env);
    Overwrite(svc.messages.items, env.userId, u, u.(updatedAt := env.repliedAt.now, body := u.body.(status := Delivered)));
    Then3(svc.events, MessageSent(u), MessageReceived(ai),
          ChatUpdated(chat.(updatedAt := env.repliedAt.now,
                            body := chat.body.(lastMessage := Some(answer), timestamp := Some(env.repliedAt.text)))));
  }

  /** `Respond` with a usable answer takes every step of `Deliver`. */
  lemma RespondDelivers(s: Service, chatId: string, u: Message, answer: string, env: SendEnv)
    requires Valid(s) && chatId in s.chats.items && u.id in s.messages.items && s.messages.items[u.id] == u
    requires u.id != env.aiId && !IsBlank(answer)
    ensures
      var ai := MessageEntity.CreateAIMessage(answer, chatId, env.aiId, env.repliedAt);
      var chat := s.chats.items[chatId];
      var chat' := chat.(updatedAt := env.repliedAt.now,
                         body := chat.body.(lastMessage := Some(answer), timestamp := Some(env.repliedAt.text)));
      var r := Respond(s, chatId, u, Ok(answer), env);
      && r.result == Ok(Exchange(u, ai))
      && r.svc.messages.items
         == s.messages.items[u.id := u.(updatedAt := env.repliedAt.now, body := u.body.(status := Delivered))][env.aiId := ai]
      && r.svc.chats.items == s.chats.items[chatId := chat']
      && r.svc.events == s.events + [MessageReceived(ai), ChatUpdated(chat')]
      && Valid(r.svc)
  {
    DeliverStores(s, chatId, u.id, answer, env);
  }

  /** No answer, or a blank one: the user message stays stored but FAILED, the
      chats are untouched, `message:sent` and then `message:failed` with the
      underlying error are published, and the error thrown carries its message. */
  lemma SendMessageMarksFailure(svc: Service, chatId: string, text: string, env: SendEnv)
    requires Valid(svc) && chatId in svc.chats.items && !IsBlank(text)
    requires Answer(svc, chatId, text, env).Err? || IsBlank(Answer(svc, chatId, text, env).value)
    ensures
      var a := Answer(svc, chatId, text, env);
      var e := if a.Err? then a.error else Plain(InvalidMessageData);
      var u := MessageEntity.CreateUserMessage(text, chatId, env.userId, env.sentAt);
      var r := SendMessage(svc, chatId, text, env);
      && r.result == Err(Plain(AIResponseFailed + e.message))
      && r.svc.chats == svc.chats
      && r.svc.messages.items
         == svc.messages.items[env.userId := u.(updatedAt := env.repliedAt.now, body := u.body.(status := Failed))]
      && r.svc.events == svc.events + [MessageSent(u), MessageFailed(env.userId, e)]
      && Valid(r.svc)
  {
    var a := Answer(svc, chatId, text, env);
    var u := MessageEntity.CreateUserMessage(text, chatId, env.userId, env.sentAt);
    SendMessageSteps(svc, chatId, text, env);
    var s1 := AfterUserMessage(svc, chatId, text, env);
    assert u.id == env.userId;
    RespondFails(s1, chatId, u, a, env);
    var u' := u.(updatedAt := env.repliedAt.now, body := u.body.(status := Failed));
    Overwrite(svc.messages.items, env.userId, u, u');
    var e := if a.Err? then a.error else Plain(InvalidMessageData);
    Then(svc.events, MessageSent(u), MessageFailed(u.id, e));
  }

  /** `Respond` without a usable answer marks `u` failed and publishes the error. */
  lemma RespondFails(s: Service, chatId: string, u: Message, answer: Result<string, Failure>, env: SendEnv)
    requires Valid(s) && u.id in s.messages.items && s.messages.items[u.id] == u
    requires answer.Err? || IsBlank(answer.value)
    ensures
      var e := if answer.Err? then answer.error else Plain(InvalidMessageData);
      var r := Respond(s, chatId, u, answer, env);
      && r.result == Err(Plain(AIResponseFailed + e.message))
      && r.svc.chats == s.chats
      && r.svc.messages.items == s.messages.items[u.id := u.(updatedAt := env.repliedAt.now, body := u.body.(status := Failed))]
      && r.svc.events == s.events + [MessageFailed(u.id, e)]
      && Valid(r.svc)
  {
  }

  /** A second write to a key replaces the first. */
  lemma Overwrite<V>(m: map<string, V>, k: string, v: V, v': V)
    ensures m[k := v][k := v'] == m[k := v']
  {
  }

  /** `getChats()`. */
  function GetChats(svc: Service, rank: CR.ParseTime): (r: seq<Chat>)
    ensures multiset(r) == multiset(GetAll(svc.chats))
  {
    CR.GetAllSorted(svc.chats, rank)
  }

  /** `deleteChat(chatId)`: the chat's messages go first, then the chat; the result
      says whether the chat existed. Messages are removed even when it did not. */
  method DeleteChat(svc: Service, chatId: string) returns (svc': Service, deleted: bool)
    requires Valid(svc)
    ensures deleted <==> chatId in svc.chats.items
    ensures svc'.chats.items == svc.chats.items - {chatId}
    ensures svc'.messages.items == map k | k in svc.messages.items && !BelongsToChat(svc.messages.items[k], chatId) :: svc.messages.items[k]
    ensures svc'.chats.keys == OrderedMap.Without(svc.chats.keys, chatId)
    ensures svc'.messages.keys == Filter(svc.messages.keys, (k: string) => k in svc'.messages.items)
    ensures svc'.events == svc.events && svc'.provider == svc.provider
    ensures Valid(svc')
  {
    var messages, _ := MR.DeleteChatMessages(svc.messages, chatId);
    var c := CR.Delete(svc.chats, chatId);
    svc' := svc.(chats := c.repo, messages := messages, events := svc.events + c.events);
    deleted := c.value;
  }

  /** `getChatStatistics(chatId)`. */
  function GetChatStatistics(svc: Service, chatId: string): (r: Result<(Chat, MR.ChatStats), Failure>)
    ensures r.Err? <==> chatId !in svc.chats.items
    ensures r.Err? ==> r.error == Plain(ChatNotFound)
    ensures r.Ok? ==> r.value.0 == svc.chats.items[chatId] && r.value.1.totalMessages == |MR.GetByChatId(svc.messages, chatId)|
    ensures r.Ok? ==> r.value.1 == MR.GetChatStats(svc.messages, chatId)
    ensures r.Ok? ==>
      var ms := MR.GetByChatId(svc.messages, chatId);
      && r.value.1.userMessages == Count(ms, MR.Outgoing)
      && r.value.1.aiMessages == |ms| - r.value.1.userMessages
      && r.value.1.failedMessages == Count(ms, IsFailed)
  {
    match GetById(svc.chats, chatId)
    case None => Err(Plain(ChatNotFound))
    case Some(chat) => Ok((chat, MR.GetChatStats(svc.messages, chatId)))
  }

  datatype OverallStats = OverallStats(totalChats: nat, totalMessages: nat, aiConfigured: bool)

  /** The summand of `getOverallStatistics`: how many messages a chat lists. */
  function ListedCount(ms: MR.Repo): Chat -> nat {
    (c: Chat) => |MR.GetByChatId(ms, c.id)|
  }

  /** `getOverallStatistics()`: the messages are counted chat by chat. */
  function GetOverallStatistics(svc: Service, rank: CR.ParseTime): (r: OverallStats)
    ensures r.totalChats == |svc.chats.items|
    ensures r.aiConfigured == IsAIConfigured(svc)
    ensures r.totalMessages == SumOf(GetAll(svc.chats), ListedCount(svc.messages))
  {
    var chats := GetChats(svc, rank);
    Sorting.SumSort(GetAll(svc.chats), CR.ActivityOrder(rank), ListedCount(svc.messages));
    OverallStats(|chats|, SumOf(chats, ListedCount(svc.messages)), IsAIConfigured(svc))
  }

  /** Whether some chat of `chats` has the id. */
  predicate InSome(chats: seq<Chat>, id: string) {
    |chats| > 0 && (chats[0].id == id || InSome(chats[1..], id))
  }

  lemma {:induction false} InSomeIff(chats: seq<Chat>, id: string)
    ensures InSome(chats, id) <==> exists i :: 0 <= i < |chats| && chats[i].id == id
  {
    if |chats| > 0 {
      InSomeIff(chats[1..], id);
      if InSome(chats[1..], id) {
        var i :| 0 <= i < |chats| - 1 && chats[1..][i].id == id;
        assert chats[i + 1].id == id;
      }
      if exists i :: 0 <= i < |chats| && chats[i].id == id {
        var i :| 0 <= i < |chats| && chats[i].id == id;
        if i > 0 { assert chats[1..][i - 1].id == id; }
      }
    }
  }

  /** Messages that belong to one of the chats. */
  function Among(chats: seq<Chat>): Message -> bool {
    (m: Message) => InSome(chats, m.body.chatId)
  }

  /** How many of `ms` belong to a chat. */
  function PerChat(ms: seq<Message>): Chat -> nat {
    (c: Chat) => Count(ms, MR.InChat(c.id))
  }

  /** Counting chat by chat over chats with different ids counts every message of
      those chats once. */
  lemma {:induction false} SumOverChats(chats: seq<Chat>, ms: seq<Message>)
    requires forall i, j :: 0 <= i < j < |chats| ==> chats[i].id != chats[j].id
    ensures SumOf(chats, PerChat(ms)) == Count(ms, Among(chats))
  {
    if |chats| > 0 {
      var rest := chats[1..];
      SumOverChats(rest, ms);
      forall i | 0 <= i < |ms| ensures !(MR.InChat(chats[0].id)(ms[i]) && Among(rest)(ms[i])) {
        InSomeIff(rest, ms[i].body.chatId);
      }
      CountSplit(ms, Among(chats), MR.InChat(chats[0].id), Among(rest));
    }
  }

  /** In a valid state the total never exceeds the stored messages, and it is
      exactly their number when every message belongs to a stored chat. */
  lemma OverallCountsEachMessageOnce(svc: Service, rank: CR.ParseTime)
    requires Valid(svc)
    ensures GetOverallStatistics(svc, rank).totalMessages <= |svc.messages.items|
    ensures (forall k :: k in svc.messages.items ==> svc.messages.items[k].body.chatId in svc.chats.items)
        ==> GetOverallStatistics(svc, rank).totalMessages == |svc.messages.items|
  {
    TotalIsCount(svc);
    if forall k :: k in svc.messages.items ==> svc.messages.items[k].body.chatId in svc.chats.items {
      var chats := GetAll(svc.chats);
      var ms := GetAll(svc.messages);
      forall i | 0 <= i < |ms| ensures Among(chats)(ms[i]) {
        MessageAmong(svc, i);
      }
      FilterKeepsAll(ms, Among(chats));
    }
  }

  /** The chat-by-chat total counts each stored message of a stored chat once. */
  lemma TotalIsCount(svc: Service)
    requires Valid(svc)
    ensures SumOf(GetAll(svc.chats), ListedCount(svc.messages)) == Count(GetAll(svc.messages), Among(GetAll(svc.chats)))
  {
    var chats := GetAll(svc.chats);
    var ms := GetAll(svc.messages);
    forall i | 0 <= i < |chats| ensures ListedCount(svc.messages)(chats[i]) == PerChat(ms)(chats[i]) {
      MR.ListingSize(svc.messages, chats[i].id);
    }
    SumAgree(chats, ListedCount(svc.messages), PerChat(ms));
    forall i, j | 0 <= i < j < |chats| ensures chats[i].id != chats[j].id {
      assert svc.chats.keys[i] in svc.chats.items && svc.chats.keys[j] in svc.chats.items;
    }
    SumOverChats(chats, ms);
  }

  /** A message whose chat is stored belongs to one of the listed chats. */
  lemma MessageAmong(svc: Service, i: nat)
    requires Valid(svc) && i < |svc.messages.keys|
    requires svc.messages.items[svc.messages.keys[i]].body.chatId in svc.chats.items
    ensures Among(GetAll(svc.chats))(GetAll(svc.messages)[i])
  {
    var chats := GetAll(svc.chats);
    var id := GetAll(svc.messages)[i].body.chatId;
    assert id in svc.chats.keys;
    var j :| 0 <= j < |svc.chats.keys| && svc.chats.keys[j] == id;
    assert chats[j].id == id;
    InSomeIff(chats, id);
  }

  /** Publishing one event and then another. */
  lemma Then<T>(log: seq<T>, x: T, y: T)
    ensures (log + [x]) + [y] == log + [x, y]
  {
  }

  lemma Then3<T>(log: seq<T>, x: T, y: T, z: T)
    ensures (log + [x]) + [y, z] == log + [x, y, z]
  {
  }

  /** Writes to two different keys commute. */
  lemma Swap<V>(m: map<string, V>, k1: string, v1: V, k2: string, v2: V)
    requires k1 != k2
    ensures m[k1 := v1][k2 := v2] == m[k2 := v2][k1 := v1]
  {
  }
}

=== FILE: errors.dfy ===
/** The errors the modelled code throws. */
module Errors {
  import opened Wrappers

  /** The `code` strings of `AIProviderError`. */
  datatype ErrorCode =
    | ConfigurationError      // 'CONFIGURATION_ERROR'
    | InvalidApiKey           // 'INVALID_API_KEY'
    | InvalidMessages         // 'INVALID_MESSAGES'
    | InvalidMessageFormat    // 'INVALID_MESSAGE_FORMAT'
    | ClientNotInitialized    // 'CLIENT_NOT_INITIALIZED'
    | EmptyResponse           // 'EMPTY_RESPONSE'
    | RateLimitExceeded       // 'RATE_LIMIT_EXCEEDED'
    | ServerError             // 'SERVER_ERROR'
    | QuotaExceeded           // 'QUOTA_EXCEEDED'
    | ModelNotFound           // 'MODEL_NOT_FOUND'
    | ApiError                // 'API_ERROR'
    | UnknownError            // 'UNKNOWN_ERROR'
    | MaxRetriesExceeded      // 'MAX_RETRIES_EXCEEDED'

  /** A thrown value. Every variant has a `message`. */
  datatype Failure =
    /** `new Error(message)`. */
    | Plain(message: string)
    /** `new AIProviderError(message, code, originalError)`. */
    | Provider(message: string, code: ErrorCode, original: Option<Failure>)
    /** An error raised by the remote completion endpoint's client library: an
        optional HTTP `status` and an optional API error `code`; an absent
        message is the empty string. */
    | Transport(message: string, status: Option<int>, apiCode: Option<string>)

  // The messages of the errors the modelled code throws.

  /** `MessageRepository` and `ChatService`: a message that fails validation. */
  const InvalidMessageData: string := "Invalid message data provided"

  /** `ChatRepository`: chat data that fails validation. */
  const InvalidChatData: string := "Invalid chat data provided"

  /** `createNewChat` with a blank name. */
  const EmptyChatName: string := "Chat name cannot be empty"

  /** `createNewChat` with a name already taken. */
  const DuplicateChatName: string := "A chat with this name already exists"

  /** `MessageEntity.updateText` with a bad text. */
  const InvalidMessageText: string := "Invalid message text"

  /** `ChatEntity.updateName` with a bad name. */
  const InvalidChatName: string := "Invalid chat name"

  /** `ChatService` for an unknown chat id. */
  const ChatNotFound: string := "Chat not found"

  /** Prefix of the error `ChatService.createChat` rethrows. */
  const CreateChatFailed: string := "Failed to create chat: "

  /** Prefix of the error `ChatService.sendMessage` rethrows. */
  const AIResponseFailed: string := "Failed to get AI response: "

  /** `validateApiKey` on a blank key. */
  const InvalidApiKeyText: string := "Invalid API key"

  /** `validateMessages` on no messages. */
  const EmptyMessages: string := "Messages array cannot be empty"

  /** `validateMessages` on a message with no content. */
  const BadMessageFormat: string := "Invalid message format"

  /** `chatWithRetry` before a key is set. */
  const ApiKeyMissing: string := "API key not configured"

  /** Prefix of the error `chatWithRetry` throws when it gives up. */
  const GaveUpPrefix: string := "Failed after 3 attempts: "

  /** `OpenAIProvider.chat` without a client. */
  const ClientMissing: string := "OpenAI client not initialized"

  /** An answer without content. */
  const NoResponse: string := "No response generated"

  /** A client-library error without a message. */
  const UnknownOpenAIError: string := "Unknown OpenAI error"

  /** The first version's `chat` without a client. */
  const SetKeyFirst: string := "Please set OpenAI API key first"

  /** The first version's `chat` when the request fails. */
  const ChatResponseFailed: string := "Failed to get chat response"

  /** Prefix of the error `createTheme` throws for an unknown mode. */
  const UnknownThemeMode: string := "Unknown theme mode: "
}

=== FILE: events.dfy ===
/** The events the repositories publish on the global event bus (`IChatEvents`).
    The bus itself is modelled as the sequence of events emitted so far. */
module Events {
  import opened Errors
  import opened ChatEntity
  import opened MessageEntity

  datatype Event =
    | ChatCreated(chat: Chat)                            // 'chat:created'
    | ChatUpdated(chat: Chat)                            // 'chat:updated'
    | MessageSent(message: Message)                      // 'message:sent'
    | MessageReceived(message: Message)                  // 'message:received'
    | MessageFailed(messageId: string, error: Failure)   // 'message:failed'
}

=== FILE: legacy_chats.dfy ===
/** `chatsStore`, the chat list of the first version of the app: a JavaScript
    `Map` from id to a plain chat record, with the id taken from the clock and a
    listing sorted by the `timestamp` text read back as a date. */
module LegacyChats {
  import opened Wrappers
  import opened Text
  import opened Sorting
  import OrderedMap
  import opened BaseStore

  /** The `Chat` record of this store. `timestamp` is the locale time text. */
  datatype Chat = Chat(id: string, name: string, lastMessage: Option<string>, timestamp: Option<string>, isOnline: bool)

  type Store = OrderedMap.OMap<Chat>

  /** Every chat is stored under its own id. */
  ghost predicate Keyed(s: Store) {
    forall k :: k in s.items ==> s.items[k].id == k
  }

  function Empty(): (s: Store)
    ensures s.items == map[] && Keyed(s)
  {
    OrderedMap.Empty()
  }

  /** An optional string field is truthy when present and not empty. */
  predicate Truthy(o: Option<string>) {
    o.Some? && o.value != ""
  }

  /** `new Date(text).getTime()`: `None` stands for `NaN`, an unparseable date. */
  type ParseDate = string -> Option<int>

  /** The comparator of `getChats`: 0 when either timestamp is missing or empty,
      otherwise the later date first. A `NaN` difference counts as 0, as the
      ECMAScript `SortCompare` prescribes. */
  function ByTimestamp(parse: ParseDate): (r: (Chat, Chat) -> int)
    ensures Antisymmetric(r)
    ensures forall a, b :: !Dated(parse, a) ==> r(a, b) == 0
    ensures forall a, b :: Dated(parse, a) && Dated(parse, b) ==> r(a, b) == DateOf(parse, b) - DateOf(parse, a)
  {
    (a: Chat, b: Chat) =>
      if !Truthy(a.timestamp) || !Truthy(b.timestamp) then 0
      else if parse(a.timestamp.value).None? || parse(b.timestamp.value).None? then 0
      else parse(b.timestamp.value).value - parse(a.timestamp.value).value
  }

  /** The date a chat's timestamp denotes, when it has one that parses. */
  predicate Dated(parse: ParseDate, c: Chat) {
    Truthy(c.timestamp) && parse(c.timestamp.value).Some?
  }

  function DateOf(parse: ParseDate, c: Chat): int {
    if Dated(parse, c) then parse(c.timestamp.value).value else 0
  }

  /** `getChats()`: every stored chat once, sorted by the comparator. */
  function GetChats(s: Store, parse: ParseDate): (r: seq<Chat>)
    ensures multiset(r) == multiset(OrderedMap.Values(s))
    ensures |r| == |s.items|
  {
    OrderedMap.SizeIsKeyCount(s);
    SortPermutes(OrderedMap.Values(s), ByTimestamp(parse));
    Sort(OrderedMap.Values(s), ByTimestamp(parse))
  }

  /** `getChat(id)`. */
  function GetChat(s: Store, id: string): (r: Option<Chat>)
    ensures r.Some? <==> id in s.items
    ensures r.Some? ==> r.value == s.items[id]
  {
    OrderedMap.Get(s, id)
  }

  /** The store after `createNewChat`, and the chat it returned. */
  datatype Created = Created(store: Store, chat: Chat)

  /** `createNewChat(name)`: the id is the clock in milliseconds as text, the name
      is taken as given, the chat is online, has the current time text and no
      last message. A chat created in the same millisecond is replaced. */
  function CreateNewChat(s: Store, name: string, clock: Clock): (r: Created)
    ensures r.chat == Chat(IntText(clock.now), name, None, Some(clock.text), true)
    ensures r.store.items == s.items[r.chat.id := r.chat]
    ensures r.chat.id !in s.items ==> r.store.keys == s.keys + [r.chat.id]
    ensures r.chat.id in s.items ==> r.store.keys == s.keys
    ensures Keyed(s) ==> Keyed(r.store)
  {
    var chat := Chat(IntText(clock.now), name, None, Some(clock.text), true);
    Created(OrderedMap.Set(s, chat.id, chat), chat)
  }

  /** `updateLastMessage(chatId, message)`: an unknown id is ignored; otherwise the
      chat gets the message and the current time text, keeping its place. */
  function UpdateLastMessage(s: Store, chatId: string, message: string, clock: Clock): (r: Store)
    ensures chatId !in s.items ==> r == s
    ensures chatId in s.items ==>
      && r.keys == s.keys
      && r.items == s.items[chatId := s.items[chatId].(lastMessage := Some(message), timestamp := Some(clock.text))]
    ensures Keyed(s) ==> Keyed(r)
  {
    match GetChat(s, chatId)
    case None => s
    case Some(chat) => OrderedMap.Set(s, chatId, chat.(lastMessage := Some(message), timestamp := Some(clock.text)))
  }

  /** A created chat can be fetched by its id and is listed; a fresh id adds one
      chat and keeps every other one. */
  lemma CreateThenGet(s: Store, name: string, clock: Clock, parse: ParseDate)
    ensures var r := CreateNewChat(s, name, clock);
      && GetChat(r.store, r.chat.id) == Some(r.chat)
      && r.chat in GetChats(r.store, parse)
      && (r.chat.id !in s.items ==>
            multiset(GetChats(r.store, parse)) == multiset(GetChats(s, parse)) + multiset{r.chat})
  {
    var r := CreateNewChat(s, name, clock);
    OrderedMap.SetValues(s, r.chat.id, r.chat);
    assert r.chat in multiset(GetChats(r.store, parse));
  }

  /** Chats created at different milliseconds get different ids, so a later
      creation never replaces an earlier one. */
  lemma DistinctClocksDistinctIds(s: Store, name1: string, c1: Clock, name2: string, c2: Clock)
    requires c1.now != c2.now
    ensures CreateNewChat(s, name1, c1).chat.id != CreateNewChat(s, name2, c2).chat.id
  {
    if IntText(c1.now) == IntText(c2.now) {
      IntTextInjective(c1.now, c2.now);
    }
  }

  /** Updating the last message touches only that chat, and only its last message
      and timestamp. */
  lemma UpdateTouchesOneChat(s: Store, chatId: string, message: string, clock: Clock, other: string)
    requires Keyed(s)
    ensures var r := UpdateLastMessage(s, chatId, message, clock);
      && r.items.Keys == s.items.Keys
      && (other != chatId && other in s.items ==> r.items[other] == s.items[other])
      && (chatId in s.items ==>
            var c := r.items[chatId];
            c.id == chatId && c.name == s.items[chatId].name && c.isOnline == s.items[chatId].isOnline
            && c.lastMessage == Some(message) && Truthy(c.timestamp))
  {
  }

  /** When no two listed chats have comparable dates (for instance because no
      timestamp parses as a date), the listing is the insertion order. */
  lemma UndatedListingKeepsInsertionOrder(s: Store, parse: ParseDate)
    requires forall k :: k in s.items ==> !Dated(parse, s.items[k])
    ensures GetChats(s, parse) == OrderedMap.Values(s)
  {
    var vs := OrderedMap.Values(s);
    forall a | a in vs ensures !Dated(parse, a) {
      var i :| 0 <= i < |vs| && vs[i] == a;
      assert vs[i] == s.items[s.keys[i]];
    }
    SortKeepsOrder(vs, ByTimestamp(parse));
  }

  /** When every chat's timestamp parses as a date, the listing runs from the latest
      date to the earliest. */
  lemma DatedListingNewestFirst(s: Store, parse: ParseDate)
    requires forall k :: k in s.items ==> Dated(parse, s.items[k])
    ensures var r := GetChats(s, parse);
      forall i, j :: 0 <= i < j < |r| ==> DateOf(parse, r[i]) >= DateOf(parse, r[j])
  {
    var vs := OrderedMap.Values(s);
    var key := (c: Chat) => -DateOf(parse, c);
    forall i, j | 0 <= i < |vs| && 0 <= j < |vs|
      ensures ByTimestamp(parse)(vs[i], vs[j]) > 0 <==> key(vs[i]) > key(vs[j])
    {
      assert vs[i] == s.items[s.keys[i]] && vs[j] == s.items[s.keys[j]];
    }
    SortSorted(vs, ByTimestamp(parse), key);
  }
}

=== FILE: legacy_messages.dfy ===
/** `messagesStore`, the message store of the first version of the app: a map from
    chat id to that chat's message list, and a `sendMessage` that stores the
    user's message, asks the completion client with the whole history, stores the
    reply and updates the chat list. */
module LegacyMessages {
  import opened Wrappers
  import opened Errors
  import opened Text
  import opened BaseStore
  import opened AIProvider
  import LC = LegacyChats
  import OP = OpenAIProvider
  import AI = OpenAIService

  /** The `Message` record of this store. */
  datatype Message = Message(id: string, text: string, isOutgoing: bool, timestamp: string, chatId: string)

  type Store = map<string, seq<Message>>

  /** `getMessages(chatId)`: the chat's list, or none for a chat never written to. */
  function GetMessages(ms: Store, chatId: string): (r: seq<Message>)
    ensures chatId in ms ==> r == ms[chatId]
    ensures chatId !in ms ==> r == []
  {
    if chatId in ms then ms[chatId] else []
  }

  /** An outgoing message was written by the user, any other by the assistant. */
  function AsChatMessage(m: Message): (c: ChatMessage)
    ensures c.content == m.text && (c.role == User <==> m.isOutgoing) && c.role != System
  {
    ChatMessage(if m.isOutgoing then User else Assistant, m.text)
  }

  /** The request history: the system prompt naming the chat, every stored message
      in order, then the new text from the user. */
  function History(chatName: string, prior: seq<Message>, text: string): (r: seq<ChatMessage>)
    ensures |r| == |prior| + 2
    ensures r[0] == ChatMessage(System, OP.SystemPrompt(chatName))
    ensures forall i :: 0 <= i < |prior| ==> r[i + 1] == AsChatMessage(prior[i])
    ensures r[|r| - 1] == ChatMessage(User, text)
  {
    [ChatMessage(System, OP.SystemPrompt(chatName))]
      + seq(|prior|, i requires 0 <= i < |prior| => AsChatMessage(prior[i]))
      + [ChatMessage(User, text)]
  }

  /** The stores after `sendMessage`, the error it rethrew, the history it sent to
      the client (`None` when it returned before asking), and whether it
      dispatched the `chatUpdate` window event. */
  datatype Sent = Sent(messages: Store, chats: LC.Store, error: Option<Failure>,
                       asked: Option<seq<ChatMessage>>, chatUpdated: bool)

  /** The user's message, stamped with the clock reading taken before asking. */
  function UserMessage(chatId: string, text: string, sentAt: Clock): (m: Message)
    ensures m.isOutgoing && AsChatMessage(m) == ChatMessage(User, text)
    ensures m.chatId == chatId && m.timestamp == sentAt.text
    ensures m.id == IntText(sentAt.now)
  {
    Message(IntText(sentAt.now), text, true, sentAt.text, chatId)
  }

  /** The reply, stamped with the clock reading taken after the answer; its id is
      that reading plus one millisecond. */
  function ReplyMessage(chatId: string, answer: string, repliedAt: Clock): (m: Message)
    ensures !m.isOutgoing && AsChatMessage(m) == ChatMessage(Assistant, answer)
    ensures m.chatId == chatId && m.timestamp == repliedAt.text
    ensures m.id == IntText(repliedAt.now + 1)
  {
    Message(IntText(repliedAt.now + 1), answer, false, repliedAt.text, chatId)
  }

  /** What follows the client's answer: the user's message is already stored. A
      failure is rethrown and changes nothing more; an answer is stored after the
      list as it is now, becomes the chat's last message, and `chatUpdate` is
      dispatched. */
  function Respond(ms: Store, cs: LC.Store, chatId: string, user: Message, answer: Result<string, Failure>,
                   history: seq<ChatMessage>, repliedAt: Clock): (r: Sent)
    ensures r.asked == Some(history)
    ensures r.error == (if answer.Err? then Some(answer.error) else None)
    ensures r.chatUpdated == answer.Ok?
    ensures answer.Err? ==> r.messages == ms[chatId := GetMessages(ms, chatId) + [user]] && r.chats == cs
    ensures answer.Ok? ==>
      && r.messages == ms[chatId := GetMessages(ms, chatId) + [user, ReplyMessage(chatId, answer.value, repliedAt)]]
      && r.chats == LC.UpdateLastMessage(cs, chatId, answer.value, repliedAt)
  {
    var prior := GetMessages(ms, chatId);
    var ms1 := ms[chatId := prior + [user]];
    match answer
    case Err(e) => Sent(ms1, cs, Some(e), Some(history), false)
    case Ok(text) =>
      var reply := ReplyMessage(chatId, text, repliedAt);
      assert GetMessages(ms1, chatId) + [reply] == prior + [user, reply];
      Sent(ms1[chatId := prior + [user, reply]], LC.UpdateLastMessage(cs, chatId, text, repliedAt), None, Some(history), true)
  }

  /** `sendMessage(chatId, text)`: returns quietly for an unknown chat, before
      asking anything; otherwise the user's message is stored before the client is
      asked with the history, so it stays when the client fails. */
  function SendMessage(ms: Store, cs: LC.Store, ai: AI.State, chatId: string, text: string,
                       sentAt: Clock, repliedAt: Clock, send: AI.Request -> AI.Reply): (r: Sent)
    ensures chatId !in cs.items ==> r == Sent(ms, cs, None, None, false)
    ensures chatId in cs.items ==>
      var history := History(cs.items[chatId].name, GetMessages(ms, chatId), text);
      r == Respond(ms, cs, chatId, UserMessage(chatId, text, sentAt), AI.Chat(ai, history, send), history, repliedAt)
  {
    match LC.GetChat(cs, chatId)
    case None => Sent(ms, cs, None, None, false)
    case Some(chat) =>
      var history := History(chat.name, GetMessages(ms, chatId), text);
      Respond(ms, cs, chatId, UserMessage(chatId, text, sentAt), AI.Chat(ai, history, send), history, repliedAt)
  }

  /** For a known chat: the history sent is the system prompt, the stored messages
      and the new text; the chat's list grows by the user's message, and by the
      reply exactly when the client answered; only an answer updates the chat
      list and dispatches `chatUpdate`, and a failure is rethrown as it came. */
  lemma SendMessageOutcome(ms: Store, cs: LC.Store, ai: AI.State, chatId: string, text: string,
                           sentAt: Clock, repliedAt: Clock, send: AI.Request -> AI.Reply)
    requires chatId in cs.items
    ensures var r := SendMessage(ms, cs, ai, chatId, text, sentAt, repliedAt, send);
      var prior := GetMessages(ms, chatId);
      var history := History(cs.items[chatId].name, prior, text);
      var answer := AI.Chat(ai, history, send);
      && r.asked == Some(history)
      && (answer.Err? ==>
            && r.error == Some(answer.error) && !r.chatUpdated && r.chats == cs
            && GetMessages(r.messages, chatId) == prior + [UserMessage(chatId, text, sentAt)])
      && (answer.Ok? ==>
            && r.error.None? && r.chatUpdated
            && GetMessages(r.messages, chatId) == prior + [UserMessage(chatId, text, sentAt), ReplyMessage(chatId, answer.value, repliedAt)]
            && r.chats == LC.UpdateLastMessage(cs, chatId, answer.value, repliedAt))
  {
  }

  /** `setApiKey(apiKey)` hands the key to the client. */
  function SetApiKey(ai: AI.State, apiKey: string): (r: AI.State)
    ensures apiKey != "" ==> r.client == Some(apiKey)
    ensures apiKey == "" ==> r == ai
  {
    AI.SetApiKey(ai, apiKey)
  }

  /** After a successful send the chat list shows, as the chat's last message, the
      text of the last message stored for it, and that message is the reply. */
  lemma LastMessageAgrees(ms: Store, cs: LC.Store, ai: AI.State, chatId: string, text: string,
                          sentAt: Clock, repliedAt: Clock, send: AI.Request -> AI.Reply)
    requires LC.Keyed(cs)
    requires chatId in cs.items
    ensures var r := SendMessage(ms, cs, ai, chatId, text, sentAt, repliedAt, send);
      r.error.None? ==>
        var stored := GetMessages(r.messages, chatId);
        && |stored| >= 2
        && !stored[|stored| - 1].isOutgoing
        && r.chats.items[chatId].lastMessage == Some(stored[|stored| - 1].text)
  {
  }

  /** Without a client nothing leaves the app: the user's message is stored, the
      chat list is untouched and the error asks for a key. */
  lemma NoClientKeepsQuestion(ms: Store, cs: LC.Store, chatId: string, text: string,
                              sentAt: Clock, repliedAt: Clock, send: AI.Request -> AI.Reply)
    requires chatId in cs.items
    ensures var r := SendMessage(ms, cs, AI.Initial(), chatId, text, sentAt, repliedAt, send);
      && r.error == Some(Plain(SetKeyFirst))
      && GetMessages(r.messages, chatId) == GetMessages(ms, chatId) + [UserMessage(chatId, text, sentAt)]
      && r.chats == cs && !r.chatUpdated
  {
  }

  /** Sending never touches another chat's messages. */
  lemma OtherChatsUntouched(ms: Store, cs: LC.Store, ai: AI.State, chatId: string, text: string,
                            sentAt: Clock, repliedAt: Clock, send: AI.Request -> AI.Reply, other: string)
    requires other != chatId
    ensures GetMessages(SendMessage(ms, cs, ai, chatId, text, sentAt, repliedAt, send).messages, other)
         == GetMessages(ms, other)
  {
  }

  /** With a clock that does not run backwards, the reply's id differs from the
      user message's id. */
  lemma ReplyIdDiffers(chatId: string, text: string, answer: string, sentAt: Clock, repliedAt: Clock)
    requires sentAt.now <= repliedAt.now
    ensures ReplyMessage(chatId, answer, repliedAt).id != UserMessage(chatId, text, sentAt).id
  {
    if IntText(repliedAt.now + 1) == IntText(sentAt.now) {
      IntTextInjective(repliedAt.now + 1, sentAt.now);
    }
  }
}

=== FILE: message_entity.dfy ===
/** `MessageEntity`: construction with a direction-dependent status default,
    status and text updates, display text, validation and the factories. */
module MessageEntity {
  import opened Wrappers
  import opened Errors
  import opened Text
  import opened BaseStore

  /** `MessageStatus`. */
  datatype MessageStatus = Pending | Sent | Delivered | Failed

  /** The `IMessage` fields beyond `IEntity`. */
  datatype MessageData = MessageData(text: string, isOutgoing: bool, timestamp: string, chatId: string, status: MessageStatus)

  /** An `IMessage` record, which is also what `toJSON()` returns. */
  type Message = Entity<MessageData>

  /** `Partial<IMessage>`: what the constructor and `buildEntity` receive. */
  datatype MessageInput = MessageInput(
    id: Option<string>,
    createdAt: Option<Time>,
    updatedAt: Option<Time>,
    text: Option<string>,
    isOutgoing: Option<bool>,
    timestamp: Option<string>,
    chatId: Option<string>,
    status: Option<MessageStatus>)

  /** `s || fallback` for an optional string. */
  function OrElse(s: Option<string>, fallback: string): (r: string)
    ensures s.Some? && s.value != "" ==> r == s.value
    ensures !(s.Some? && s.value != "") ==> r == fallback
  {
    if s.Some? && s.value != "" then s.value else fallback
  }

  /** `new MessageEntity(data)`. A status that is not supplied defaults to SENT for
      an outgoing message and to DELIVERED for an incoming one. */
  function New(data: MessageInput, freshId: FreshId, clock: Clock): (m: Message)
    requires data.text.Some? && data.isOutgoing.Some? && data.chatId.Some?
    ensures m.id != "" && m.body.timestamp != ""
    ensures data.id.Some? && data.id.value != "" ==> m.id == data.id.value
    ensures !(data.id.Some? && data.id.value != "") ==> m.id == freshId
    ensures data.createdAt.Some? ==> m.createdAt == data.createdAt.value
    ensures data.createdAt.None? ==> m.createdAt == clock.now
    ensures data.updatedAt.Some? ==> m.updatedAt == data.updatedAt.value
    ensures data.updatedAt.None? ==> m.updatedAt == clock.now
    ensures data.timestamp.Some? && data.timestamp.value != "" ==> m.body.timestamp == data.timestamp.value
    ensures !(data.timestamp.Some? && data.timestamp.value != "") ==> m.body.timestamp == clock.text
    ensures data.status.Some? ==> m.body.status == data.status.value
    ensures data.status.None? && data.isOutgoing.value ==> m.body.status == Sent
    ensures data.status.None? && !data.isOutgoing.value ==> m.body.status == Delivered
    ensures m.body.text == data.text.value && m.body.chatId == data.chatId.value
    ensures m.body.isOutgoing == data.isOutgoing.value
  {
    var status := if data.status.Some? then data.status.value
                  else if data.isOutgoing.value then Sent else Delivered;
    Entity(
      OrElse(data.id, freshId),
      data.createdAt.GetOr(clock.now),
      data.updatedAt.GetOr(clock.now),
      MessageData(data.text.value, data.isOutgoing.value, OrElse(data.timestamp, clock.text), data.chatId.value, status))
  }

  /** The record viewed as constructor input (`new MessageEntity(message)`). */
  function AsInput(m: Message): MessageInput {
    MessageInput(Some(m.id), Some(m.createdAt), Some(m.updatedAt), Some(m.body.text), Some(m.body.isOutgoing),
                 Some(m.body.timestamp), Some(m.body.chatId), Some(m.body.status))
  }

  /** `toJSON()` followed by `new MessageEntity(...)` gives the same message back when
      the id and timestamp are non-empty (a status is always present). */
  lemma RoundTrip(m: Message, freshId: FreshId, clock: Clock)
    requires m.id != "" && m.body.timestamp != ""
    ensures New(AsInput(m), freshId, clock) == m
  {
  }

  /** `updateStatus(status)`: any status may follow any other. */
  function UpdateStatus(m: Message, status: MessageStatus, clock: Clock): (r: Message)
    ensures r.body.status == status && r.updatedAt == clock.now
    ensures r.id == m.id && r.createdAt == m.createdAt
    ensures r.body.text == m.body.text && r.body.chatId == m.body.chatId && r.body.isOutgoing == m.body.isOutgoing
    ensures r.body.timestamp == m.body.timestamp
  {
    m.(updatedAt := clock.now, body := m.body.(status := status))
  }

  /** `markAsFailed()`. */
  function MarkAsFailed(m: Message, clock: Clock): (r: Message)
    ensures IsFailed(r) && !IsPending(r) && !IsDelivered(r)
    ensures r.body.status == Failed && r.updatedAt == clock.now
    ensures r.id == m.id && r.createdAt == m.createdAt
    ensures r.body.text == m.body.text && r.body.chatId == m.body.chatId && r.body.isOutgoing == m.body.isOutgoing
    ensures r.body.timestamp == m.body.timestamp
  {
    UpdateStatus(m, Failed, clock)
  }

  /** `markAsDelivered()`. */
  function MarkAsDelivered(m: Message, clock: Clock): (r: Message)
    ensures IsDelivered(r) && !IsFailed(r) && !IsPending(r)
    ensures r.body.status == Delivered && r.updatedAt == clock.now
    ensures r.id == m.id && r.createdAt == m.createdAt
    ensures r.body.text == m.body.text && r.body.chatId == m.body.chatId && r.body.isOutgoing == m.body.isOutgoing
    ensures r.body.timestamp == m.body.timestamp
  {
    UpdateStatus(m, Delivered, clock)
  }

  /** Status changes are not restricted: a failed message can be delivered again and
      a delivered one can go back to pending. */
  lemma NoTransitionRestriction(m: Message, c1: Clock, c2: Clock)
    ensures IsDelivered(MarkAsDelivered(MarkAsFailed(m, c1), c2))
    ensures IsPending(UpdateStatus(MarkAsDelivered(m, c1), Pending, c2))
  {
  }

  predicate IsPending(m: Message) {
    m.body.status == Pending
  }

  predicate IsFailed(m: Message) {
    m.body.status == Failed
  }

  /** `isDelivered()` also holds for SENT: every status past PENDING that did not
      fail. */
  function IsDelivered(m: Message): (b: bool)
    ensures b <==> !IsPending(m) && !IsFailed(m)
  {
    m.body.status == Delivered || m.body.status == Sent
  }

  /** Every status satisfies exactly one of the three predicates. */
  lemma StatusPredicatesPartition(m: Message)
    ensures IsPending(m) || IsFailed(m) || IsDelivered(m)
    ensures !(IsPending(m) && IsFailed(m)) && !(IsPending(m) && IsDelivered(m)) && !(IsFailed(m) && IsDelivered(m))
  {
  }

  const MaxTextLength: nat := 4000

  /** `isValidText(text)`: not blank and at most 4000 UTF-16 code units long. */
  function IsValidText(text: string): (b: bool)
    ensures b <==> !IsBlank(text) && Utf16Length(text) <= MaxTextLength
  {
    Utf16Length(Trim(text)) > 0 && Utf16Length(text) <= MaxTextLength
  }

  /** `updateText(newText)`: rejects invalid text, otherwise stores it trimmed. */
  function UpdateText(m: Message, newText: string, clock: Clock): (r: Result<Message, Failure>)
    ensures r.Err? <==> IsBlank(newText) || Utf16Length(newText) > MaxTextLength
    ensures r.Err? ==> r.error == Plain(InvalidMessageText)
    ensures r.Ok? ==> r.value.body.text == Trim(newText) && 0 < Utf16Length(r.value.body.text) <= MaxTextLength
    ensures r.Ok? ==> r.value.updatedAt == clock.now && r.value.id == m.id && r.value.body.status == m.body.status
    ensures r.Ok? ==> r.value.createdAt == m.createdAt && r.value.body.chatId == m.body.chatId
    ensures r.Ok? ==> r.value.body.isOutgoing == m.body.isOutgoing && r.value.body.timestamp == m.body.timestamp
  {
    if !IsValidText(newText) then Err(Plain(InvalidMessageText))
    else
      var t := Trim(newText);
      TrimShortens(newText);
      Ok(m.(updatedAt := clock.now, body := m.body.(text := t)))
  }

  /** `getDisplayText(maxLength?)`: a missing or zero `maxLength` shows everything;
      lengths are counted in UTF-16 code units. */
  function DisplayText(m: Message, maxLength: Option<int>): (r: string)
    ensures maxLength.None? || maxLength.value == 0 || Utf16Length(m.body.text) <= maxLength.value ==> r == m.body.text
    ensures maxLength.Some? && maxLength.value != 0 && Utf16Length(m.body.text) > maxLength.value ==>
      && Utf16Length(r) == (if maxLength.value < 0 then 0 else maxLength.value) + |Ellipsis|
      && |Ellipsis| <= |r|
      && UnitPrefix(r[..|r| - |Ellipsis|], m.body.text)
      && r[|r| - |Ellipsis|..] == Ellipsis
  {
    if maxLength.None? || maxLength.value == 0 then m.body.text
    else if Utf16Length(m.body.text) <= maxLength.value then m.body.text
    else
      var cut := Clip(m.body.text, maxLength.value);
      Utf16LengthAppend(cut, Ellipsis);
      assert (cut + Ellipsis)[..|cut|] == cut;
      cut + Ellipsis
  }

  /** `belongsToChat(chatId)`. */
  predicate BelongsToChat(m: Message, chatId: string) {
    m.body.chatId == chatId
  }

  /** `MessageEntity.createUserMessage({text, chatId})`. */
  function CreateUserMessage(text: string, chatId: string, freshId: FreshId, clock: Clock): (m: Message)
    ensures m.body.isOutgoing && IsPending(m)
    ensures m.body.text == text && m.body.chatId == chatId && m.id == freshId
  {
    New(MessageInput(None, None, None, Some(text), Some(true), None, Some(chatId), Some(Pending)), freshId, clock)
  }

  /** `MessageEntity.createAIMessage({text, chatId})`. */
  function CreateAIMessage(text: string, chatId: string, freshId: FreshId, clock: Clock): (m: Message)
    ensures !m.body.isOutgoing && m.body.status == Delivered
    ensures m.body.text == text && m.body.chatId == chatId && m.id == freshId
  {
    New(MessageInput(None, None, None, Some(text), Some(false), None, Some(chatId), Some(Delivered)), freshId, clock)
  }

  /** `MessageEntity.isValidMessageData(data)`: string text and chat id, a boolean
      direction and text that is not blank; no upper bound on the length. */
  function IsValidMessageData(data: MessageInput): (b: bool)
    ensures b <==> data.text.Some? && data.isOutgoing.Some? && data.chatId.Some? && !IsBlank(data.text.value)
  {
    && data.text.Some? && data.isOutgoing.Some? && data.chatId.Some?
    && Utf16Length(Trim(data.text.value)) > 0
  }

  /** Creation-time validation is weaker than `isValidText`: text over 4000 code
      units passes it, while `updateText` would reject the same text. */
  lemma CreationAllowsLongText(m: Message, clock: Clock)
    requires Utf16Length(m.body.text) > MaxTextLength
    ensures !IsValidText(m.body.text)
    ensures UpdateText(m, m.body.text, clock).Err?
    ensures !IsBlank(m.body.text) ==> IsValidMessageData(AsInput(m))
  {
  }
}

=== FILE: message_repository.dfy ===
/** `MessageRepository`: the message store with validation on creation, the
    per-chat listing in creation order, status updates, the user/AI message
    factories with their events, bulk deletion per chat and per-chat counts. It
    overrides no hook; events are published by the methods themselves. */
module MessageRepository {
  import opened Wrappers
  import opened Errors
  import opened Text
  import opened Seqs
  import Sorting
  import opened BaseStore
  import opened MessageEntity
  import opened Events

  type Repo = Store<MessageData>

  /** What a state-changing call produces: the new store, the events published
      in order, and the return value. */
  datatype Change<R> = Change(repo: Repo, events: seq<Event>, value: R)

  /** Every message is stored under its own id and was built by `MessageEntity`,
      so its id and its timestamp are non-empty. */
  ghost predicate Valid(s: Repo) {
    && Keyed(s)
    && forall k :: k in s.items ==> s.items[k].id != "" && s.items[k].body.timestamp != ""
  }

  /** `buildEntity(data)`. */
  function BuildEntity(data: MessageInput, freshId: FreshId, clock: Clock): (r: Result<Message, Failure>)
    ensures r.Err? <==> !IsValidMessageData(data)
    ensures r.Err? ==> r.error == Plain(InvalidMessageData)
    ensures r.Ok? ==> r.value.id != "" && r.value.body.timestamp != "" && r.value.body.text == data.text.value
  {
    if !IsValidMessageData(data) then Err(Plain(InvalidMessageData))
    else Ok(New(data, freshId, clock))
  }

  /** The inherited `create(data)`; the hook does nothing here. */
  function Create(s: Repo, data: MessageInput, freshId: FreshId, clock: Clock): (r: Result<Change<Message>, Failure>)
    ensures r.Err? <==> !IsValidMessageData(data)
    ensures r.Err? ==> r.error == Plain(InvalidMessageData)
    ensures r.Ok? ==> r.value.repo.items == s.items[r.value.value.id := r.value.value] && r.value.events == []
    ensures r.Ok? && Valid(s) ==> Valid(r.value.repo)
    ensures r.Ok? && r.value.value.id !in s.items ==> GetAll(r.value.repo) == GetAll(s) + [r.value.value]
  {
    var built := BuildEntity(data, freshId, clock);
    if built.Err? then Err(built.error)
    else
      var m := built.value;
      var step := BaseStore.Create(s, Ok(m)).value;
      CreateThenGet(s, m);
      PutKeepsValid(s, m, step.store);
      Ok(Change(step.store, [], m))
  }

  /** Storing a message with an id and a time text keeps the store valid. */
  lemma PutKeepsValid(s: Repo, m: Message, t: Repo)
    requires m.id != "" && m.body.timestamp != ""
    requires t.items == s.items[m.id := m]
    requires Valid(s) ==> Keyed(t)
    ensures Valid(s) ==> Valid(t)
  {
  }

  /** The comparator of `getByChatId`: earlier creation first. */
  function ByCreation(a: Message, b: Message): int {
    a.createdAt - b.createdAt
  }

  function CreatedAt(m: Message): int {
    m.createdAt
  }

  /** `ByCreation` is the ascending comparator for `CreatedAt`, on any messages. */
  lemma ByCreationOrders(xs: seq<Message>)
    ensures Sorting.OrdersBy(ByCreation, CreatedAt, xs)
  {
  }

  /** The messages of one chat in store order, before sorting. */
  function OfChat(s: Repo, chatId: string): (r: seq<Message>)
    ensures forall i :: 0 <= i < |r| ==> r[i] in GetAll(s) && BelongsToChat(r[i], chatId)
    ensures forall i :: 0 <= i < |GetAll(s)| && BelongsToChat(GetAll(s)[i], chatId) ==> GetAll(s)[i] in r
  {
    Filter(GetAll(s), InChat(chatId))
  }

  /** The filter `getByChatId` applies. */
  function InChat(chatId: string): Message -> bool {
    m => BelongsToChat(m, chatId)
  }

  /** A chat's listing has as many messages as the store has of that chat. */
  lemma ListingSize(s: Repo, chatId: string)
    ensures |GetByChatId(s, chatId)| == Count(GetAll(s), InChat(chatId))
  {
  }

  /** `getByChatId(chatId)`: the chat's messages in store order, sorted oldest
      first; which messages these are is `ListsTheChat`. */
  function GetByChatId(s: Repo, chatId: string): (r: seq<Message>)
    ensures multiset(r) == multiset(OfChat(s, chatId))
    ensures Sorting.SortedBy(r, CreatedAt)
  {
    var f := OfChat(s, chatId);
    ByCreationOrders(f);
    Sorting.SortSorted(f, ByCreation, CreatedAt);
    Sorting.SortPermutes(f, ByCreation);
    Sorting.Sort(f, ByCreation)
  }

  /** A chat's listing holds exactly the stored messages of that chat. */
  lemma ListsTheChat(s: Repo, chatId: string)
    ensures forall m :: m in GetByChatId(s, chatId) <==> m in s.items.Values && BelongsToChat(m, chatId)
  {
    var f := OfChat(s, chatId);
    var r := GetByChatId(s, chatId);
    StoredIsListed(s);
    forall m ensures m in r <==> m in f {
      assert m in r <==> m in multiset(r);
      assert m in f <==> m in multiset(f);
    }
    forall m | m in f ensures m in s.items.Values && BelongsToChat(m, chatId) {
      var i :| 0 <= i < |f| && f[i] == m;
    }
    forall m | m in s.items.Values && BelongsToChat(m, chatId) ensures m in f {
      var k :| k in s.items && s.items[k] == m;
    }
  }

  /** A message of the chat stored under a new id joins the chat's listing as the
      sort would place it last in the input: after every message not created
      later. */
  lemma AppendJoinsChat(s: Repo, s': Repo, m: Message, chatId: string)
    requires GetAll(s') == GetAll(s) + [m] && BelongsToChat(m, chatId)
    ensures GetByChatId(s', chatId) == Sorting.Insert(GetByChatId(s, chatId), m, ByCreation)
  {
    SortedSnoc(GetAll(s), m, chatId);
  }

  /** The chat's messages of a list with one more message of that chat at the
      end, sorted, are the sorted ones with that message inserted. */
  lemma SortedSnoc(all: seq<Message>, m: Message, chatId: string)
    requires BelongsToChat(m, chatId)
    ensures Sorting.Sort(Filter(all + [m], InChat(chatId)), ByCreation)
         == Sorting.Insert(Sorting.Sort(Filter(all, InChat(chatId)), ByCreation), m, ByCreation)
  {
    var before := Filter(all, InChat(chatId));
    assert Filter(all + [m], InChat(chatId)) == before + [m] by {
      FilterConcat(all, [m], InChat(chatId));
    }
    Sorting.SortSnoc(before, m, ByCreation);
  }

  /** Messages of a chat created at the same instant keep their store order. */
  lemma GetByChatIdStable(s: Repo, chatId: string, t: int)
    ensures Sorting.Ties(GetByChatId(s, chatId), CreatedAt, t) == Sorting.Ties(OfChat(s, chatId), CreatedAt, t)
  {
    ByCreationOrders(OfChat(s, chatId));
    Sorting.SortStable(OfChat(s, chatId), ByCreation, CreatedAt, t);
  }

  /** `updateStatus(messageId, status)`: the stored message is rebuilt through
      `MessageEntity`, given the status and the current time, and written back. */
  function UpdateStatus(s: Repo, messageId: string, status: MessageStatus, freshId: FreshId, clock: Clock): (r: Result<Change<()>, Failure>)
    ensures r.Err? <==> messageId !in s.items
    ensures r.Err? ==> r.error == Plain("Message with ID " + messageId + " not found")
    ensures r.Ok? ==> r.value.repo.keys == s.keys && r.value.repo.items.Keys == s.items.Keys && r.value.events == []
    ensures r.Ok? && Valid(s) ==>
      var m := s.items[messageId];
      && r.value.repo.items == s.items[messageId := m.(updatedAt := clock.now, body := m.body.(status := status))]
      && Valid(r.value.repo)
  {
    if messageId !in s.items then Err(Plain("Message with ID " + messageId + " not found"))
    else
      var m := s.items[messageId];
      var entity := MessageEntity.UpdateStatus(New(AsInput(m), freshId, clock), status, clock);
      var step := BaseStore.Update(s, messageId, _ => entity, clock.now);
      assert Valid(s) ==> New(AsInput(m), freshId, clock) == m by {
        if Valid(s) { RoundTrip(m, freshId, clock); }
      }
      Ok(Change(step.store, [], ()))
  }

  /** `this.create(entity.toJSON())` for a message a factory has just built under
      the fresh id: refused exactly when its text is blank. */
  function StoreBuilt(s: Repo, e: Message, freshId: FreshId, clock: Clock): (r: Result<Change<Message>, Failure>)
    requires e.id == freshId && e.body.timestamp != ""
    ensures r.Err? <==> IsBlank(e.body.text)
    ensures r.Err? ==> r.error == Plain(InvalidMessageData)
    ensures r.Ok? ==> r.value.value == e && r.value.repo.items == s.items[freshId := e] && r.value.events == []
    ensures r.Ok? && Valid(s) ==> Valid(r.value.repo)
    ensures r.Ok? && freshId !in s.items ==> GetAll(r.value.repo) == GetAll(s) + [e]
  {
    RoundTrip(e, freshId, clock);
    Create(s, AsInput(e), freshId, clock)
  }

  /** `createUserMessage(text, chatId)`: a pending outgoing message, refused when
      the text is blank; publishes `message:sent`. */
  function CreateUserMessage(s: Repo, text: string, chatId: string, freshId: FreshId, clock: Clock): (r: Result<Change<Message>, Failure>)
    ensures r.Err? <==> IsBlank(text)
    ensures r.Err? ==> r.error == Plain(InvalidMessageData)
    ensures r.Ok? ==>
      var m := r.value.value;
      && m == MessageEntity.CreateUserMessage(text, chatId, freshId, clock)
      && r.value.repo.items == s.items[freshId := m]
      && r.value.events == [MessageSent(m)]
    ensures r.Ok? && Valid(s) ==> Valid(r.value.repo)
    ensures r.Ok? && freshId !in s.items ==> GetAll(r.value.repo) == GetAll(s) + [r.value.value]
  {
    var e := MessageEntity.CreateUserMessage(text, chatId, freshId, clock);
    match StoreBuilt(s, e, freshId, clock)
    case Err(err) => Err(err)
    case Ok(c) => Ok(Change(c.repo, [MessageSent(e)], e))
  }

  /** `createAIMessage(text, chatId)`: a delivered incoming message, refused when
      the text is blank; publishes `message:received`. */
  function CreateAIMessage(s: Repo, text: string, chatId: string, freshId: FreshId, clock: Clock): (r: Result<Change<Message>, Failure>)
    ensures r.Err? <==> IsBlank(text)
    ensures r.Err? ==> r.error == Plain(InvalidMessageData)
    ensures r.Ok? ==>
      var m := r.value.value;
      && m == MessageEntity.CreateAIMessage(text, chatId, freshId, clock)
      && r.value.repo.items == s.items[freshId := m]
      && r.value.events == [MessageReceived(m)]
    ensures r.Ok? && Valid(s) ==> Valid(r.value.repo)
    ensures r.Ok? && freshId !in s.items ==> GetAll(r.value.repo) == GetAll(s) + [r.value.value]
  {
    var e := MessageEntity.CreateAIMessage(text, chatId, freshId, clock);
    match StoreBuilt(s, e, freshId, clock)
    case Err(err) => Err(err)
    case Ok(c) => Ok(Change(c.repo, [MessageReceived(e)], e))
  }

  /** `markMessageAsFailed(messageId, error?)`: never fails. An unknown id is
      logged and changes nothing; otherwise the message becomes FAILED and, when
      an error is given, `message:failed` is published with it. */
  function MarkMessageAsFailed(s: Repo, messageId: string, error: Option<Failure>, freshId: FreshId, clock: Clock): (r: Change<()>)
    ensures messageId !in s.items ==> r.repo == s && r.events == []
    ensures messageId in s.items ==>
      && r.repo.keys == s.keys && r.repo.items.Keys == s.items.Keys
      && r.events == (if error.Some? then [MessageFailed(messageId, error.value)] else [])
    ensures messageId in s.items && Valid(s) ==>
      var m := s.items[messageId];
      && r.repo.items == s.items[messageId := m.(updatedAt := clock.now, body := m.body.(status := Failed))]
      && IsFailed(r.repo.items[messageId]) && Valid(r.repo)
  {
    match UpdateStatus(s, messageId, Failed, freshId, clock)
    case Err(_) => Change(s, [], ())
    case Ok(c) => Change(c.repo, if error.Some? then [MessageFailed(messageId, error.value)] else [], ())
  }

  /** The ids of the messages of `ms`. */
  ghost function IdsOf(ms: seq<Message>): set<string> {
    if |ms| == 0 then {} else {ms[0].id} + IdsOf(ms[1..])
  }

  /** `IdsOf` holds the id of each message and nothing else. */
  lemma {:induction false} IdsOfMembers(ms: seq<Message>, k: string)
    ensures k in IdsOf(ms) <==> exists m :: m in ms && m.id == k
  {
    if |ms| > 0 {
      IdsOfMembers(ms[1..], k);
      assert forall m :: m in ms <==> m == ms[0] || m in ms[1..];
    }
  }

  /** `deleteChatMessages(chatId)`: deletes each message of the chat and returns how
      many deletions succeeded. Afterwards the store holds exactly the messages
      of the other chats, and the count is the number of messages removed. */
  method DeleteChatMessages(s: Repo, chatId: string) returns (s': Repo, deleted: nat)
    requires Valid(s)
    ensures s'.items == map k | k in s.items && !BelongsToChat(s.items[k], chatId) :: s.items[k]
    ensures s'.keys == Filter(s.keys, (k: string) => k in s'.items)
    ensures deleted + |s'.items| == |s.items|
    ensures Valid(s')
  {
    var messages := GetByChatId(s, chatId);
    var d := DeleteEach(s, messages);
    DeleteEachCounts(s, messages);
    KeysLeft(s, messages, d.store);
    s', deleted := d.store, d.deleted;
    RemovedAreTheChat(s, chatId, messages);
    ValidWithout(s, IdsOf(messages), s');
  }

  /** The keys a deletion of `messages` leaves. */
  ghost function Remains(messages: seq<Message>): string -> bool {
    (k: string) => k !in IdsOf(messages)
  }

  /** The keys a deletion of `messages` leaves are those still stored. */
  lemma KeysLeft(s: Repo, messages: seq<Message>, s': Repo)
    requires s'.items == s.items - IdsOf(messages)
    ensures Filter(s.keys, Remains(messages)) == Filter(s.keys, (k: string) => k in s'.items)
  {
    forall i | 0 <= i < |s.keys|
      ensures Remains(messages)(s.keys[i]) == (s.keys[i] in s'.items)
    {
      assert s.keys[i] in s.items;
    }
    FilterAgree(s.keys, Remains(messages), (k: string) => k in s'.items);
  }

  /** What the deletion loop leaves: the store and how many deletions succeeded. */
  datatype Deletion = Deletion(store: Repo, deleted: nat)

  /** The `forEach` of `deleteChatMessages`: `delete(message.id)` for each message
      in turn, counting the calls that returned `true`. Every listed id is gone
      afterwards; `DeleteEachCounts` states what the count is. */
  function DeleteEach(s: Repo, messages: seq<Message>): (r: Deletion)
    ensures r.store.items == s.items - IdsOf(messages)
    ensures r.store.keys == Filter(s.keys, Remains(messages))
    decreases |messages|
  {
    if |messages| == 0 then
      FilterKeepsAll(s.keys, Remains(messages));
      Deletion(s, 0)
    else
      var id := messages[0].id;
      var step := BaseStore.Delete(s, id);
      var rest := DeleteEach(step.store, messages[1..]);
      assert rest.store.items == s.items - IdsOf(messages) by {
        MinusStep(s.items, {id}, IdsOf(messages[1..]));
      }
      OrderedMap.FilterWithout(s.keys, id, Remains(messages[1..]), Remains(messages));
      Deletion(rest.store, rest.deleted + if step.value then 1 else 0)
  }

  /** Exactly the entries that went were counted: the count and what is left add
      up to the size of the store before. */
  lemma {:induction false} DeleteEachCounts(s: Repo, messages: seq<Message>)
    ensures var r := DeleteEach(s, messages); r.deleted + |r.store.items| == |s.items|
    decreases |messages|
  {
    if |messages| > 0 {
      var id := messages[0].id;
      var step := BaseStore.Delete(s, id);
      DeleteEachCounts(step.store, messages[1..]);
      if step.value {
        MinusOne(s.items, id);
      }
    }
  }

  /** A store holding some of a valid store's entries is valid. */
  lemma ValidWithout(s: Repo, gone: set<string>, s': Repo)
    requires Valid(s) && s'.items == s.items - gone
    ensures Valid(s')
  {
  }

  /** Removing two sets of keys one after the other. */
  lemma MinusStep<V>(a: map<string, V>, first: set<string>, later: set<string>)
    ensures (a - first) - later == a - (first + later)
  {
  }

  /** Removing a present key makes a map one entry smaller. */
  lemma MinusOne<V>(a: map<string, V>, id: string)
    requires id in a
    ensures |a - {id}| == |a| - 1
  {
    assert (a - {id}).Keys == a.Keys - {id};
  }

  /** The ids of the listed messages are exactly the keys of the chat's messages. */
  lemma RemovedAreTheChat(s: Repo, chatId: string, messages: seq<Message>)
    requires Valid(s) && messages == GetByChatId(s, chatId)
    ensures s.items - IdsOf(messages) == map k | k in s.items && !BelongsToChat(s.items[k], chatId) :: s.items[k]
  {
    ListsTheChat(s, chatId);
    forall k | k in s.items
      ensures k in IdsOf(messages) <==> BelongsToChat(s.items[k], chatId)
    {
      ListedIff(s, chatId, messages, k);
    }
  }

  /** A stored key is among the ids of a list holding exactly the chat's messages
      when its message is the chat's. */
  lemma ListedIff(s: Repo, chatId: string, messages: seq<Message>, k: string)
    requires Keyed(s) && k in s.items
    requires forall m :: m in messages <==> m in s.items.Values && BelongsToChat(m, chatId)
    ensures k in IdsOf(messages) <==> BelongsToChat(s.items[k], chatId)
  {
    IdsOfMembers(messages, k);
    if k in IdsOf(messages) {
      var m :| m in messages && m.id == k;
      var k' :| k' in s.items && s.items[k'] == m;
    }
  }

  /** The result of `getChatStats(chatId)`. */
  datatype ChatStats = ChatStats(totalMessages: nat, userMessages: nat, aiMessages: nat, failedMessages: nat)

  predicate Outgoing(m: Message) {
    m.body.isOutgoing
  }

  predicate Incoming(m: Message) {
    !m.body.isOutgoing
  }

  /** `getChatStats(chatId)`: every message of the chat is either the user's or
      the AI's, and the failed ones are among them. */
  function GetChatStats(s: Repo, chatId: string): (r: ChatStats)
    ensures r.totalMessages == |GetByChatId(s, chatId)|
    ensures r.userMessages + r.aiMessages == r.totalMessages
    ensures r.failedMessages <= r.totalMessages
    ensures r.userMessages == Count(GetByChatId(s, chatId), Outgoing)
    ensures r.failedMessages == Count(GetByChatId(s, chatId), IsFailed)
  {
    var ms := GetByChatId(s, chatId);
    CountComplement(ms, Outgoing, Incoming);
    ChatStats(|ms|, Count(ms, Outgoing), Count(ms, Incoming), Count(ms, IsFailed))
  }

  /** After `deleteChatMessages(chatId)` the chat has no messages left and its
      statistics are all zero. */
  lemma DeleteChatMessagesEmpties(s: Repo, chatId: string, s': Repo)
    requires s'.items == map k | k in s.items && !BelongsToChat(s.items[k], chatId) :: s.items[k]
    ensures GetByChatId(s', chatId) == []
    ensures GetChatStats(s', chatId) == ChatStats(0, 0, 0, 0)
  {
    ListsTheChat(s', chatId);
  }
}

=== FILE: openai_provider.dfy ===
/** `OpenAIProvider`: the concrete provider. It validates the messages, requires
    an initialised client, sends one completion request per call, turns an empty
    answer into EMPTY_RESPONSE, and wraps a client-library error into an
    `AIProviderError` whose code comes from the HTTP status or the API error
    code. The remote endpoint is a parameter: `send(n, request)` is the reply
    to the `n`-th call. */
module OpenAIProvider {
  import opened Wrappers
  import opened Errors
  import opened Text
  import opened AIProvider

  const DefaultModel: string := "gpt-3.5-turbo"
  const MaxTokens: nat := 1000
  const Temperature: real := 0.7

  /** The provider: the shared configuration plus whether the client exists. */
  datatype State = State(config: Config, client: bool)

  /** The body of `chat.completions.create`. */
  datatype Request = Request(messages: seq<ChatMessage>, model: string, maxTokens: nat, temperature: real)

  /** The remote endpoint's answer: `choices[0]?.message?.content` (`None` when any
      part is missing), or the error the client library throws. */
  type Reply = Result<Option<string>, Failure>

  /** `OpenAIProvider.create(model?)`: no key and no client yet. */
  function Create(model: Option<string>): (p: State)
    ensures !IsConfigured(p.config) && !p.client
    ensures p.config.model == model.GetOr(DefaultModel)
  {
    State(NewProvider(model.GetOr(DefaultModel)), false)
  }

  /** `setApiKey(apiKey)`: the shared validation, then the client is created. */
  function SetApiKey(p: State, apiKey: string): (r: Result<State, Failure>)
    ensures r.Err? <==> IsBlank(apiKey)
    ensures r.Err? ==> r.error == Provider(InvalidApiKeyText, InvalidApiKey, None)
    ensures r.Ok? ==> r.value.client && IsConfigured(r.value.config) && r.value.config.apiKey == Some(apiKey)
  {
    match AIProvider.SetApiKey(p.config, apiKey)
    case Err(e) => Err(e)
    case Ok(c) => Ok(State(c, true))
  }

  /** The client only ever exists together with a key. */
  ghost predicate Consistent(p: State) {
    p.client ==> IsConfigured(p.config)
  }

  /** Both ways of building a provider keep it consistent. */
  lemma ConsistentByConstruction(model: Option<string>, p: State, apiKey: string)
    ensures Consistent(Create(model))
    ensures SetApiKey(p, apiKey).Ok? ==> Consistent(SetApiKey(p, apiKey).value)
  {
  }

  /** `mapOpenAIErrorCode(error)`: a truthy HTTP status decides first (0 counts as
      absent), then a truthy API error code, else UNKNOWN_ERROR. */
  function MapErrorCode(status: Option<int>, apiCode: Option<string>): (c: ErrorCode)
    ensures status.Some? && status.value != 0 ==>
      c == (if status.value == 401 then InvalidApiKey
            else if status.value == 429 then RateLimitExceeded
            else if status.value in {500, 502, 503, 504} then ServerError
            else ApiError)
    ensures !(status.Some? && status.value != 0) && apiCode.Some? && apiCode.value != "" ==>
      c == (if apiCode.value == "insufficient_quota" then QuotaExceeded
            else if apiCode.value == "model_not_found" then ModelNotFound
            else ApiError)
    ensures !(status.Some? && status.value != 0) && !(apiCode.Some? && apiCode.value != "") ==> c == UnknownError
  {
    if status.Some? && status.value != 0 then
      match status.value
      case 401 => InvalidApiKey
      case 429 => RateLimitExceeded
      case 500 => ServerError
      case 502 => ServerError
      case 503 => ServerError
      case 504 => ServerError
      case _ => ApiError
    else if apiCode.Some? && apiCode.value != "" then
      match apiCode.value
      case "insufficient_quota" => QuotaExceeded
      case "model_not_found" => ModelNotFound
      case _ => ApiError
    else UnknownError
  }

  /** The status and code a thrown value carries, if any. */
  function StatusOf(e: Failure): Option<int> {
    if e.Transport? then e.status else None
  }

  function ApiCodeOf(e: Failure): Option<string> {
    if e.Transport? then e.apiCode else None
  }

  /** The `catch` of `chat`: an `AIProviderError` passes through unchanged; anything
      else is wrapped with its message (or a fixed text when it has none), the
      mapped code, and itself as the original error. */
  function Wrap(e: Failure): (r: Failure)
    ensures e.Provider? ==> r == e
    ensures !e.Provider? ==>
      && r.Provider? && r.original == Some(e)
      && r.code == MapErrorCode(StatusOf(e), ApiCodeOf(e))
      && r.message == (if e.message == "" then UnknownOpenAIError else e.message)
    ensures r.message != "" || e.Provider?
  {
    if e.Provider? then e
    else Provider(if e.message == "" then UnknownOpenAIError else e.message, MapErrorCode(StatusOf(e), ApiCodeOf(e)), Some(e))
  }

  /** The request `chat` sends for `messages`. */
  function RequestFor(p: State, messages: seq<ChatMessage>): (q: Request)
    ensures q.messages == messages && q.model == p.config.model
    ensures q.maxTokens == 1000 && q.temperature == 0.7
  {
    Request(messages, p.config.model, MaxTokens, Temperature)
  }

  /** `chat(messages)` as its `n`-th call: validation and the client check come
      before any request; an answer with no content is EMPTY_RESPONSE. */
  function Chat(p: State, messages: seq<ChatMessage>, send: (nat, Request) -> Reply, n: nat): (r: Result<string, Failure>)
    ensures ValidateMessages(messages).Some? ==> r == Err(ValidateMessages(messages).value)
    ensures ValidateMessages(messages).None? && !p.client ==>
      r == Err(Provider(ClientMissing, ClientNotInitialized, None))
    ensures ValidateMessages(messages).None? && p.client ==>
      var reply := send(n, RequestFor(p, messages));
      && (reply.Ok? && reply.value.Some? && reply.value.value != "" <==> r.Ok?)
      && (r.Ok? ==> r.value == reply.value.value)
      && (reply.Ok? && r.Err? ==> r.error == Provider(NoResponse, EmptyResponse, None))
      && (reply.Err? ==> r == Err(Wrap(reply.error)))
    ensures r.Ok? ==> r.value != ""
  {
    var invalid := ValidateMessages(messages);
    if invalid.Some? then Err(invalid.value)
    else if !p.client then Err(Provider(ClientMissing, ClientNotInitialized, None))
    else
      match send(n, RequestFor(p, messages))
      case Err(e) => Err(Wrap(e))
      case Ok(content) =>
        if content.None? || content.value == "" then Err(Provider(NoResponse, EmptyResponse, None))
        else Ok(content.value)
  }

  /** `getSystemPrompt(chatName)`. */
  function SystemPrompt(chatName: string): (r: string)
    ensures r != "" && Contains(r, chatName)
  {
    var r := PromptOpening + chatName + PromptMiddle + chatName + PromptClosing;
    assert r[|PromptOpening|..|PromptOpening| + |chatName|] == chatName;
    OccursImpliesContains(r, chatName, |PromptOpening|);
    r
  }

  /** The fixed parts of the system prompt, around the chat's name twice. */
  const PromptOpening: string := "You are "
  const PromptMiddle: string := ". Act accordingly, staying in character and providing responses that would be expected from "
  const PromptClosing: string := ". Keep responses concise and natural, as if in a real chat conversation."

  /** The messages `chatWithContext` sends: the system prompt, then the given ones. */
  function WithContext(messages: seq<ChatMessage>, chatName: string): (r: seq<ChatMessage>)
    ensures |r| == |messages| + 1 && r[1..] == messages
    ensures r[0].role == System && r[0].content == SystemPrompt(chatName)
  {
    [ChatMessage(System, SystemPrompt(chatName))] + messages
  }

  /** Prepending the system prompt never makes valid messages invalid, and makes
      an empty list valid; a message with empty content still fails. */
  lemma WithContextValidation(messages: seq<ChatMessage>, chatName: string)
    ensures ValidateMessages(WithContext(messages, chatName)).None?
        <==> forall i :: 0 <= i < |messages| ==> messages[i].content != ""
  {
    var r := WithContext(messages, chatName);
    if forall i :: 0 <= i < |messages| ==> messages[i].content != "" {
      forall i | 0 <= i < |r| ensures r[i].content != "" {
        if i > 0 { assert r[i] == messages[i - 1]; }
      }
    } else {
      var i :| 0 <= i < |messages| && messages[i].content == "";
      assert r[i + 1] == messages[i];
    }
  }

  /** `chatWithContext(messages, chatName)`: the retry loop over `chat` with the
      system prompt in front. */
  function ChatWithContext(p: State, messages: seq<ChatMessage>, chatName: string,
                           send: (nat, Request) -> Reply, jitter: nat -> UnitInterval): (r: Attempts)
    ensures !IsConfigured(p.config) ==> r.calls == 0 && r.result == Err(Provider(ApiKeyMissing, ConfigurationError, None))
    ensures IsConfigured(p.config) ==> 1 <= r.calls <= MaxRetries
    ensures IsConfigured(p.config) && r.result.Ok? ==>
      Chat(p, WithContext(messages, chatName), send, r.calls) == Ok(r.result.value) && r.result.value != ""
    ensures IsConfigured(p.config) && r.result.Err? ==>
      var last := Chat(p, WithContext(messages, chatName), send, r.calls);
      last.Err? && r.result.error == GiveUp(last.error)
  {
    var ctx := WithContext(messages, chatName);
    ChatWithRetry(p.config, (n: nat) => Chat(p, ctx, send, n), jitter)
  }

  /** With an empty message content every attempt fails validation before any
      request, so the outcome is that validation error given up on, whatever the
      remote endpoint would have said. */
  lemma InvalidMessagesNeverSent(p: State, messages: seq<ChatMessage>, chatName: string,
                                 send: (nat, Request) -> Reply, jitter: nat -> UnitInterval, i: nat)
    requires IsConfigured(p.config)
    requires i < |messages| && messages[i].content == ""
    ensures ChatWithContext(p, messages, chatName, send, jitter).result
         == Err(GiveUp(Provider(BadMessageFormat, InvalidMessageFormat, None)))
  {
    WithContextValidation(messages, chatName);
  }
}

=== FILE: openai_service.dfy ===
/** `OpenAIService`, the completion client the first version of the app uses: a
    single client that exists once a non-empty key was given, and a `chat` call
    that hides every remote failure behind one fixed message. The remote endpoint
    is a parameter. */
module OpenAIService {
  import opened Wrappers
  import opened Errors
  import opened AIProvider

  const Model: string := "gpt-3.5-turbo"

  /** The key the client was built with, or `None` while there is no client. */
  datatype State = State(client: Option<string>)

  /** What `chat.completions.create` is asked for. */
  datatype Request = Request(apiKey: string, model: string, messages: seq<ChatMessage>)

  /** The remote answer: the first choice's content (`None` for `null`), or the
      error thrown while asking or reading it. */
  type Reply = Result<Option<string>, Failure>

  function Initial(): (s: State)
    ensures s.client.None?
  {
    State(None)
  }

  /** `setApiKey(apiKey)`: an empty key is ignored; any other key replaces the client. */
  function SetApiKey(s: State, apiKey: string): (r: State)
    ensures apiKey == "" ==> r == s
    ensures apiKey != "" ==> r.client == Some(apiKey)
  {
    if apiKey == "" then s else State(Some(apiKey))
  }

  /** `chat(messages)`: refused without a client; a remote failure becomes
      ChatResponseFailed; a missing or empty content becomes
      NoResponse. */
  function Chat(s: State, messages: seq<ChatMessage>, send: Request -> Reply): (r: Result<string, Failure>)
    ensures s.client.None? ==> r == Err(Plain(SetKeyFirst))
    ensures s.client.Some? ==>
      var reply := send(Request(s.client.value, Model, messages));
      && (r.Err? <==> reply.Err?)
      && (r.Err? ==> r.error == Plain(ChatResponseFailed))
      && (reply.Ok? && reply.value.Some? && reply.value.value != "" ==> r == Ok(reply.value.value))
      && (reply.Ok? && (reply.value.None? || reply.value.value == "") ==> r == Ok(NoResponse))
    ensures r.Ok? ==> r.value != ""
  {
    match s.client
    case None => Err(Plain(SetKeyFirst))
    case Some(key) =>
      match send(Request(key, Model, messages))
      case Err(_) => Err(Plain(ChatResponseFailed))
      case Ok(content) => Ok(if content.None? || content.value == "" then NoResponse else content.value)
  }

  /** After a non-empty key is set, `chat` asks the endpoint with that key, and an
      empty key leaves a missing client missing. */
  lemma KeyReachesEndpoint(s: State, apiKey: string, messages: seq<ChatMessage>, send: Request -> Reply)
    ensures apiKey != "" ==>
      (Chat(SetApiKey(s, apiKey), messages, send).Err? <==> send(Request(apiKey, Model, messages)).Err?)
    ensures apiKey == "" && s.client.None? ==>
      Chat(SetApiKey(s, apiKey), messages, send) == Err(Plain(SetKeyFirst))
  {
  }
}

=== FILE: ordered_map.dfy ===
/** JavaScript's `Map<string, V>`: a finite map that also remembers the order in
    which its keys were first inserted. Re-setting an existing key keeps its
    position; deleting a key forgets it. */
module OrderedMap {
  import opened Wrappers
  import opened Seqs

  datatype Raw<V> = Raw(keys: seq<string>, items: map<string, V>)

  /** The key order lists every key of the map exactly once. */
  ghost predicate Valid<V>(m: Raw<V>) {
    && Distinct(m.keys)
    && (forall k :: k in m.keys <==> k in m.items)
  }

  type OMap<V> = m: Raw<V> | Valid(m) witness Raw([], map[])

  function Empty<V>(): (m: OMap<V>)
    ensures m.items == map[] && m.keys == []
  {
    Raw([], map[])
  }

  /** `m.get(k)`, with `None` for `undefined`. */
  function Get<V>(m: OMap<V>, k: string): (r: Option<V>)
    ensures r.Some? <==> k in m.items
    ensures r.Some? ==> r.value == m.items[k]
  {
    if k in m.items then Some(m.items[k]) else None
  }

  /** `m.set(k, v)`: a new key goes to the end, an existing key keeps its place. */
  function Set<V>(m: OMap<V>, k: string, v: V): (r: OMap<V>)
    ensures r.items == m.items[k := v]
    ensures k in m.items ==> r.keys == m.keys
    ensures k !in m.items ==> r.keys == m.keys + [k]
  {
    if k in m.items then Raw(m.keys, m.items[k := v])
    else
      var r := Raw(m.keys + [k], m.items[k := v]);
      assert Distinct(r.keys) by {
        assert forall i :: 0 <= i < |m.keys| ==> r.keys[i] == m.keys[i];
      }
      r
  }

  /** The key order with `k` left out. */
  function Without(keys: seq<string>, k: string): (r: seq<string>)
    ensures forall x :: x in r <==> x in keys && x != k
    ensures Distinct(keys) ==> Distinct(r)
    ensures IsSubseq(r, keys)
    ensures k !in keys ==> r == keys
  {
    if |keys| == 0 then []
    else if keys[0] == k then Without(keys[1..], k)
    else
      var rest := Without(keys[1..], k);
      assert Distinct(keys) ==> keys[0] !in keys[1..];
      [keys[0]] + rest
  }

  /** Leaving `k` out and then filtering by `p` is filtering by `q`, when `q` is
      `p` that also refuses `k`. */
  lemma {:induction false} FilterWithout(keys: seq<string>, k: string, p: string -> bool, q: string -> bool)
    requires forall x :: q(x) == (x != k && p(x))
    ensures Filter(Without(keys, k), p) == Filter(keys, q)
    decreases |keys|
  {
    if |keys| > 0 {
      FilterWithout(keys[1..], k, p, q);
      if keys[0] != k {
        var rest := Without(keys[1..], k);
        assert ([keys[0]] + rest)[0] == keys[0];
        assert ([keys[0]] + rest)[1..] == rest;
      }
    }
  }

  /** `m.delete(k)`: forgets `k` and its position, keeps every other entry. */
  function Delete<V>(m: OMap<V>, k: string): (r: OMap<V>)
    ensures r.items == m.items - {k}
    ensures r.keys == Without(m.keys, k)
  {
    Raw(Without(m.keys, k), m.items - {k})
  }

  /** `Array.from(m.values())`: the values in key-insertion order. */
  function Values<V>(m: OMap<V>): (r: seq<V>)
    ensures |r| == |m.keys|
    ensures forall i :: 0 <= i < |r| ==> r[i] == m.items[m.keys[i]]
  {
    seq(|m.keys|, i requires 0 <= i < |m.keys| => m.items[m.keys[i]])
  }

  /** Every stored value is listed by `Values`, and nothing else is. */
  lemma ValuesAreStored<V>(m: OMap<V>, v: V)
    ensures v in Values(m) <==> exists k :: k in m.items && m.items[k] == v
  {
    if exists k :: k in m.items && m.items[k] == v {
      var k :| k in m.items && m.items[k] == v;
      var i :| 0 <= i < |m.keys| && m.keys[i] == k;
      assert Values(m)[i] == v;
    }
  }

  /** Setting a new key lists its value last after the others; setting a key
      always lists the value it was set to. */
  lemma SetValues<V>(m: OMap<V>, k: string, v: V)
    ensures k !in m.items ==> Values(Set(m, k, v)) == Values(m) + [v]
    ensures k in m.items ==> |Values(Set(m, k, v))| == |Values(m)|
    ensures v in Values(Set(m, k, v))
  {
    var r := Set(m, k, v);
    if k !in m.items {
      forall i | 0 <= i < |m.keys| ensures Values(r)[i] == Values(m)[i] {
        assert m.keys[i] in m.items;
      }
    }
    ValuesAreStored(r, v);
  }

  /** `m.size`: the number of keys. */
  lemma SizeIsKeyCount<V>(m: OMap<V>)
    ensures |m.keys| == |m.items|
  {
    var ks := set k | k in m.keys;
    assert ks == m.items.Keys;
    DistinctCard(m.keys);
  }

  /** A sequence without repetitions has as many elements as its set of elements. */
  lemma {:induction false} DistinctCard(s: seq<string>)
    requires Distinct(s)
    ensures |set k | k in s| == |s|
  {
    if |s| > 0 {
      var rest := s[1..];
      assert Distinct(rest);
      DistinctCard(rest);
      assert s[0] !in rest;
      assert (set k | k in s) == (set k | k in rest) + {s[0]};
    }
  }
}

=== FILE: query_cache.dfy ===
/** The part of the TanStack Query client the chat hooks use: per-chat cached
    message lists under the key `['messages', chatId]`, and the log of
    invalidated keys (an invalidated list is refetched later, outside this model). */
module QueryCache {
  import opened Wrappers

  /** `['messages', chatId]` or `['chats']`. */
  datatype Key = MessagesOf(chatId: string) | Chats

  datatype Cache<T> = Cache(messages: map<string, seq<T>>, invalidated: seq<Key>)

  /** `getQueryData(['messages', chatId])`: `undefined` when nothing is cached. */
  function Get<T>(c: Cache<T>, chatId: string): (r: Option<seq<T>>)
    ensures r.Some? <==> chatId in c.messages
    ensures r.Some? ==> r.value == c.messages[chatId]
  {
    if chatId in c.messages then Some(c.messages[chatId]) else None
  }

  /** `setQueryData(['messages', chatId], data)`. */
  function Put<T>(c: Cache<T>, chatId: string, data: seq<T>): (r: Cache<T>)
    ensures Get(r, chatId) == Some(data) && r.invalidated == c.invalidated
    ensures forall other :: other != chatId ==> Get(r, other) == Get(c, other)
  {
    c.(messages := c.messages[chatId := data])
  }

  /** `invalidateQueries({ queryKey })`. */
  function Invalidate<T>(c: Cache<T>, key: Key): (r: Cache<T>)
    ensures r.messages == c.messages && r.invalidated == c.invalidated + [key]
  {
    c.(invalidated := c.invalidated + [key])
  }

  /** The cache after `onMutate` and the snapshot it returned as context. */
  datatype Mutated<T> = Mutated(cache: Cache<T>, previous: Option<seq<T>>)

  /** `onMutate`: snapshot the cached list, then append the optimistic message to
      it, starting from an empty list when nothing was cached. */
  function OnMutate<T>(c: Cache<T>, chatId: string, temp: T): (r: Mutated<T>)
    ensures r.previous == Get(c, chatId)
    ensures Get(r.cache, chatId) == Some(Get(c, chatId).GetOr([]) + [temp])
    ensures forall other :: other != chatId ==> Get(r.cache, other) == Get(c, other)
    ensures r.cache.invalidated == c.invalidated
  {
    var previous := Get(c, chatId);
    Mutated(Put(c, chatId, previous.GetOr([]) + [temp]), previous)
  }

  /** `onError`: put the snapshot back when there is one. A cached array is truthy
      even when empty, so only a missing entry skips the rollback. */
  function Rollback<T>(c: Cache<T>, chatId: string, previous: Option<seq<T>>): (r: Cache<T>)
    ensures previous.Some? ==> Get(r, chatId) == previous
    ensures previous.None? ==> r == c
    ensures forall other :: other != chatId ==> Get(r, other) == Get(c, other)
    ensures r.invalidated == c.invalidated
  {
    match previous
    case Some(data) => Put(c, chatId, data)
    case None => c
  }

  /** Invalidating the chat's messages and then the chat list. */
  function InvalidateBoth<T>(c: Cache<T>, chatId: string): (r: Cache<T>)
    ensures r.messages == c.messages
    ensures r.invalidated == c.invalidated + [MessagesOf(chatId), Chats]
  {
    Invalidate(Invalidate(c, MessagesOf(chatId)), Chats)
  }

  /** Rolling back right after the optimistic update restores the cache exactly
      when something was cached before; otherwise the optimistic message stays,
      alone in the chat's list. */
  lemma RollbackUndoesMutate<T>(c: Cache<T>, chatId: string, temp: T)
    ensures var m := OnMutate(c, chatId, temp);
      var r := Rollback(m.cache, chatId, m.previous);
      && (chatId in c.messages ==> r == c)
      && (chatId !in c.messages ==> Get(r, chatId) == Some([temp]) && r.invalidated == c.invalidated)
  {
    var m := OnMutate(c, chatId, temp);
    if chatId in c.messages {
      assert m.cache.messages[chatId := c.messages[chatId]] == c.messages;
    } else {
      assert Get(c, chatId).GetOr([]) + [temp] == [temp];
    }
  }
}

=== FILE: seqs.dfy ===
/** Order-preserving selection and counting over sequences: the model of
    `Array.prototype.filter` and of `filter(...).length`. */
module Seqs {

  /** `a` is obtained from `b` by deleting elements, keeping the order of the rest. */
  predicate IsSubseq<T(==)>(a: seq<T>, b: seq<T>)
    decreases |b|
  {
    |a| == 0 || (|b| > 0 && ((a[0] == b[0] && IsSubseq(a[1..], b[1..])) || IsSubseq(a, b[1..])))
  }

  /** `xs.filter(p)`: exactly the elements satisfying `p`, in their original order. */
  function Filter<T(==)>(xs: seq<T>, p: T -> bool): (r: seq<T>)
    ensures |r| <= |xs|
    ensures forall i :: 0 <= i < |r| ==> r[i] in xs && p(r[i])
    ensures forall i :: 0 <= i < |xs| && p(xs[i]) ==> xs[i] in r
    ensures IsSubseq(r, xs)
  {
    if |xs| == 0 then []
    else if p(xs[0]) then [xs[0]] + Filter(xs[1..], p)
    else Filter(xs[1..], p)
  }

  /** Filtering a concatenation filters each part. */
  lemma {:induction false} FilterConcat<T>(a: seq<T>, b: seq<T>, p: T -> bool)
    ensures Filter(a + b, p) == Filter(a, p) + Filter(b, p)
  {
    if |a| == 0 {
      assert a + b == b;
    } else {
      assert (a + b)[1..] == a[1..] + b;
      FilterConcat(a[1..], b, p);
    }
  }

  /** `xs.filter(p).length`. */
  function Count<T(==)>(xs: seq<T>, p: T -> bool): (n: nat)
    ensures n <= |xs|
  {
    |Filter(xs, p)|
  }

  /** Every element satisfies exactly one of `p` and its negation, so the two counts
      add up to the length. */
  lemma {:induction false} CountComplement<T>(xs: seq<T>, p: T -> bool, q: T -> bool)
    requires forall x :: x in xs ==> (q(x) <==> !p(x))
    ensures Count(xs, p) + Count(xs, q) == |xs|
  {
    if |xs| > 0 {
      assert forall x :: x in xs[1..] ==> x in xs;
      CountComplement(xs[1..], p, q);
    }
  }

  /** A filter whose predicate implies another's keeps no more elements. */
  lemma {:induction false} CountMonotonic<T>(xs: seq<T>, p: T -> bool, q: T -> bool)
    requires forall x :: x in xs && p(x) ==> q(x)
    ensures Count(xs, p) <= Count(xs, q)
  {
    if |xs| > 0 {
      assert forall x :: x in xs[1..] ==> x in xs;
      CountMonotonic(xs[1..], p, q);
    }
  }

  /** An element of `xs` that passes the filter is kept. */
  lemma FilterHas<T>(xs: seq<T>, p: T -> bool, x: T)
    requires x in xs && p(x)
    ensures x in Filter(xs, p)
  {
    var i :| 0 <= i < |xs| && xs[i] == x;
  }

  /** Filters whose predicates agree on the elements select the same. */
  lemma {:induction false} FilterAgree<T>(xs: seq<T>, p: T -> bool, q: T -> bool)
    requires forall i :: 0 <= i < |xs| ==> p(xs[i]) == q(xs[i])
    ensures Filter(xs, p) == Filter(xs, q)
  {
    if |xs| > 0 {
      FilterAgree(xs[1..], p, q);
    }
  }

  /** A filter every element passes keeps the sequence as it is. */
  lemma {:induction false} FilterKeepsAll<T>(xs: seq<T>, p: T -> bool)
    requires forall i :: 0 <= i < |xs| ==> p(xs[i])
    ensures Filter(xs, p) == xs
  {
    if |xs| > 0 {
      assert p(xs[0]);
      FilterKeepsAll(xs[1..], p);
      assert xs == [xs[0]] + xs[1..];
    }
  }

  /** `xs.reduce((sum, x) => sum + f(x), 0)`. */
  function SumOf<T>(xs: seq<T>, f: T -> nat): nat {
    if |xs| == 0 then 0 else f(xs[0]) + SumOf(xs[1..], f)
  }

  /** Summing a concatenation sums each part. */
  lemma {:induction false} SumAppend<T>(a: seq<T>, b: seq<T>, f: T -> nat)
    ensures SumOf(a + b, f) == SumOf(a, f) + SumOf(b, f)
  {
    if |a| > 0 {
      assert (a + b)[1..] == a[1..] + b;
      SumAppend(a[1..], b, f);
    } else {
      assert a + b == b;
    }
  }

  /** Sums of functions that agree on the elements are equal. */
  lemma {:induction false} SumAgree<T>(xs: seq<T>, f: T -> nat, g: T -> nat)
    requires forall i :: 0 <= i < |xs| ==> f(xs[i]) == g(xs[i])
    ensures SumOf(xs, f) == SumOf(xs, g)
  {
    if |xs| > 0 {
      assert f(xs[0]) == g(xs[0]);
      SumAgree(xs[1..], f, g);
    }
  }

  /** When every element satisfies `r` exactly if it satisfies one of `p` and `q`,
      and none satisfies both, the counts add up. */
  lemma {:induction false} CountSplit<T>(xs: seq<T>, r: T -> bool, p: T -> bool, q: T -> bool)
    requires forall i :: 0 <= i < |xs| ==> (r(xs[i]) <==> p(xs[i]) || q(xs[i]))
    requires forall i :: 0 <= i < |xs| ==> !(p(xs[i]) && q(xs[i]))
    ensures Count(xs, r) == Count(xs, p) + Count(xs, q)
  {
    if |xs| > 0 {
      assert r(xs[0]) <==> p(xs[0]) || q(xs[0]);
      assert !(p(xs[0]) && q(xs[0]));
      CountSplit(xs[1..], r, p, q);
    }
  }

  /** Sequences without repeated elements. */
  predicate Distinct<T(==)>(s: seq<T>) {
    forall i, j :: 0 <= i < j < |s| ==> s[i] != s[j]
  }
}

=== FILE: sorting.dfy ===
/** `Array.prototype.sort(cmp)`, which the ECMAScript standard requires to be
    stable: `cmp(a, b) > 0` puts `b` before `a`, anything else keeps them in their
    original order. Modelled as a stable insertion sort; for a comparator that
    orders by an integer key, every stable sort produces this same sequence. */
module Sorting {
  import opened Seqs

  /** Inserts `x`, which came after every element of `s` in the input, into `s`:
      `x` goes before the first element the comparator places after it. */
  function Insert<T>(s: seq<T>, x: T, cmp: (T, T) -> int): (r: seq<T>)
    ensures |r| == |s| + 1
  {
    if |s| == 0 then [x]
    else if cmp(s[0], x) > 0 then [x] + s
    else [s[0]] + Insert(s[1..], x, cmp)
  }

  /** `xs.slice().sort(cmp)`. */
  function Sort<T>(xs: seq<T>, cmp: (T, T) -> int): (r: seq<T>)
    ensures |r| == |xs|
  {
    if |xs| == 0 then []
    else Insert(Sort(xs[..|xs| - 1], cmp), xs[|xs| - 1], cmp)
  }

  /** Sorting a list with one more element at the end inserts that element into
      the sorted list. */
  lemma SortSnoc<T>(xs: seq<T>, x: T, cmp: (T, T) -> int)
    ensures Sort(xs + [x], cmp) == Insert(Sort(xs, cmp), x, cmp)
  {
    assert (xs + [x])[..|xs|] == xs;
  }

  /** Inserting adds exactly `x`. */
  lemma {:induction false} InsertPermutes<T>(s: seq<T>, x: T, cmp: (T, T) -> int)
    ensures multiset(Insert(s, x, cmp)) == multiset(s) + multiset{x}
  {
    if |s| > 0 && cmp(s[0], x) <= 0 {
      InsertPermutes(s[1..], x, cmp);
      assert s == [s[0]] + s[1..];
    }
  }

  /** Sorting permutes: every element is kept, as often as it occurs. */
  lemma {:induction false} SortPermutes<T>(xs: seq<T>, cmp: (T, T) -> int)
    ensures multiset(Sort(xs, cmp)) == multiset(xs)
  {
    if |xs| > 0 {
      var init := xs[..|xs| - 1];
      SortPermutes(init, cmp);
      InsertPermutes(Sort(init, cmp), xs[|xs| - 1], cmp);
      assert xs == init + [xs[|xs| - 1]];
    }
  }

  /** Ascending by `key`. */
  ghost predicate SortedBy<T>(xs: seq<T>, key: T -> int) {
    forall i, j :: 0 <= i < j < |xs| ==> key(xs[i]) <= key(xs[j])
  }

  /** On the elements of `xs`, the comparator says "after" exactly when the key is
      larger: it is the comparator of an ascending sort by `key`. */
  ghost predicate OrdersBy<T>(cmp: (T, T) -> int, key: T -> int, xs: seq<T>) {
    forall i, j :: 0 <= i < |xs| && 0 <= j < |xs| ==> (cmp(xs[i], xs[j]) > 0 <==> key(xs[i]) > key(xs[j]))
  }

  /** Swapping the arguments negates the comparison, so each pair is put in one
      order only and an element ties with itself. */
  ghost predicate Antisymmetric<T(!new)>(cmp: (T, T) -> int) {
    forall a, b :: cmp(a, b) == -cmp(b, a)
  }

  /** The elements of `xs` whose key is `k`, in order: stability means the sort
      leaves each such group in its input order. */
  function Ties<T>(xs: seq<T>, key: T -> int, k: int): seq<T> {
    if |xs| == 0 then []
    else (if key(xs[0]) == k then [xs[0]] else []) + Ties(xs[1..], key, k)
  }

  lemma {:induction false} TiesConcat<T>(a: seq<T>, b: seq<T>, key: T -> int, k: int)
    ensures Ties(a + b, key, k) == Ties(a, key, k) + Ties(b, key, k)
  {
    if |a| == 0 {
      assert a + b == b;
    } else {
      TiesConcat(a[1..], b, key, k);
      var head := if key(a[0]) == k then [a[0]] else [];
      assert (a + b)[0] == a[0];
      assert (a + b)[1..] == a[1..] + b;
      assert Ties(a + b, key, k) == head + Ties(a[1..] + b, key, k);
      assert Ties(a, key, k) == head + Ties(a[1..], key, k);
      assert head + (Ties(a[1..], key, k) + Ties(b, key, k)) == (head + Ties(a[1..], key, k)) + Ties(b, key, k);
    }
  }

  /** When every key in `s` is above `k`, nothing in `s` ties with `k`. */
  lemma {:induction false} TiesAbove<T>(s: seq<T>, key: T -> int, k: int)
    requires forall i :: 0 <= i < |s| ==> key(s[i]) > k
    ensures Ties(s, key, k) == []
  {
    if |s| > 0 {
      TiesAbove(s[1..], key, k);
    }
  }

  /** A comparator that orders `xs` by `key` also orders any selection from `xs`. */
  lemma OrdersBySub<T>(cmp: (T, T) -> int, key: T -> int, xs: seq<T>, ys: seq<T>)
    requires OrdersBy(cmp, key, xs)
    requires forall i :: 0 <= i < |ys| ==> ys[i] in xs
    ensures OrdersBy(cmp, key, ys)
  {
    forall i, j | 0 <= i < |ys| && 0 <= j < |ys|
      ensures cmp(ys[i], ys[j]) > 0 <==> key(ys[i]) > key(ys[j])
    {
      var a :| 0 <= a < |xs| && xs[a] == ys[i];
      var b :| 0 <= b < |xs| && xs[b] == ys[j];
    }
  }

  /** Dropping the first element keeps the comparator ordering by `key`. */
  lemma OrdersByTail<T>(cmp: (T, T) -> int, key: T -> int, xs: seq<T>)
    requires |xs| > 0 && OrdersBy(cmp, key, xs)
    ensures OrdersBy(cmp, key, xs[1..])
  {
    forall i, j | 0 <= i < |xs| - 1 && 0 <= j < |xs| - 1
      ensures cmp(xs[1..][i], xs[1..][j]) > 0 <==> key(xs[1..][i]) > key(xs[1..][j])
    {
      assert xs[1..][i] == xs[i + 1] && xs[1..][j] == xs[j + 1];
    }
  }

  /** Filtering out the inserted element undoes the insertion. */
  lemma {:induction false} FilterInsert<T>(s: seq<T>, x: T, cmp: (T, T) -> int, p: T -> bool)
    requires !p(x)
    ensures Filter(Insert(s, x, cmp), p) == Filter(s, p)
  {
    if |s| == 0 || cmp(s[0], x) > 0 {
      assert ([x] + s)[1..] == s;
    } else {
      var r := Insert(s, x, cmp);
      assert r == [s[0]] + Insert(s[1..], x, cmp);
      assert r[1..] == Insert(s[1..], x, cmp);
      FilterInsert(s[1..], x, cmp, p);
    }
  }

  /** Sorting does not change a sum. */
  lemma {:induction false} SumInsert<T>(s: seq<T>, x: T, cmp: (T, T) -> int, f: T -> nat)
    ensures SumOf(Insert(s, x, cmp), f) == SumOf(s, f) + f(x)
  {
    if |s| == 0 || cmp(s[0], x) > 0 {
      assert ([x] + s)[1..] == s;
    } else {
      var r := Insert(s, x, cmp);
      assert r[1..] == Insert(s[1..], x, cmp);
      SumInsert(s[1..], x, cmp, f);
    }
  }

  lemma {:induction false} SumSort<T>(xs: seq<T>, cmp: (T, T) -> int, f: T -> nat)
    ensures SumOf(Sort(xs, cmp), f) == SumOf(xs, f)
  {
    if |xs| > 0 {
      var init := xs[..|xs| - 1];
      var last := xs[|xs| - 1];
      SumSort(init, cmp, f);
      SumInsert(Sort(init, cmp), last, cmp, f);
      assert xs == init + [last];
      SumAppend(init, [last], f);
    }
  }

  /** Inserting keeps every element's key at or above a common lower bound. */
  lemma {:induction false} InsertAtLeast<T>(s: seq<T>, x: T, cmp: (T, T) -> int, key: T -> int, lo: int)
    requires forall i :: 0 <= i < |s| ==> key(s[i]) >= lo
    requires key(x) >= lo
    ensures forall i :: 0 <= i < |Insert(s, x, cmp)| ==> key(Insert(s, x, cmp)[i]) >= lo
  {
    if |s| > 0 && cmp(s[0], x) <= 0 {
      InsertAtLeast(s[1..], x, cmp, key, lo);
    }
  }

  /** Inserting into a sorted sequence keeps it sorted. */
  lemma {:induction false} InsertSorted<T>(s: seq<T>, x: T, cmp: (T, T) -> int, key: T -> int)
    requires SortedBy(s, key)
    requires OrdersBy(cmp, key, s + [x])
    ensures SortedBy(Insert(s, x, cmp), key)
  {
    var sx := s + [x];
    if |s| > 0 {
      assert sx[0] == s[0] && sx[|s|] == x;
      if cmp(s[0], x) <= 0 {
        assert key(s[0]) <= key(x);
        assert sx[1..] == s[1..] + [x];
        OrdersByTail(cmp, key, sx);
        InsertSorted(s[1..], x, cmp, key);
        InsertAtLeast(s[1..], x, cmp, key, key(s[0]));
      } else {
        assert key(s[0]) > key(x);
      }
    }
  }

  /** Inserting into a sorted sequence puts `x` after every element with its key. */
  lemma {:induction false} InsertTies<T>(s: seq<T>, x: T, cmp: (T, T) -> int, key: T -> int, k: int)
    requires SortedBy(s, key)
    requires OrdersBy(cmp, key, s + [x])
    ensures Ties(Insert(s, x, cmp), key, k) == Ties(s, key, k) + (if key(x) == k then [x] else [])
  {
    if |s| == 0 {
      assert [x][1..] == [];
    } else if cmp(s[0], x) > 0 {
      InsertTiesFront(s, x, cmp, key, k);
    } else {
      var sx := s + [x];
      assert sx[1..] == s[1..] + [x];
      OrdersByTail(cmp, key, sx);
      InsertTies(s[1..], x, cmp, key, k);
      InsertTiesCons(s, x, cmp, key, k);
    }
  }

  /** `x` goes in front of a sorted sequence whose first key is above its own, so
      nothing in the sequence ties with it. */
  lemma InsertTiesFront<T>(s: seq<T>, x: T, cmp: (T, T) -> int, key: T -> int, k: int)
    requires |s| > 0 && cmp(s[0], x) > 0
    requires SortedBy(s, key)
    requires OrdersBy(cmp, key, s + [x])
    ensures Ties(Insert(s, x, cmp), key, k) == Ties(s, key, k) + (if key(x) == k then [x] else [])
  {
    var sx := s + [x];
    assert sx[0] == s[0] && sx[|s|] == x;
    assert key(s[0]) > key(x);
    assert Insert(s, x, cmp) == [x] + s;
    assert ([x] + s)[1..] == s;
    if key(x) == k {
      TiesAbove(s, key, k);
    }
  }

  /** `x` goes after the first element: the ties of the rest decide. */
  lemma InsertTiesCons<T>(s: seq<T>, x: T, cmp: (T, T) -> int, key: T -> int, k: int)
    requires |s| > 0 && cmp(s[0], x) <= 0
    requires Ties(Insert(s[1..], x, cmp), key, k) == Ties(s[1..], key, k) + (if key(x) == k then [x] else [])
    ensures Ties(Insert(s, x, cmp), key, k) == Ties(s, key, k) + (if key(x) == k then [x] else [])
  {
    var r := Insert(s[1..], x, cmp);
    var head := if key(s[0]) == k then [s[0]] else [];
    var tail := if key(x) == k then [x] else [];
    assert Ties(s, key, k) == head + Ties(s[1..], key, k);
    assert Insert(s, x, cmp) == [s[0]] + r;
    assert ([s[0]] + r)[1..] == r;
    assert Ties([s[0]] + r, key, k) == head + Ties(r, key, k);
    assert head + (Ties(s[1..], key, k) + tail) == (head + Ties(s[1..], key, k)) + tail;
  }

  /** The comparator still orders the already-sorted prefix followed by the next element. */
  lemma SortStepOrders<T>(xs: seq<T>, cmp: (T, T) -> int, key: T -> int)
    requires |xs| > 0 && OrdersBy(cmp, key, xs)
    ensures OrdersBy(cmp, key, Sort(xs[..|xs| - 1], cmp) + [xs[|xs| - 1]])
  {
    var init := xs[..|xs| - 1];
    var ys := Sort(init, cmp) + [xs[|xs| - 1]];
    SortPermutes(init, cmp);
    forall i | 0 <= i < |ys| ensures ys[i] in xs {
      if i < |ys| - 1 {
        assert ys[i] in multiset(init);
      }
    }
    OrdersBySub(cmp, key, xs, ys);
  }

  /** With a comparator that orders by `key`, `Sort` is ascending by `key`. */
  lemma {:induction false} SortSorted<T>(xs: seq<T>, cmp: (T, T) -> int, key: T -> int)
    requires OrdersBy(cmp, key, xs)
    ensures SortedBy(Sort(xs, cmp), key)
  {
    if |xs| > 0 {
      var init := xs[..|xs| - 1];
      OrdersBySub(cmp, key, xs, init);
      SortSorted(init, cmp, key);
      SortStepOrders(xs, cmp, key);
      InsertSorted(Sort(init, cmp), xs[|xs| - 1], cmp, key);
    }
  }

  /** With a comparator that orders by `key`, `Sort` is stable: the elements sharing
      a key keep their input order. */
  lemma {:induction false} SortStable<T>(xs: seq<T>, cmp: (T, T) -> int, key: T -> int, k: int)
    requires OrdersBy(cmp, key, xs)
    ensures Ties(Sort(xs, cmp), key, k) == Ties(xs, key, k)
  {
    if |xs| > 0 {
      var init := xs[..|xs| - 1];
      var last := xs[|xs| - 1];
      assert xs == init + [last];
      OrdersBySub(cmp, key, xs, init);
      SortStable(init, cmp, key, k);
      StableStep(init, last, cmp, key, k);
    }
  }

  /** The induction step of `SortStable`: inserting the next element into the
      stably sorted prefix keeps the ties in input order. */
  lemma StableStep<T>(init: seq<T>, last: T, cmp: (T, T) -> int, key: T -> int, k: int)
    requires OrdersBy(cmp, key, init + [last])
    requires Ties(Sort(init, cmp), key, k) == Ties(init, key, k)
    ensures Ties(Insert(Sort(init, cmp), last, cmp), key, k) == Ties(init + [last], key, k)
  {
    var xs := init + [last];
    assert xs[..|xs| - 1] == init && xs[|xs| - 1] == last;
    var sorted := Sort(init, cmp);
    var tail := if key(last) == k then [last] else [];
    assert Ties(Insert(sorted, last, cmp), key, k) == Ties(sorted, key, k) + tail by {
      OrdersBySub(cmp, key, xs, init);
      SortSorted(init, cmp, key);
      SortStepOrders(xs, cmp, key);
      InsertTies(sorted, last, cmp, key, k);
    }
    assert Ties(xs, key, k) == Ties(init, key, k) + tail by {
      TiesConcat(init, [last], key, k);
      assert [last][1..] == [];
    }
  }

  /** An element the comparator never places before anything already sorted goes last. */
  lemma {:induction false} InsertLast<T>(s: seq<T>, x: T, cmp: (T, T) -> int)
    requires forall a :: a in s ==> cmp(a, x) <= 0
    ensures Insert(s, x, cmp) == s + [x]
  {
    if |s| > 0 {
      InsertLast(s[1..], x, cmp);
      assert s == [s[0]] + s[1..];
    }
  }

  lemma {:induction false} SortKeepsOrder<T>(xs: seq<T>, cmp: (T, T) -> int)
    requires forall a, b :: a in xs && b in xs ==> cmp(a, b) <= 0
    ensures Sort(xs, cmp) == xs
  {
    if |xs| > 0 {
      var init := xs[..|xs| - 1];
      var last := xs[|xs| - 1];
      assert xs == init + [last];
      SortKeepsOrder(init, cmp);
      InsertLast(init, last, cmp);
    }
  }
}

=== FILE: text.dfy ===
/** The few JavaScript string operations the application relies on:
    `trim`, `toLowerCase`, `includes` and `substring(0, n)`. */
module Text {

  /** The code points `String.prototype.trim` strips: the ECMAScript WhiteSpace
      and LineTerminator characters. */
  predicate IsSpace(c: char) {
    || c == ' ' || c == '\t' || c == '\n' || c == '\r'
    || c == '\U{000B}' || c == '\U{000C}' || c == '\U{00A0}' || c == '\U{FEFF}'
    || c == '\U{1680}' || ('\U{2000}' <= c <= '\U{200A}')
    || c == '\U{2028}' || c == '\U{2029}' || c == '\U{202F}' || c == '\U{205F}'
    || c == '\U{3000}'
  }

  /** Every character is whitespace (this includes the empty string). */
  predicate IsBlank(s: string) {
    forall i :: 0 <= i < |s| ==> IsSpace(s[i])
  }

  /** The first index at or after `i` whose character is not whitespace, or `|s|`
      when every character from `i` on is whitespace. */
  function LeadingBlank(s: string, i: nat): (j: nat)
    requires i <= |s|
    ensures i <= j <= |s|
    ensures forall k :: i <= k < j ==> IsSpace(s[k])
    ensures j == |s| || !IsSpace(s[j])
    decreases |s| - i
  {
    if i < |s| && IsSpace(s[i]) then LeadingBlank(s, i + 1) else i
  }

  /** The last index at or before `j` that follows a character that is not
      whitespace, or 0 when every character before `j` is whitespace. */
  function TrailingBlank(s: string, j: nat): (i: nat)
    requires j <= |s|
    ensures i <= j
    ensures forall k :: i <= k < j ==> IsSpace(s[k])
    ensures i == 0 || !IsSpace(s[i - 1])
  {
    if j > 0 && IsSpace(s[j - 1]) then TrailingBlank(s, j - 1) else j
  }

  /** `s.trimStart()`: the longest suffix of `s` that does not start with whitespace. */
  function TrimStart(s: string): (r: string)
    ensures |r| <= |s| && r == s[|s| - |r|..]
    ensures IsBlank(s[..|s| - |r|])
    ensures r == [] || !IsSpace(r[0])
  {
    var j := LeadingBlank(s, 0);
    assert forall k :: 0 <= k < j ==> s[..j][k] == s[k];
    s[j..]
  }

  /** `s.trimEnd()`: the longest prefix of `s` that does not end with whitespace. */
  function TrimEnd(s: string): (r: string)
    ensures |r| <= |s| && r == s[..|r|]
    ensures IsBlank(s[|r|..])
    ensures r == [] || !IsSpace(r[|r| - 1])
  {
    var i := TrailingBlank(s, |s|);
    assert forall k :: 0 <= k < |s| - i ==> s[i..][k] == s[i + k];
    s[..i]
  }

  /** `s.trim()`: a contiguous piece of `s`, with neither end whitespace, and empty
      exactly when `s` is all whitespace. */
  function Trim(s: string): (r: string)
    ensures |r| <= |s|
    ensures r == [] || (!IsSpace(r[0]) && !IsSpace(r[|r| - 1]))
    ensures r == [] <==> IsBlank(s)
    ensures var a := |s| - |TrimStart(s)|;
      && a + |r| <= |s| && r == s[a..a + |r|]
      && IsBlank(s[..a]) && IsBlank(s[a + |r|..])
  {
    var t := TrimStart(s);
    var r := TrimEnd(t);
    var a := |s| - |t|;
    TrimBothEnds(s, t, r);
    assert s[a..a + |r|] == t[..|r|];
    assert s[a + |r|..] == t[|r|..];
    r
  }

  /** Stripping a blank head off `s` to get `t`, and then a blank tail off `t` to
      get `r`, where neither `t` starts nor `r` ends with whitespace: `r` is empty
      exactly when everything was whitespace. */
  lemma TrimBothEnds(s: string, t: string, r: string)
    requires |t| <= |s| && t == s[|s| - |t|..] && IsBlank(s[..|s| - |t|])
    requires t == [] || !IsSpace(t[0])
    requires |r| <= |t| && r == t[..|r|] && IsBlank(t[|r|..])
    ensures r == [] <==> IsBlank(s)
    ensures r != [] ==> !IsSpace(r[0])
  {
    BlankSplit(s, |s| - |t|);
    BlankSplit(t, |r|);
    if r != [] {
      assert r[0] == t[0];
    }
  }

  /** Splitting a string at `k`: it is blank exactly when both pieces are. */
  lemma BlankSplit(s: string, k: nat)
    requires k <= |s|
    ensures IsBlank(s) <==> IsBlank(s[..k]) && IsBlank(s[k..])
  {
    if IsBlank(s[..k]) && IsBlank(s[k..]) {
      forall i | 0 <= i < |s| ensures IsSpace(s[i]) {
        if i < k { assert s[..k][i] == s[i]; } else { assert s[k..][i - k] == s[i]; }
      }
    }
  }

  /** A string that neither starts nor ends with whitespace is its own trim. */
  lemma TrimKeepsUnpadded(s: string)
    requires s == [] || (!IsSpace(s[0]) && !IsSpace(s[|s| - 1]))
    ensures Trim(s) == s
  {
    assert TrimStart(s) == s;
    assert TrimEnd(s) == s;
  }

  /** A prefix `r` of a suffix `t` of `s` is no longer, in code units, than `s`. */
  lemma {:induction false} Utf16LengthPiece(s: string, t: string, r: string)
    requires |t| <= |s| && t == s[|s| - |t|..]
    requires |r| <= |t| && r == t[..|r|]
    ensures Utf16Length(r) <= Utf16Length(s)
  {
    var front, back := s[..|s| - |t|], t[|r|..];
    Utf16LengthAppend(r, back);
    assert t == r + back;
    Utf16LengthAppend(front, t);
    assert s == front + t;
  }

  /** Trimming never lengthens a string, in code units. */
  lemma {:induction false} TrimShortens(s: string)
    ensures Utf16Length(Trim(s)) <= Utf16Length(s)
  {
    Utf16LengthPiece(s, TrimStart(s), TrimEnd(TrimStart(s)));
  }

  /** Trimming twice is trimming once. */
  lemma TrimIdempotent(s: string)
    ensures Trim(Trim(s)) == Trim(s)
  {
    TrimKeepsUnpadded(Trim(s));
  }

  /** `c.toLowerCase()` on the ASCII range. */
  function LowerChar(c: char): char {
    if 'A' <= c <= 'Z' then (c as int + 32) as char else c
  }

  /** `s.toLowerCase()` on ASCII letters, character by character. */
  function Lower(s: string): (r: string)
    ensures |r| == |s|
    ensures forall i :: 0 <= i < |s| ==> r[i] == LowerChar(s[i])
    ensures forall i :: 0 <= i < |r| ==> !('A' <= r[i] <= 'Z')
  {
    seq(|s|, i requires 0 <= i < |s| => LowerChar(s[i]))
  }

  /** Lower-casing a lower-cased string changes nothing. */
  lemma LowerIdempotent(s: string)
    ensures Lower(Lower(s)) == Lower(s)
  {
  }

  /** `s.includes(sub)`, computed by trying every start position in turn. */
  predicate Contains(s: string, sub: string)
    decreases |s|
  {
    sub <= s || (|s| > 0 && Contains(s[1..], sub))
  }

  /** The declarative reading of `includes`: `sub` occurs at some position. */
  ghost predicate OccursAt(s: string, sub: string, i: int) {
    0 <= i && i + |sub| <= |s| && s[i..i + |sub|] == sub
  }

  /** An occurrence at position `i` is found by `Contains`. */
  lemma {:induction false} OccursImpliesContains(s: string, sub: string, i: int)
    requires OccursAt(s, sub, i)
    ensures Contains(s, sub)
    decreases i
  {
    if i == 0 {
      assert sub <= s;
    } else {
      assert s[1..][i - 1..i - 1 + |sub|] == s[i..i + |sub|];
      OccursImpliesContains(s[1..], sub, i - 1);
    }
  }

  /** `Contains` holds exactly when `sub` occurs somewhere in `s`. */
  lemma {:induction false} ContainsIffOccurs(s: string, sub: string)
    ensures Contains(s, sub) <==> exists i :: OccursAt(s, sub, i)
    decreases |s|
  {
    if exists i :: OccursAt(s, sub, i) {
      var i :| OccursAt(s, sub, i);
      OccursImpliesContains(s, sub, i);
    }
    if Contains(s, sub) {
      if sub <= s {
        assert OccursAt(s, sub, 0);
      } else {
        ContainsIffOccurs(s[1..], sub);
        var i :| OccursAt(s[1..], sub, i);
        assert s[1..][i..i + |sub|] == s[i + 1..i + 1 + |sub|];
        assert OccursAt(s, sub, i + 1);
      }
    }
  }

  /** Every string includes the empty string and itself. */
  lemma {:induction false} ContainsTrivial(s: string)
    ensures Contains(s, "")
    ensures Contains(s, s)
  {
  }

  /** The trimmed string is a piece of the original, so the original includes it. */
  lemma TrimOccurs(s: string)
    ensures Contains(s, Trim(s))
  {
    var t := TrimStart(s);
    var a := |s| - |t|;
    assert s[a..a + |Trim(s)|] == t[..|Trim(s)|];
    OccursImpliesContains(s, Trim(s), a);
  }

  /** Lower-casing touches letters only, so it keeps whitespace where it was. */
  lemma LowerKeepsBlank(s: string)
    ensures IsBlank(Lower(s)) <==> IsBlank(s)
  {
  }

  /** The UTF-16 code units JavaScript counts for `c`: two, a surrogate pair, for a
      character outside the Basic Multilingual Plane, else one. */
  function Units(c: char): (n: nat)
    ensures 1 <= n <= 2
  {
    if c as int >= 0x1_0000 then 2 else 1
  }

  /** `s.length`: the number of UTF-16 code units of `s`. */
  function Utf16Length(s: string): (n: nat)
    ensures |s| <= n <= 2 * |s|
    decreases |s|
  {
    if |s| == 0 then 0 else Units(s[0]) + Utf16Length(s[1..])
  }

  /** The length of a concatenation is the sum of the lengths. */
  lemma {:induction false} Utf16LengthAppend(a: string, b: string)
    ensures Utf16Length(a + b) == Utf16Length(a) + Utf16Length(b)
    decreases |a|
  {
    if |a| > 0 {
      assert (a + b)[0] == a[0];
      assert (a + b)[1..] == a[1..] + b;
      Utf16LengthAppend(a[1..], b);
    } else {
      assert a + b == b;
    }
  }

  /** Within the Basic Multilingual Plane `length` counts characters. */
  lemma {:induction false} Utf16LengthBmp(s: string)
    requires forall i :: 0 <= i < |s| ==> Units(s[i]) == 1
    ensures Utf16Length(s) == |s|
    decreases |s|
  {
    if |s| > 0 {
      assert forall i :: 0 <= i < |s| - 1 ==> s[1..][i] == s[i + 1];
      Utf16LengthBmp(s[1..]);
    }
  }

  /** Outside the Basic Multilingual Plane `length` counts two per character. */
  lemma {:induction false} Utf16LengthAstral(s: string)
    requires forall i :: 0 <= i < |s| ==> Units(s[i]) == 2
    ensures Utf16Length(s) == 2 * |s|
    decreases |s|
  {
    if |s| > 0 {
      assert forall i :: 0 <= i < |s| - 1 ==> s[1..][i] == s[i + 1];
      Utf16LengthAstral(s[1..]);
    }
  }

  /** What stands for the first half of a surrogate pair that a cut splits: a
      Dafny string holds whole characters only, and U+FFFD is what a browser shows
      for the lone half. It is one code unit, like the half it replaces. */
  const LoneHalf: char := '\U{FFFD}'

  /** `r` is the first `Utf16Length(r)` code units of `s`: a prefix of `s`, except
      that its last character may stand for the first half of a pair it split. */
  predicate UnitPrefix(r: string, s: string) {
    && |r| <= |s|
    && (|| r == s[..|r|]
        || (|r| > 0 && r[..|r| - 1] == s[..|r| - 1] && r[|r| - 1] == LoneHalf && Units(s[|r| - 1]) == 2))
  }

  /** `s.substring(0, n)`: the first `n` code units, `n` clamped into `0..s.length`. */
  function Clip(s: string, n: int): (r: string)
    ensures Utf16Length(r) == if n <= 0 then 0 else if n >= Utf16Length(s) then Utf16Length(s) else n
    ensures n >= Utf16Length(s) ==> r == s
    ensures UnitPrefix(r, s)
    decreases |s|
  {
    if n <= 0 || |s| == 0 then []
    else if Units(s[0]) <= n then
      var rest := Clip(s[1..], n - Units(s[0]));
      ClipStep(s, rest);
      [s[0]] + rest
    else [LoneHalf]
  }

  /** The recursive step of `Clip`: one whole first character in front of a unit
      prefix of the rest. */
  lemma ClipStep(s: string, rest: string)
    requires |s| > 0 && UnitPrefix(rest, s[1..])
    ensures UnitPrefix([s[0]] + rest, s)
    ensures Utf16Length([s[0]] + rest) == Units(s[0]) + Utf16Length(rest)
  {
    var r := [s[0]] + rest;
    assert r[1..] == rest;
    if rest == s[1..][..|rest|] {
      assert r == s[..|r|];
    } else {
      assert r[..|r| - 1] == [s[0]] + rest[..|rest| - 1];
      assert s[..|r| - 1] == [s[0]] + s[1..][..|rest| - 1];
    }
  }

  /** Cutting `a + b` after as many code units as `a` has gives `a`. */
  lemma {:induction false} ClipWhole(a: string, b: string)
    ensures Clip(a + b, Utf16Length(a)) == a
    decreases |a|
  {
    if |a| > 0 {
      var s, rest, n := a + b, a[1..], Utf16Length(a);
      assert n == Units(a[0]) + Utf16Length(rest);
      assert s[0] == a[0] && s[1..] == rest + b;
      ClipCons(s, n);
      ClipWhole(rest, b);
      assert Clip(s, n) == [a[0]] + rest;
      assert [a[0]] + rest == a;
    }
  }

  /** `Clip` keeps a first character that fits whole. */
  lemma ClipCons(s: string, n: int)
    requires |s| > 0 && Units(s[0]) <= n
    ensures Clip(s, n) == [s[0]] + Clip(s[1..], n - Units(s[0]))
  {
  }

  const Ellipsis: string := "..."

  /** The digit character for `d`. */
  function DigitChar(d: nat): (c: char)
    requires d < 10
    ensures '0' <= c <= '9' && (c as int) - ('0' as int) == d
  {
    ('0' as int + d) as char
  }

  /** The decimal digits of `n`, most significant first, without leading zeros. */
  function NatText(n: nat): (r: string)
    ensures |r| > 0 && forall i :: 0 <= i < |r| ==> '0' <= r[i] <= '9'
  {
    if n < 10 then [DigitChar(n)] else NatText(n / 10) + [DigitChar(n % 10)]
  }

  /** The number a string of decimal digits denotes. */
  function DigitsValue(s: string): nat
    requires forall i :: 0 <= i < |s| ==> '0' <= s[i] <= '9'
  {
    if |s| == 0 then 0
    else DigitsValue(s[..|s| - 1]) * 10 + ((s[|s| - 1] as int) - ('0' as int))
  }

  /** `n.toString()` for an integral JavaScript number: a minus sign, then the digits. */
  function IntText(n: int): (r: string)
    ensures r != "" && (n < 0 <==> r[0] == '-')
  {
    if n < 0 then "-" + NatText(-n) else NatText(n)
  }

  /** Reading the digits back yields the number. */
  lemma {:induction false} NatTextValue(n: nat)
    ensures DigitsValue(NatText(n)) == n
  {
    if n >= 10 {
      NatTextValue(n / 10);
      var r := NatText(n);
      assert r[..|r| - 1] == NatText(n / 10);
    }
  }

  /** Distinct numbers print differently, so ids made from distinct clock readings
      are distinct. */
  lemma IntTextInjective(a: int, b: int)
    requires IntText(a) == IntText(b)
    ensures a == b
  {
    if a < 0 {
      assert b < 0;
      assert NatText(-a) == IntText(a)[1..];
      assert NatText(-b) == IntText(b)[1..];
      NatTextInjective(-a, -b);
    } else {
      assert b >= 0;
      NatTextInjective(a, b);
    }
  }

  /** Distinct naturals have distinct digits. */
  lemma NatTextInjective(a: nat, b: nat)
    requires NatText(a) == NatText(b)
    ensures a == b
  {
    NatTextValue(a);
    NatTextValue(b);
  }

  /** A string that includes `sub + more` includes `sub`: lengthening a search
      text can only lose matches. */
  lemma ContainsPrefixOf(s: string, sub: string, more: string)
    requires Contains(s, sub + more)
    ensures Contains(s, sub)
  {
    ContainsIffOccurs(s, sub + more);
    var i :| OccursAt(s, sub + more, i);
    assert s[i..i + |sub|] == (sub + more)[..|sub|];
    OccursImpliesContains(s, sub, i);
  }

  /** Lower-casing works character by character, so it distributes over `+`. */
  lemma LowerAppend(a: string, b: string)
    ensures Lower(a + b) == Lower(a) + Lower(b)
  {
  }
}

=== FILE: theme_storage.dfy ===
/** `ThemeStorageService`: the chosen theme mode persisted under one key of a
    string store, which is the browser's local storage, else its session storage,
    else an in-memory map. */
module ThemeStorage {
  import opened Wrappers
  import opened Themes

  const ThemeKey: string := "aigram_theme_mode"

  /** Which provider the service uses. */
  datatype Kind = Local | Session | Memory

  /** A provider and its contents. */
  datatype Storage = Storage(kind: Kind, items: map<string, string>)

  /** `getBestStorageProvider()`, given whether each browser store accepted the
      probe write. */
  function BestProvider(localAvailable: bool, sessionAvailable: bool): (k: Kind)
    ensures localAvailable ==> k == Local
    ensures !localAvailable && sessionAvailable ==> k == Session
    ensures !localAvailable && !sessionAvailable ==> k == Memory
  {
    if localAvailable then Local else if sessionAvailable then Session else Memory
  }

  /** The key `isStorageAvailable` writes and removes again to probe a store. */
  const ProbeKey: string := "__storage_test__"

  /** `new ThemeStorageService()`: the best provider, holding what that browser
      store already held, less the probe key; the in-memory store starts empty. */
  function New(localAvailable: bool, sessionAvailable: bool,
               localItems: map<string, string>, sessionItems: map<string, string>): (s: Storage)
    ensures s.kind == BestProvider(localAvailable, sessionAvailable)
    ensures s.kind == Local ==> s.items == localItems - {ProbeKey}
    ensures s.kind == Session ==> s.items == sessionItems - {ProbeKey}
    ensures s.kind == Memory ==> s.items == map[]
  {
    match BestProvider(localAvailable, sessionAvailable)
    case Local => Storage(Local, localItems - {ProbeKey})
    case Session => Storage(Session, sessionItems - {ProbeKey})
    case Memory => Storage(Memory, map[])
  }

  /** `getItem(key)`: the browser stores return what is stored; the in-memory one
      returns `null` also for a stored empty string (`get(key) || null`). */
  function GetItem(s: Storage, key: string): (r: Option<string>)
    ensures key !in s.items ==> r.None?
    ensures key in s.items && (s.kind != Memory || s.items[key] != "") ==> r == Some(s.items[key])
    ensures key in s.items && s.kind == Memory && s.items[key] == "" ==> r.None?
  {
    if key !in s.items then None
    else if s.kind == Memory && s.items[key] == "" then None
    else Some(s.items[key])
  }

  /** `setItem(key, value)`. */
  function SetItem(s: Storage, key: string, value: string): (r: Storage)
    ensures r.kind == s.kind && r.items == s.items[key := value]
    ensures GetItem(r, key) == if s.kind == Memory && value == "" then None else Some(value)
    ensures forall k :: k != key ==> GetItem(r, k) == GetItem(s, k)
  {
    s.(items := s.items[key := value])
  }

  /** `removeItem(key)`. */
  function RemoveItem(s: Storage, key: string): (r: Storage)
    ensures r.kind == s.kind && r.items == s.items - {key}
    ensures GetItem(r, key).None?
    ensures forall k :: k != key ==> GetItem(r, k) == GetItem(s, k)
  {
    s.(items := s.items - {key})
  }

  /** `saveTheme(mode)`: the mode's string value under the theme key. */
  function SaveTheme(s: Storage, mode: ThemeMode): (r: Storage)
    ensures r.kind == s.kind
    ensures ThemeKey in r.items && r.items[ThemeKey] == ModeText(mode)
    ensures forall k :: k != ThemeKey ==> (k in r.items <==> k in s.items)
    ensures forall k :: k != ThemeKey && k in s.items ==> r.items[k] == s.items[k]
  {
    SetItem(s, ThemeKey, ModeText(mode))
  }

  /** `loadTheme()`: the stored mode when the stored text is a non-empty valid
      mode value, else `null`. */
  function LoadTheme(s: Storage): (r: Option<ThemeMode>)
    ensures r.Some? <==> ThemeKey in s.items && IsValidThemeMode(s.items[ThemeKey])
    ensures r.Some? ==> ModeText(r.value) == s.items[ThemeKey]
  {
    match GetItem(s, ThemeKey)
    case None => None
    case Some(text) =>
      ModeTextRoundTrip(Light, text);
      if text != "" && IsValidThemeMode(text) then ParseMode(text) else None
  }

  /** `clearTheme()`. */
  function ClearTheme(s: Storage): (r: Storage)
    ensures r.kind == s.kind && ThemeKey !in r.items
    ensures forall k :: k != ThemeKey ==> (k in r.items <==> k in s.items)
  {
    RemoveItem(s, ThemeKey)
  }

  /** Loading returns the mode last saved, on every provider, and nothing after a
      clear. */
  lemma SaveThenLoad(s: Storage, mode: ThemeMode)
    ensures LoadTheme(SaveTheme(s, mode)) == Some(mode)
    ensures LoadTheme(ClearTheme(s)) == None
  {
    var r := SaveTheme(s, mode);
    ModeTextRoundTrip(mode, ModeText(mode));
    assert LoadTheme(r).Some?;
    ModeTextRoundTrip(LoadTheme(r).value, ModeText(mode));
  }

  /** A theme saved in a browser store is found by the next service constructed
      over that store's contents; the in-memory store forgets it. */
  lemma SavedThemeSurvivesRestart(s: Storage, mode: ThemeMode, other: map<string, string>)
    ensures s.kind == Local ==>
      LoadTheme(New(true, false, SaveTheme(s, mode).items, other)) == Some(mode)
    ensures s.kind == Session ==>
      LoadTheme(New(false, true, other, SaveTheme(s, mode).items)) == Some(mode)
    ensures LoadTheme(New(false, false, SaveTheme(s, mode).items, other)) == None
  {
    var saved := SaveTheme(s, mode).items;
    assert ThemeKey != ProbeKey;
    SaveThenLoad(s, mode);
    assert LoadTheme(Storage(s.kind, saved)) == Some(mode);
  }
}

=== FILE: theme_store.dfy ===
/** `useThemeStore`: the current theme, the chosen mode, whether that mode is
    SYSTEM, the last colour-scheme preference reported, and whether the store was
    initialised; every choice is persisted through the theme storage. Each
    operation that calls `createTheme` takes the colour-scheme preference read at
    that moment as a parameter. */
module ThemeStore {
  import opened Wrappers
  import opened Themes
  import opened ThemeStorage

  datatype State = State(currentTheme: Theme, mode: ThemeMode, isSystemTheme: bool,
                         systemPrefersDark: bool, initialized: bool, storage: Storage)

  /** What every reachable state satisfies: the current theme is a concrete light
      or dark theme, and `isSystemTheme` says whether the chosen mode is SYSTEM. */
  predicate Consistent(st: State) {
    Concrete(st.currentTheme) && (st.isSystemTheme <==> st.mode == System)
  }

  /** The store as created: the light theme, not initialised. */
  function Initial(storage: Storage): (st: State)
    ensures Consistent(st) && !st.initialized && st.mode == Light && st.storage == storage
  {
    State(CreateTheme(Light, false), Light, false, false, false, storage)
  }

  /** `setTheme(mode)`: the mode's theme becomes current and the mode is saved. */
  function SetTheme(st: State, mode: ThemeMode, media: bool): (r: State)
    ensures Consistent(r)
    ensures r.mode == mode && r.currentTheme == CreateTheme(mode, media)
    ensures r.storage == SaveTheme(st.storage, mode)
    ensures r.systemPrefersDark == st.systemPrefersDark && r.initialized == st.initialized
  {
    st.(currentTheme := CreateTheme(mode, media), mode := mode, isSystemTheme := mode == System,
        storage := SaveTheme(st.storage, mode))
  }

  /** The mode `toggleTheme` moves to: LIGHT, DARK, SYSTEM, and round again. */
  function Next(m: ThemeMode): (n: ThemeMode)
    ensures n != m
  {
    match m
    case Light => Dark
    case Dark => System
    case System => Light
  }

  /** `toggleTheme()`. */
  function Toggle(st: State, media: bool): (r: State)
    ensures r.mode == Next(st.mode) && r.currentTheme == CreateTheme(Next(st.mode), media)
    ensures r.storage == SaveTheme(st.storage, Next(st.mode))
  {
    SetTheme(st, Next(st.mode), media)
  }

  /** `getThemeColors()`. */
  function ThemeColors(st: State): Palette {
    st.currentTheme.colors
  }

  /** `isDarkMode()`: a dark current theme, or a SYSTEM one with a dark preference. */
  function IsDarkMode(st: State): (b: bool)
    ensures b <==> st.currentTheme.mode != Light && (st.currentTheme.mode == System ==> st.systemPrefersDark)
  {
    st.currentTheme.mode == Dark || (st.currentTheme.mode == System && st.systemPrefersDark)
  }

  /** `isLightMode()`: the negation of `isDarkMode()`, so a light current theme,
      or a SYSTEM one without a dark preference. */
  function IsLightMode(st: State): (b: bool)
    ensures b <==> st.currentTheme.mode == Light || (st.currentTheme.mode == System && !st.systemPrefersDark)
  {
    !IsDarkMode(st)
  }

  /** `_initializeTheme()`: once only; the saved mode, or SYSTEM when none is
      saved, becomes current, together with the preference read now. */
  function Initialize(st: State, media: bool): (r: State)
    ensures st.initialized ==> r == st
    ensures !st.initialized ==>
      var mode := LoadTheme(st.storage).GetOr(System);
      && r.initialized && r.mode == mode && r.currentTheme == CreateTheme(mode, media)
      && r.systemPrefersDark == media && r.storage == st.storage
    ensures !st.initialized ==> Consistent(r)
  {
    if st.initialized then st
    else
      var mode := LoadTheme(st.storage).GetOr(System);
      st.(currentTheme := CreateTheme(mode, media), mode := mode, isSystemTheme := mode == System,
          systemPrefersDark := media, initialized := true)
  }

  /** `_updateSystemPreference(prefersDark)`: the preference is recorded, and a
      SYSTEM choice takes the theme the preference now read (`media`) gives. */
  function UpdateSystemPreference(st: State, prefersDark: bool, media: bool): (r: State)
    ensures r.systemPrefersDark == prefersDark
    ensures r.mode == st.mode && r.isSystemTheme == st.isSystemTheme && r.storage == st.storage
    ensures st.isSystemTheme ==> r.currentTheme == SystemTheme(media)
    ensures !st.isSystemTheme ==> r.currentTheme == st.currentTheme
  {
    var st1 := st.(systemPrefersDark := prefersDark);
    if st.isSystemTheme then st1.(currentTheme := CreateTheme(System, media)) else st1
  }

  /** Every operation keeps the store consistent. */
  lemma OperationsKeepConsistent(st: State, mode: ThemeMode, prefersDark: bool, media: bool)
    requires Consistent(st)
    ensures Consistent(SetTheme(st, mode, media))
    ensures Consistent(Toggle(st, media))
    ensures Consistent(Initialize(st, media))
    ensures Consistent(UpdateSystemPreference(st, prefersDark, media))
  {
  }

  /** In a consistent store the current theme alone decides dark mode: the
      SYSTEM branch of `isDarkMode` is never taken, and the recorded preference
      plays no part. */
  lemma DarkModeIsThemeMode(st: State)
    requires Consistent(st)
    ensures IsDarkMode(st) <==> st.currentTheme.mode == Dark
    ensures IsDarkMode(st) <==> ThemeColors(st) == DarkColors
  {
  }

  /** A SYSTEM choice follows the preference: after it is reported (and read
      back the same), dark mode is exactly the preference. */
  lemma SystemFollowsPreference(st: State, prefersDark: bool)
    requires Consistent(st) && st.mode == System
    ensures IsDarkMode(UpdateSystemPreference(st, prefersDark, prefersDark)) == prefersDark
  {
  }

  /** Three toggles come back to the starting mode and theme. */
  lemma ToggleCycles(st: State, media: bool)
    requires Consistent(st) && st.currentTheme == CreateTheme(st.mode, media)
    ensures var r := Toggle(Toggle(Toggle(st, media), media), media);
      r.mode == st.mode && r.currentTheme == st.currentTheme && r.isSystemTheme == st.isSystemTheme
  {
  }

  /** A second initialisation changes nothing. */
  lemma InitializeOnce(st: State, media1: bool, media2: bool)
    ensures Initialize(Initialize(st, media1), media2) == Initialize(st, media1)
  {
  }

  /** The mode chosen is the mode a new store starts with after its
      initialisation reads the same storage. */
  lemma ChoiceSurvivesReload(st: State, mode: ThemeMode, media: bool, media2: bool)
    ensures var saved := SetTheme(st, mode, media).storage;
      Initialize(Initial(saved), media2).mode == mode
  {
    SaveThenLoad(st.storage, mode);
  }

  /** With nothing saved, the first initialisation chooses SYSTEM, which shows the
      theme of the preference. */
  lemma FirstRunFollowsSystem(storage: Storage, media: bool)
    requires LoadTheme(storage).None?
    ensures var r := Initialize(Initial(storage), media);
      r.mode == System && r.isSystemTheme && (IsDarkMode(r) <==> media)
  {
  }
}

=== FILE: themes.dfy ===
/** `ThemeRegistry`: the three theme modes, their string values, and the theme
    each mode stands for. The SYSTEM mode stands for the light or the dark theme,
    as the operating system's colour-scheme preference says at that moment. */
module Themes {
  import opened Wrappers
  import opened Errors

  /** `ThemeMode`. */
  datatype ThemeMode = Light | Dark | System

  /** The enum's string values. */
  function ModeText(m: ThemeMode): (s: string)
    ensures s == (match m case Light => "light" case Dark => "dark" case System => "system")
  {
    match m
    case Light => "light"
    case Dark => "dark"
    case System => "system"
  }

  /** The mode whose string value `s` is, if any. */
  function ParseMode(s: string): (r: Option<ThemeMode>)
    ensures r.Some? ==> ModeText(r.value) == s
  {
    if s == "light" then Some(Light)
    else if s == "dark" then Some(Dark)
    else if s == "system" then Some(System)
    else None
  }

  /** `isValidThemeMode(mode)`: `s` is one of the enum's values. */
  function IsValidThemeMode(s: string): (b: bool)
    ensures b <==> s == "light" || s == "dark" || s == "system"
  {
    assert ModeText(Light) == "light" && ModeText(Dark) == "dark" && ModeText(System) == "system";
    exists m: ThemeMode :: ModeText(m) == s
  }

  /** A mode's string value reads back as that mode, and exactly the valid
      strings read back as a mode. */
  lemma ModeTextRoundTrip(m: ThemeMode, s: string)
    ensures ParseMode(ModeText(m)) == Some(m)
    ensures ParseMode(s).Some? <==> IsValidThemeMode(s)
  {
    if IsValidThemeMode(s) {
      var k: ThemeMode :| ModeText(k) == s;
    }
  }

  /** The colour set of a theme; the individual colours are left out. */
  datatype Palette = LightColors | DarkColors

  /** `ITheme`. */
  datatype Theme = Theme(mode: ThemeMode, colors: Palette, name: string)

  /** A theme whose colours are those of its mode, and whose mode is never SYSTEM. */
  predicate Concrete(t: Theme) {
    t.mode != System && (t.colors == DarkColors <==> t.mode == Dark)
  }

  /** `createTheme(mode)`, with `prefersDark` the colour-scheme preference read when
      it is called. */
  function CreateTheme(mode: ThemeMode, prefersDark: bool): (t: Theme)
    ensures Concrete(t)
    ensures mode == Light ==> t.mode == Light && t.name == "Light"
    ensures mode == Dark ==> t.mode == Dark && t.name == "Dark"
    ensures mode == System && prefersDark ==> t.mode == Dark && t.name == "System (Dark)"
    ensures mode == System && !prefersDark ==> t.mode == Light && t.name == "System (Light)"
  {
    match mode
    case Light => Theme(Light, LightColors, "Light")
    case Dark => Theme(Dark, DarkColors, "Dark")
    case System => SystemTheme(prefersDark)
  }

  /** `getSystemTheme()`. */
  function SystemTheme(prefersDark: bool): (t: Theme)
    ensures Concrete(t) && (t.mode == Dark <==> prefersDark)
  {
    if prefersDark then Theme(Dark, DarkColors, "System (Dark)") else Theme(Light, LightColors, "System (Light)")
  }

  /** `createTheme` called with a string that may not be a mode: anything else
      than the three values is refused with "Unknown theme mode: <value>". */
  function CreateThemeFromText(s: string, prefersDark: bool): (r: Result<Theme, Failure>)
    ensures r.Err? <==> !IsValidThemeMode(s)
    ensures r.Err? ==> r.error == Plain(UnknownThemeMode + s)
    ensures r.Ok? ==> exists m: ThemeMode :: ModeText(m) == s && r.value == CreateTheme(m, prefersDark)
  {
    ModeTextRoundTrip(Light, s);
    match ParseMode(s)
    case None => Err(Plain(UnknownThemeMode + s))
    case Some(m) => Ok(CreateTheme(m, prefersDark))
  }

  /** `getAllThemes()`: one theme per mode, in the enum's order. */
  function GetAllThemes(prefersDark: bool): (r: seq<Theme>)
    ensures |r| == 3
    ensures r[0].name == "Light" && r[1].name == "Dark"
    ensures r[2] == SystemTheme(prefersDark)
    ensures forall i :: 0 <= i < |r| ==> Concrete(r[i])
  {
    [CreateTheme(Light, prefersDark), CreateTheme(Dark, prefersDark), CreateTheme(System, prefersDark)]
  }

  /** The SYSTEM theme is the light or the dark one under another name. */
  lemma SystemMatchesPreferred(prefersDark: bool)
    ensures var t := CreateTheme(System, prefersDark);
      var u := CreateTheme(if prefersDark then Dark else Light, prefersDark);
      t.mode == u.mode && t.colors == u.colors && t.name != u.name
  {
  }
}

=== FILE: use_chat.dfy ===
/** `useChat`, the refactored send-message hook: the same optimistic entry in the
    query cache, a mutation that is `chatService.sendMessage`, a rollback on error,
    and invalidation of the chat's messages and the chat list on success only. */
module UseChat {
  import opened Wrappers
  import opened Errors
  import opened Text
  import opened BaseStore
  import opened MessageEntity
  import QC = QueryCache
  import CS = ChatService

  /** The optimistic message of `onMutate`: a `temp-` id from the clock, both time
      stamps from the same reading, and status PENDING. */
  function TempMessage(chatId: string, text: string, clock: Clock): (m: Message)
    ensures m.id == "temp-" + IntText(clock.now)
    ensures m.createdAt == m.updatedAt == clock.now
    ensures m.body == MessageData(text, true, clock.text, chatId, Pending)
  {
    Entity("temp-" + IntText(clock.now), clock.now, clock.now, MessageData(text, true, clock.text, chatId, Pending))
  }

  /** `onMutate`. */
  function OnMutate(c: QC.Cache<Message>, chatId: string, text: string, clock: Clock): (r: QC.Mutated<Message>)
    ensures r.previous == QC.Get(c, chatId)
    ensures QC.Get(r.cache, chatId) == Some(QC.Get(c, chatId).GetOr([]) + [TempMessage(chatId, text, clock)])
    ensures r.cache.invalidated == c.invalidated
  {
    QC.OnMutate(c, chatId, TempMessage(chatId, text, clock))
  }

  /** `onSuccess` or `onError`, whichever applies. */
  function Settle<R>(c: QC.Cache<Message>, chatId: string, previous: Option<seq<Message>>,
                     result: Result<R, Failure>): (r: QC.Cache<Message>)
    ensures result.Ok? ==> r.messages == c.messages && r.invalidated == c.invalidated + [QC.MessagesOf(chatId), QC.Chats]
    ensures result.Err? ==> r.invalidated == c.invalidated
    ensures result.Err? && previous.Some? ==> QC.Get(r, chatId) == previous
    ensures result.Err? && previous.None? ==> r == c
  {
    if result.Ok? then QC.InvalidateBoth(c, chatId) else QC.Rollback(c, chatId, previous)
  }

  /** One use of the hook: the cache, the service and what `mutate` settled with. */
  datatype Round = Round(cache: QC.Cache<Message>, svc: CS.Service, result: Result<CS.Exchange, Failure>)

  /** `sendMessage(chatId, text)` through the hook. */
  function Send(c: QC.Cache<Message>, svc: CS.Service, chatId: string, text: string,
                clock: Clock, env: CS.SendEnv): (r: Round)
    ensures var o := CS.SendMessage(svc, chatId, text, env);
      r.svc == o.svc && r.result == o.result
  {
    var m := OnMutate(c, chatId, text, clock);
    var o := CS.SendMessage(svc, chatId, text, env);
    Round(Settle(m.cache, chatId, m.previous, o.result), o.svc, o.result)
  }

  /** After a success the cache still shows the optimistic message until the
      invalidated lists are refetched. After a failure nothing is invalidated: a
      cached list is put back as it was, and a chat with no cached list keeps the
      PENDING message alone. */
  lemma SendSettles(c: QC.Cache<Message>, svc: CS.Service, chatId: string, text: string,
                    clock: Clock, env: CS.SendEnv)
    ensures var r := Send(c, svc, chatId, text, clock, env);
      var temp := TempMessage(chatId, text, clock);
      && (r.result.Ok? ==>
            && QC.Get(r.cache, chatId) == Some(QC.Get(c, chatId).GetOr([]) + [temp])
            && r.cache.invalidated == c.invalidated + [QC.MessagesOf(chatId), QC.Chats])
      && (r.result.Err? && chatId in c.messages ==> r.cache == c)
      && (r.result.Err? && chatId !in c.messages ==>
            QC.Get(r.cache, chatId) == Some([temp]) && r.cache.invalidated == c.invalidated)
  {
    var r := Send(c, svc, chatId, text, clock, env);
    if r.result.Err? {
      QC.RollbackUndoesMutate(c, chatId, TempMessage(chatId, text, clock));
    }
  }

  /** Sending to an unknown chat fails before the service changes, and the cache
      ends as the rollback leaves it. */
  lemma UnknownChatRollsBack(c: QC.Cache<Message>, svc: CS.Service, chatId: string, text: string,
                             clock: Clock, env: CS.SendEnv)
    requires chatId !in svc.chats.items
    ensures var r := Send(c, svc, chatId, text, clock, env);
      && r.svc == svc && r.result == Err(Plain(ChatNotFound))
      && r.cache.invalidated == c.invalidated
      && (chatId in c.messages ==> r.cache == c)
  {
    SendSettles(c, svc, chatId, text, clock, env);
  }
}

=== FILE: use_chat_legacy.dfy ===
/** `useChat`, the first version of the send-message hook: an optimistic entry in
    the query cache, a mutation that stores the user's message itself and then
    calls `messagesStore.sendMessage`, a rollback on error, and invalidation of
    the chat's messages and the chat list once the mutation settles. */
module UseChatLegacy {
  import opened Wrappers
  import opened Errors
  import opened Text
  import opened BaseStore
  import opened AIProvider
  import LC = LegacyChats
  import LM = LegacyMessages
  import AI = OpenAIService
  import QC = QueryCache

  /** The stores after the mutation, what it resolved or rejected with, and the
      history the client was asked with, if any. */
  datatype Mutation = Mutation(messages: LM.Store, chats: LC.Store,
                               result: Result<seq<LM.Message>, Failure>, asked: Option<seq<ChatMessage>>)

  /** How the mutation ends once the store has done its part: rejected with the
      store's error, or resolved with the chat's stored list. */
  function Finish(sent: LM.Sent, chatId: string): (r: Mutation)
    ensures r.messages == sent.messages && r.chats == sent.chats && r.asked == sent.asked
    ensures sent.error.Some? <==> r.result.Err?
    ensures r.result.Err? ==> r.result.error == sent.error.value
    ensures r.result.Ok? ==> r.result.value == LM.GetMessages(sent.messages, chatId)
  {
    Mutation(sent.messages, sent.chats,
             if sent.error.Some? then Err(sent.error.value) else Ok(LM.GetMessages(sent.messages, chatId)),
             sent.asked)
  }

  /** `mutationFn` as written: the hook appends its own copy of the user's message
      (stamped `builtAt`) to the store, then `sendMessage` stores another one and
      sends a history that already holds the first copy. */
  function MutationFn(ms: LM.Store, cs: LC.Store, ai: AI.State, chatId: string, text: string,
                      builtAt: Clock, sentAt: Clock, repliedAt: Clock, send: AI.Request -> AI.Reply): (r: Mutation)
    ensures chatId !in cs.items ==>
      && r.result == Ok(LM.GetMessages(ms, chatId) + [LM.UserMessage(chatId, text, builtAt)])
      && r.asked.None? && r.chats == cs
  {
    var ms0 := ms[chatId := LM.GetMessages(ms, chatId) + [LM.UserMessage(chatId, text, builtAt)]];
    Finish(LM.SendMessage(ms0, cs, ai, chatId, text, sentAt, repliedAt, send), chatId)
  }

  /** The hook as written stores the user's text twice, one copy from the hook and
      one from the store, and the client is asked with a history whose last two
      entries are both that text from the user. */
  lemma DuplicatesUserMessage(ms: LM.Store, cs: LC.Store, ai: AI.State, chatId: string, text: string,
                              builtAt: Clock, sentAt: Clock, repliedAt: Clock, send: AI.Request -> AI.Reply)
    requires chatId in cs.items
    ensures var r := MutationFn(ms, cs, ai, chatId, text, builtAt, sentAt, repliedAt, send);
      var prior := LM.GetMessages(ms, chatId);
      var stored := LM.GetMessages(r.messages, chatId);
      && |stored| >= |prior| + 2
      && stored[..|prior| + 2] == prior + [LM.UserMessage(chatId, text, builtAt), LM.UserMessage(chatId, text, sentAt)]
      && r.asked.Some? && |r.asked.value| >= 2
      && r.asked.value[|r.asked.value| - 2] == ChatMessage(User, text)
      && r.asked.value[|r.asked.value| - 1] == ChatMessage(User, text)
  {
    var prior := LM.GetMessages(ms, chatId);
    var first := LM.UserMessage(chatId, text, builtAt);
    var second := LM.UserMessage(chatId, text, sentAt);
    var ms0 := ms[chatId := prior + [first]];
    var sent := LM.SendMessage(ms0, cs, ai, chatId, text, sentAt, repliedAt, send);
    assert MutationFn(ms, cs, ai, chatId, text, builtAt, sentAt, repliedAt, send) == Finish(sent, chatId);
    assert LM.GetMessages(ms0, chatId) == prior + [first];
    LM.SendMessageOutcome(ms0, cs, ai, chatId, text, sentAt, repliedAt, send);
    var h := LM.History(cs.items[chatId].name, prior + [first], text);
    assert h[|prior| + 1] == LM.AsChatMessage(first);
    var answer := AI.Chat(ai, h, send);
    var stored := LM.GetMessages(sent.messages, chatId);
    if answer.Err? {
      assert stored == prior + [first] + [second];
    } else {
      var reply := LM.ReplyMessage(chatId, answer.value, repliedAt);
      assert stored == prior + [first] + [second, reply];
      assert stored[..|prior| + 2] == prior + [first] + [second];
    }
  }

  /** `mutationFn` with the hook's own store write left out: the store alone adds
      the user's message. */
  function MutationFnOnce(ms: LM.Store, cs: LC.Store, ai: AI.State, chatId: string, text: string,
                          sentAt: Clock, repliedAt: Clock, send: AI.Request -> AI.Reply): (r: Mutation)
    ensures chatId !in cs.items ==> r.result == Ok(LM.GetMessages(ms, chatId)) && r.messages == ms && r.asked.None?
  {
    Finish(LM.SendMessage(ms, cs, ai, chatId, text, sentAt, repliedAt, send), chatId)
  }

  /** Without the hook's own write, the user's text is stored once, followed by the
      reply when there is one, and the client sees it once, after the history. */
  lemma StoresUserMessageOnce(ms: LM.Store, cs: LC.Store, ai: AI.State, chatId: string, text: string,
                              sentAt: Clock, repliedAt: Clock, send: AI.Request -> AI.Reply)
    requires chatId in cs.items
    ensures var r := MutationFnOnce(ms, cs, ai, chatId, text, sentAt, repliedAt, send);
      var prior := LM.GetMessages(ms, chatId);
      var stored := LM.GetMessages(r.messages, chatId);
      && r.asked == Some(LM.History(cs.items[chatId].name, prior, text))
      && (r.result.Err? ==> stored == prior + [LM.UserMessage(chatId, text, sentAt)])
      && (r.result.Ok? ==> |stored| == |prior| + 2 && stored[..|prior| + 1] == prior + [LM.UserMessage(chatId, text, sentAt)]
                           && !stored[|prior| + 1].isOutgoing)
  {
    LM.SendMessageOutcome(ms, cs, ai, chatId, text, sentAt, repliedAt, send);
    var r := MutationFnOnce(ms, cs, ai, chatId, text, sentAt, repliedAt, send);
    var prior := LM.GetMessages(ms, chatId);
    var user := LM.UserMessage(chatId, text, sentAt);
    if r.result.Ok? {
      var stored := LM.GetMessages(r.messages, chatId);
      var reply :| stored == prior + [user, reply] && !reply.isOutgoing;
      assert stored[..|prior| + 1] == prior + [user];
    }
  }

  /** The optimistic message of `onMutate`: a `temp-` id from the clock. */
  function TempMessage(chatId: string, text: string, clock: Clock): (m: LM.Message)
    ensures m.id == "temp-" + IntText(clock.now)
    ensures m.text == text && m.isOutgoing && m.chatId == chatId
  {
    LM.Message("temp-" + IntText(clock.now), text, true, clock.text, chatId)
  }

  /** `onMutate`. */
  function OnMutate(c: QC.Cache<LM.Message>, chatId: string, text: string, clock: Clock): (r: QC.Mutated<LM.Message>)
    ensures r.previous == QC.Get(c, chatId)
    ensures QC.Get(r.cache, chatId) == Some(QC.Get(c, chatId).GetOr([]) + [TempMessage(chatId, text, clock)])
  {
    QC.OnMutate(c, chatId, TempMessage(chatId, text, clock))
  }

  /** `onError` when the mutation rejected, then `onSettled` whatever the outcome. */
  function Settle<R>(c: QC.Cache<LM.Message>, chatId: string, previous: Option<seq<LM.Message>>,
                     result: Result<R, Failure>): (r: QC.Cache<LM.Message>)
    ensures r.invalidated == c.invalidated + [QC.MessagesOf(chatId), QC.Chats]
    ensures result.Ok? ==> r.messages == c.messages
    ensures result.Err? && previous.Some? ==> QC.Get(r, chatId) == previous
    ensures forall other :: other != chatId ==> QC.Get(r, other) == QC.Get(c, other)
  {
    var rolled := if result.Err? then QC.Rollback(c, chatId, previous) else c;
    QC.InvalidateBoth(rolled, chatId)
  }

  /** Whatever the outcome, both the chat's messages and the chat list are
      invalidated, so the optimistic message is replaced at the next refetch; a
      failure with a snapshot puts the cache back as it was. */
  lemma SettledCycleRefetches<R>(c: QC.Cache<LM.Message>, chatId: string, text: string, clock: Clock,
                                 result: Result<R, Failure>)
    ensures var m := OnMutate(c, chatId, text, clock);
      var r := Settle(m.cache, chatId, m.previous, result);
      && r.invalidated == c.invalidated + [QC.MessagesOf(chatId), QC.Chats]
      && (result.Err? && chatId in c.messages ==> r.messages == c.messages)
  {
    var m := OnMutate(c, chatId, text, clock);
    if result.Err? && chatId in c.messages {
      QC.RollbackUndoesMutate(c, chatId, TempMessage(chatId, text, clock));
    }
  }
}

=== FILE: wrappers.dfy ===
/** Optional values and results: the model's stand-ins for `undefined` and for
    exceptions thrown by the modelled code. */
module Wrappers {

  /** `None` plays the role of JavaScript's `undefined` / `null`. */
  datatype Option<+T> = None | Some(value: T) {

    /** The wrapped value, or `default` when there is none (`x ?? default`). */
    function GetOr(default: T): T {
      match this
      case Some(v) => v
      case None => default
    }
  }

  /** `Err` plays the role of a thrown exception; `Ok` of a normal return. */
  datatype Result<+T, +E> = Ok(value: T) | Err(error: E) {

    predicate IsFailure() {
      Err?
    }

    function PropagateFailure<U>(): Result<U, E>
      requires Err?
    {
      Err(error)
    }

    function Extract(): T
      requires Ok?
    {
      value
    }
  }
}
